=== FILE: README.md ===
# Saricycle core, modelled in Dafny

Saricycle is a recycling-rewards web application. Regular users earn points for recycling and for learning modules. They redeem the points for catalogue products and unlock achievements. Administrators manage accounts and products. Barangay officials (the local government unit) see community analytics.

The application is a React front end over a hosted realtime database. This project lifts out the deterministic logic underneath the pages and models it as pure functions over an explicit, immutable database value:

- `Store.Db` holds the Users, Admins, Barangay and Products tables. Each table is a sequence of `Entry(key, value)` in key order, as the database lists children.
- A `push` appends under a fresh key, longer than every existing key.
- Time is an integer "now" in milliseconds. Calendar days are a caller-supplied function from times to day indices.

Modules follow the source files:

- `Achievements`: the engine in `achievements.js`.
- `AchievementTests`: the console test utilities.
- `Activities`: the activity log.
- `Wallet`: the wallet page metrics.
- `Redeem`: the rewards page.
- `Auth`: the authentication context.
- `Authentication`: the sign-in page.
- `Routing`: the route guard and the route table.
- `Settings`: the settings modal.
- `ManageAccounts` and `Catalogue`: the two admin pages.
- `Learn`, `Home`, `Landing` and `ProfileDropdown`: the home-side pages.
- `Dashboard`, `BarangayDashboard`, `ViewUsers` and `ViewActivities`: the analytics pages.

The shared helper modules are `Wrappers`, `Text`, `Seqs`, `Tables`, `Numbers` and `Store`:

- sequence filters, sums and a stable sort;
- ASCII case mapping, substring search and splitting;
- trimming and `parseInt` over JavaScript's whitespace set (the space separators, tab, line terminators and the byte-order mark);
- integer/decimal conversion;
- the table operations.

JavaScript semantics are written out where they matter:

- `x || default` on missing fields;
- `Math.floor` and `Math.round` for positive divisors;
- `undefined + "x"` is the text `"undefined"` followed by `"x"`;
- `parseInt(...) || 0`.

## Model

| member | source | states |
|---|---|---|
| Achievements.Def | src/firebase/achievements.js:21-141 | Each of the eight definitions carries its own key, a positive threshold and positive reward points; the badge is the key plus `_badge`. |
| Achievements.TypeOf | src/firebase/achievements.js:149-152 | The definition lookup by string succeeds exactly for the eight keys and returns the type with that key. |
| Achievements.TypeOfKey | src/firebase/achievements.js:21-141 | Every type is found again from its key, so the eight keys are distinct. |
| Achievements.Percentage | src/firebase/achievements.js:202 | min(100·current/threshold, 100) as an exact real: at most 100, non-negative for non-negative progress, 100 from the threshold on, below 100 under it, 0 at 0. |
| Achievements.PercentageOf | src/firebase/achievements.js:201-202 | The same bounds, with each type's threshold. |
| Achievements.PercentageOfThreshold | src/firebase/achievements.js:201-202 | The per-type percentage agrees with the general formula at that type's threshold. |
| Achievements.ProgressRecord | src/firebase/achievements.js:201-221 | The record written: current and target progress, the exact percentage; unlocked iff current ≥ threshold; `unlockedAt` and `rewards` present iff unlocked, then stamped now with the definition's rewards and 100%. |
| Achievements.WriteRecord | src/firebase/achievements.js:200-223 | Setting one achievement node replaces that record and leaves every other type, every other user and the other tables unchanged. |
| Achievements.UpdateProgress | src/firebase/achievements.js:189-231 | Fails with the user-id error for an empty id and with the unknown-type error for a type outside the eight; otherwise it writes the progress record and returns unlocked iff current ≥ threshold. |
| Achievements.UpdateProgressOk | src/firebase/achievements.js:189-231 | For a known type and a non-empty user id the update always succeeds, with exactly that write and flag. |
| Achievements.UpdateForgetsHistory | src/firebase/achievements.js:205-223 | The stored record and the returned flag depend only on the call's arguments, never on what was stored before. |
| Achievements.RelockOnLowerProgress | src/firebase/achievements.js:205-223 | An unlocked achievement updated with lower progress is locked again and loses `unlockedAt` and `rewards`: unlocking is not monotone. |
| Achievements.UnlockedAtRefreshed | src/firebase/achievements.js:217-219 | Every unlocked update stamps `unlockedAt` with that call's time, not the first unlock's time. |
| Achievements.Unlock | src/firebase/achievements.js:143-180 | `unlockAchievement` fails on an empty id or unknown type; otherwise it stores an unlocked record at 100% with the rewards, whose progress is the given one or, when that is missing or 0, the threshold; nothing else in the store changes. |
| Achievements.CheckList | src/firebase/achievements.js:292-340 | Seven checks of distinct types in the fixed order, plus Green Pioneer at progress 1 exactly when the user is an early adopter. |
| Achievements.CheckAndUpdate | src/firebase/achievements.js:290-361 | Returns every checked type whose progress meets its threshold, in checking order; stores each checked type's progress record; leaves unchecked types, other users and other tables alone. |
| Achievements.RunChecks | src/firebase/achievements.js:342-356 | The loop over distinct checks returns the kinds of the passing checks and writes each check's record. |
| Achievements.ReportedIsFiltered | src/firebase/achievements.js:342-354 | Pushing each passing type in turn gives the passing checks' kinds in order. |
| Achievements.ChecksWrittenAll | src/firebase/achievements.js:344-349 | Once all checks are written, each checked type holds its record and every other type is as before. |
| Achievements.PioneerNeverUnlocked | src/firebase/achievements.js:335-340 | Green Pioneer is never in the returned list: progress 1 never reaches its threshold of 100. |
| Achievements.UnlockedTypesIff | src/firebase/achievements.js:344-354 | A type is returned iff some check of it meets the threshold. |
| Achievements.Initialize | src/firebase/achievements.js:408-425 | Fails for an empty user id; otherwise every one of the eight types holds its progress-0 record, and the rest of the account, the other users and the other tables are unchanged. |
| Achievements.InitializeAllLocked | src/firebase/achievements.js:408-419 | After initialisation every type is locked at 0% with no `unlockedAt` and no rewards. |
| Achievements.Records | src/firebase/achievements.js:254-260 | The listed records are exactly the stored ones, at most eight. |
| Achievements.DisplayOrderIsPreorder | src/firebase/achievements.js:261-269 | The listing comparator is a total preorder, so the sort is well defined. |
| Achievements.UserAchievements | src/firebase/achievements.js:239-283 | Nothing for an empty id; otherwise a permutation of the stored records with unlocked ones first, unlocked ones by unlock time descending and locked ones by percentage descending. |
| Achievements.Stats | src/firebase/achievements.js:368-402 | Fails exactly for an empty id; otherwise the statistics of the user's stored records. |
| Achievements.StatsOf | src/firebase/achievements.js:382-388 | The total is the record count; unlocked and in-progress are the counts of unlocked records and of locked records with progress, together never above the total; the rate is the unlocked share of the total as a percentage, 0 for no records. |
| Achievements.Rate | src/firebase/achievements.js:386-388 | Lies in [0,100]; 0 for an empty whole; otherwise rate × whole = part × 100, so 100 when all are unlocked. |
| AchievementTests.NothingUnlocks | src/firebase/achievements.js:303-356 | Statistics below every threshold unlock nothing. |
| AchievementTests.AllButPioneerUnlock | src/firebase/achievements.js:303-356 | Statistics at every reachable threshold unlock exactly the seven non-pioneer types, in order. |
| AchievementTests.ScenarioOutcomes | src/utils/achievementTestUtils.js:26-66 | The "New User" and "Active Recycler" scenarios unlock nothing; "Eco Warrior" unlocks exactly the seven non-pioneer types. |
| AchievementTests.AllButPioneerStored | src/utils/achievementTestUtils.js:53-65 | After the Eco Warrior check the seven types are stored unlocked and Green Pioneer stays locked at progress 1. |
| AchievementTests.RunScenarios | src/utils/achievementTestUtils.js:17-77 | `testAchievements` does nothing without a user id; otherwise it reports [], [] and the seven types, leaving those stored unlocked. |
| AchievementTests.ForceUnlock | src/utils/achievementTestUtils.js:85-109 | A missing argument or unknown type returns without writing; otherwise one progress update with the given progress or the threshold, reporting whether it unlocked. |
| AchievementTests.ForceUnlockDefaultUnlocks | src/utils/achievementTestUtils.js:97-104 | With the default progress every defined type is reported and stored unlocked. |
| AchievementTests.RunSteps | src/utils/achievementTestUtils.js:134-142 | Each step reports unlocked iff its progress meets the threshold; the last step's record is what remains. |
| AchievementTests.StepsStayUnlocked | src/utils/achievementTestUtils.js:123-142 | With non-decreasing steps, once a step reports unlocked every later step does too. |
| AchievementTests.ProgressiveTestsShape | src/utils/achievementTestUtils.js:123-129 | Each of the five sequences has six steps whose fifth equals the threshold, with the four before it below. |
| AchievementTests.ProgressiveFirstUnlockAtThreshold | src/utils/achievementTestUtils.js:123-143 | Every progressive sequence reports locked four times, then unlocked twice. |
| AchievementTests.ResetAll | src/utils/achievementTestUtils.js:182-200 | Nothing without a user id; otherwise every type holds its progress-0 record, and nothing else in the store changes. |
| AchievementTests.ResetLocksAll | src/utils/achievementTestUtils.js:190-196 | After a reset every type is locked at 0%. |
| AchievementTests.Summary | src/utils/achievementTestUtils.js:150-175 | Nothing exactly for an empty list; otherwise the total, and the counts of unlocked, in-progress and locked-at-zero records. |
| AchievementTests.SummaryAgreesWithStats | src/utils/achievementTestUtils.js:157-160 | For a non-empty list the printed total, unlocked and in-progress counts equal those of the achievement statistics. |
| AchievementTests.SummaryPartitions | src/utils/achievementTestUtils.js:157-174 | With no negative percentage, the unlocked, in-progress and locked counts partition the list. |
| Activities.Instantiate | src/firebase/activities.js:106-184 | Every template yields one of the five activity types; recycling iff a material template, bonus iff daily login or streak, learning iff module completed; redemption gives −\|spent\| ≤ 0; account creation gives 0 points. |
| Activities.BuildRecord | src/firebase/activities.js:36-45 | The stored record: a supplied metadata and timestamp are kept, missing points become 0, an empty category null, missing metadata {}, a missing timestamp now, and createdAt is always now. |
| Activities.LogActivity | src/firebase/activities.js:27-54 | Fails iff the user id is empty; otherwise appends exactly one record under a key not in the log and changes only that user's log. |
| Activities.LogActivityFrame | src/firebase/activities.js:34-49 | A log append leaves the other tables, the other users, and every other field of the user unchanged. |
| Activities.MaterialTemplate | src/firebase/activities.js:193-203 | A template exists iff the lower-cased material is plastic, paper, glass or metal, and it carries the given points. |
| Activities.LogRecycling | src/firebase/activities.js:192-211 | An unknown material fails with "Unknown material type" and no write; otherwise it logs that material's template with the caller's metadata. |
| Activities.LogRecyclingRecord | src/firebase/activities.js:192-211 | A successful recycling log adds one record of type recycling with the given points and metadata. |
| Activities.RecyclingRecord | src/firebase/activities.js:192-211 | The record built from a recycling template has type recycling, the given points and the caller's metadata. |
| Activities.RedemptionNeverPositive | src/firebase/activities.js:220-227 | The record a redemption log stores has type redemption and −\|spent\| points, never positive. |
| Activities.UserActivities | src/firebase/activities.js:63-101 | Nothing for an empty id; exactly the smaller of `limit` and the log length records, each taken from the user's log no more often than it occurs there (all of it when it fits), newest first. |
| Activities.UserActivitiesAreNewest | src/firebase/activities.js:80-87 | No record left out of the listing is newer than a record in it. |
| Wallet.ToTransaction | src/home/pages/DigitalWallet.jsx:193-205 | Earned iff pointsEarned ≥ 0; amount is the points, category the type or "other", and the date the timestamp or now. |
| Wallet.Transactions | src/home/pages/DigitalWallet.jsx:193-207 | A permutation of the mapped log, sorted newest first. |
| Wallet.TotalRedeemed | src/home/pages/DigitalWallet.jsx:313 | The absolute value of the redeemed sum, never negative. |
| Wallet.EarnedMinusRedeemed | src/home/pages/DigitalWallet.jsx:306-313 | For transactions read from the log, total earned is non-negative, and earned minus redeemed is the net sum of all amounts. |
| Wallet.StreakFrom | src/home/pages/DigitalWallet.jsx:324-346 | The loop from day k: every counted day has a recycling record, the count stops at 30, and below 30 the next day back has none. |
| Wallet.Streak | src/home/pages/DigitalWallet.jsx:324-346 | The number of consecutive days ending today that each have a recycling record, capped at 30. |
| Wallet.StreakUnique | src/home/pages/DigitalWallet.jsx:324-346 | Any count with those two properties is the streak. |
| Wallet.WasteReduced | src/home/pages/DigitalWallet.jsx:348-352 | A tenth of the recycling points, rounded down. |
| Wallet.StatsOf | src/home/pages/DigitalWallet.jsx:305-321 | The earned and redeemed totals, the counts of records of exactly type recycling and learning, streak equal to consecutive days, and not an early adopter. |
| Wallet.OtherTypesDoNotCount | src/home/pages/DigitalWallet.jsx:305-321 | Adding a non-recycling transaction changes neither the recycling count, nor the streak, nor the waste figure. |
| Wallet.RecomputeAchievements | src/home/pages/DigitalWallet.jsx:252-279 | Skipped without a user id or without transactions; otherwise every checked type holds the progress record of the computed statistics, and only that user changes. |
| Wallet.Recent | src/home/pages/DigitalWallet.jsx:370-373 | Exactly the transactions dated within the last 30 days, in their order and with every copy kept. |
| Wallet.Totals | src/home/pages/DigitalWallet.jsx:360-390 | The balance as read, and the earned and redeemed totals. |
| Wallet.TrendIsNetChange | src/home/pages/DigitalWallet.jsx:370-382 | The trend is the net point change of the last 30 days. |
| Wallet.FilterByTime | src/home/pages/DigitalWallet.jsx:421-447 | Exactly the transactions inside the window (everything for "all" or an unknown value), every copy of a kept one and nothing else, newest first. |
| Redeem.ActiveProducts | src/home/pages/RedeemRewards.jsx:75-79 | Exactly the products whose isActive flag is set, in catalogue order and with every copy kept. |
| Redeem.Summary | src/home/pages/RedeemRewards.jsx:91-103 | Balance, listed and favourite counts; affordable items never exceed the listed ones, are 0 iff none is affordable, and equal the listed count iff all are. |
| Redeem.AffordableMonotone | src/home/pages/RedeemRewards.jsx:173-175 | A larger balance affords at least as many items. |
| Redeem.PriceRangesOverlapAtBounds | src/home/pages/RedeemRewards.jsx:31-41 | The inclusive ranges cover exactly the non-negative prices; low and medium overlap exactly at 50, medium and high exactly at 200, and low and high never. |
| Redeem.FilteredProducts | src/home/pages/RedeemRewards.jsx:151-170 | A listed product is kept iff the term occurs in its name or description, its category matches, and its price is in the chosen range; the kept ones stay in listing order, every copy kept. |
| Redeem.NoCriteriaShowsDescribed | src/home/pages/RedeemRewards.jsx:151-170 | With no criteria, exactly the products with a name or description are shown. |
| Redeem.ToggleFavorite | src/home/pages/RedeemRewards.jsx:182-190 | Flips the membership of the one id and leaves every other id alone. |
| Redeem.ToggleFavoriteTwice | src/home/pages/RedeemRewards.jsx:182-190 | Toggling twice restores the set. |
| Redeem.Deduct | src/home/pages/RedeemRewards.jsx:213-219 | The balance update writes only the points and updatedAt of that user. |
| Redeem.ConfirmRedeem | src/home/pages/RedeemRewards.jsx:199-256 | No product or no user does nothing; a balance below the price is refused with the shortfall and no write; otherwise balance − price (≥ 0) is written first, then one redemption record is appended; products are untouched. |
| Redeem.RedemptionRecord | src/firebase/activities.js:141-147 | The redemption record has type redemption, −\|price\| points and the before/after metadata. |
| Redeem.DeductThenLog | src/home/pages/RedeemRewards.jsx:216-236 | The deduction followed by the log append keeps the new balance and adds exactly the redemption record. |
| Redeem.RedeemDeltaMatchesBalance | src/home/pages/RedeemRewards.jsx:213-236 | For a non-negative price, the record's delta equals the change of balance, and its metadata records the new balance. |
| Redeem.RefusedRedeemWritesNothing | src/home/pages/RedeemRewards.jsx:200-209 | A redemption happens iff a product is selected, a user is signed in, and the balance covers the price. |
| Auth.FirstMatch | src/auth/contexts/AuthContext.jsx:66-67 | The first entry of a table whose email and password both match, or none iff no entry matches. |
| Auth.SessionOf | src/auth/contexts/AuthContext.jsx:62-132 | The session of a matched account: its key, email and points, its table as category, the table's default usertype when missing, and no password. |
| Auth.Login | src/auth/contexts/AuthContext.jsx:39-141 | The development pair signs in as the dev admin; login fails with "Invalid email or password" iff no table holds a match. |
| Auth.LoginTakesFirstTable | src/auth/contexts/AuthContext.jsx:62-132 | A database login comes from the first table in Users, Admins, Barangay order that holds a match, and from that table's first match. |
| Auth.AfterLogin | src/auth/contexts/AuthContext.jsx:39-141 | A failed login leaves the session as it was; a successful one sets it. |
| Auth.TableFor | src/auth/contexts/AuthContext.jsx:165-174 | Admins iff the lower-cased usertype is "admin", Barangay iff "barangay", Users otherwise. |
| Auth.WelcomeRecord | src/firebase/activities.js:176-182 | The account-creation record: type registration, 0 points. |
| Auth.Onboard | src/auth/contexts/AuthContext.jsx:202-210 | Only usertype exactly "user" gets the welcome record and all eight achievements at 0; nothing else changes. |
| Auth.Enroll | src/auth/contexts/AuthContext.jsx:179-210 | A push under a fresh key of the chosen table, carrying the account, plus the welcome record and achievements for a regular user; every other key of that table, the other tables and the products are unchanged. |
| Auth.PushUser | src/auth/contexts/AuthContext.jsx:179-210 | A regular user pushed into Users and onboarded: one welcome record, all eight achievements at 0, and only that node changed. |
| Auth.Register | src/auth/contexts/AuthContext.jsx:144-222 | Fails with "Email already exists" iff the email is in any of the three tables; otherwise a fresh account in the usertype's table with 0 points and the form's fields, and the matching session; nothing else in the store changes. |
| Auth.RoleOfTable | src/auth/contexts/AuthContext.jsx:232-244 | Each table's category implies its role; every session has some role, and the roles can overlap. |
| Auth.UpdateUserPoints | src/auth/contexts/AuthContext.jsx:247-253 | Changes only the session's points, and does nothing without a session. |
| Auth.UpdateUserProfile | src/auth/contexts/AuthContext.jsx:256-273 | Fails without a signed-in user; otherwise merges the change into that account and session only. |
| Auth.ProfileChangeKeepsRest | src/auth/contexts/AuthContext.jsx:256-273 | A profile change keeps email, points, usertype, activities and achievements, and the password when none is sent. |
| Auth.RefreshUserData | src/auth/contexts/AuthContext.jsx:276-299 | Reloads the stored fields, the password included, into a session whose account exists, and leaves any other session as it is. |
| Auth.FreshSessionsHaveNoPassword | src/auth/contexts/AuthContext.jsx:62-199 | Neither login nor registration puts a password into the session. |
| Authentication.UsertypeStaysUser | src/auth/Authentication.jsx:19-136 | Whatever is typed or toggled, the form's usertype stays "user". |
| Authentication.ToggleTwice | src/auth/Authentication.jsx:125-136 | Toggling twice returns to the same mode with a blank form and no error. |
| Authentication.PostLoginIsStartPath | src/auth/Authentication.jsx:72-78 | After login the page navigates where the root route would send the same session. |
| Authentication.PostLoginPath | src/auth/Authentication.jsx:72-78 | Admins go to the admin dashboard, other barangay officials to theirs, everyone else home. |
| Authentication.HandleLogin | src/auth/Authentication.jsx:57-82 | An empty email or password is refused before any lookup; the submit signs in iff the context's login succeeds, and then lands on the start path. |
| Authentication.RegisterError | src/auth/Authentication.jsx:88-101 | The first failing check in page order; no error iff all fields are filled, the passwords agree, and the password has at least 6 characters. |
| Authentication.PostRegisterPath | src/auth/Authentication.jsx:115-119 | Admins go to the admin dashboard and every other type goes home. |
| Authentication.BarangaySignUpLandsHome | src/auth/Authentication.jsx:115-119 | A barangay official lands home after signing up, although the root route would choose the barangay dashboard. |
| Authentication.HandleRegister | src/auth/Authentication.jsx:84-123 | The checks first; then sign-up is refused iff the email is taken; success carries the form's fields at 0 points. |
| Authentication.SignUpCreatesUser | src/auth/Authentication.jsx:84-123 | Every sign-up through the page creates a regular Users account with the welcome record and lands home. |
| Routing.Protect | src/auth/components/ProtectedRoute.jsx:5-48 | The spinner while loading, /auth without a session; the page renders iff signed in and every enabled guard's role holds. |
| Routing.StartPath | src/App.jsx:59-74 | /landing without a session; otherwise the admin dashboard for admins, then the barangay dashboard, then /home. |
| Routing.UnknownPathsActAsRoot | src/App.jsx:163-178 | The catch-all route decides exactly as the root does for every path whose looked-up form is not in the table. |
| Routing.Resolve | src/App.jsx:24-178 | The spinner while loading; otherwise an unknown path redirects to the start path, and the sign-in and landing paths render their pages, looked up regardless of letter case and trailing slashes. |
| Routing.PathsIgnoreCaseAndTrailingSlash | src/App.jsx:38-178 | Adding a slash to a path or lower-casing it never changes what it shows. |
| Routing.StartPathRenders | src/App.jsx:59-158 | Every session's start path renders a page without a further redirect. |
| Routing.RedirectTargets | src/App.jsx:59-178 | Every redirect names a start page or the sign-in page. |
| Routing.TargetsSettle | src/auth/components/ProtectedRoute.jsx:21-47 | From any redirect target, two redirects at most end on a page. |
| Routing.RedirectsSettle | src/App.jsx:24-178 | Once loading is over, three redirects at most end on a page from any path. |
| Routing.UserPagesOpenToStaff | src/App.jsx:77-100 | Any signed-in role reaches the wallet and rewards pages. |
| Settings.OpenForm | src/home/components/SettingsModal.jsx:28-37 | Opening fills username, email and address from the session and keeps the password fields. |
| Settings.ProfileRequest | src/home/components/SettingsModal.jsx:97-108 | Refused iff the username is blank after trimming JavaScript whitespace; otherwise only the trimmed username and address are sent. |
| Settings.NoBreakSpaceUsernameRefused | src/home/components/SettingsModal.jsx:97-100 | A username that is a single no-break space trims to nothing and is refused. |
| Settings.SaveProfile | src/home/components/SettingsModal.jsx:94-123 | Succeeds iff the request and the context update succeed; then the session and the account carry the trimmed username. |
| Settings.CheckPasswordAsWritten | src/home/components/SettingsModal.jsx:128-136 | As written: empty fields are refused first, then a current password that differs from the session's password. |
| Settings.SessionPasswordAlwaysRefused | src/home/components/SettingsModal.jsx:133-136 | For any session from login, the filled form is always refused as "Current password is incorrect". |
| Settings.WrongPasswordCounterexample | src/home/components/SettingsModal.jsx:133 | A concrete account whose correct password is refused as written and accepted by the corrected check. |
| Settings.CheckPassword | src/home/components/SettingsModal.jsx:128-151 | Corrected: no error iff all fields are filled, the current password is the stored one, the new one has at least 6 characters, matches the confirmation and differs from the current one. |
| Settings.AsWrittenAgreesAfterRefresh | src/home/components/SettingsModal.jsx:133 | Once a session carries the stored password, the code as written and the corrected check agree. |
| Settings.ChangePassword | src/home/components/SettingsModal.jsx:125-177 | Corrected: built on the stored-password check, not the session one of line 133. A failed check writes nothing and keeps the form; success sends only the password and clears the three password fields. |
| Settings.ChangedPasswordSignsIn | src/home/components/SettingsModal.jsx:156-167 | Corrected: with the stored-password check, after a change the new password signs in, and resubmitting the same form is refused. |
| ManageAccounts.ListOf | src/admin/pages/ManageAccounts.jsx:66-140 | One listed row per account, carrying its key and table. |
| ManageAccounts.CurrentData | src/admin/pages/ManageAccounts.jsx:91-164 | The tab's table, with the superadmin hidden from the admins tab, the other admins in table order with every copy kept. |
| ManageAccounts.HandleInput | src/admin/pages/ManageAccounts.jsx:249-255 | Sets the named field; points are parsed, with an unparsable value read as 0. |
| ManageAccounts.SaveQr | src/admin/pages/ManageAccounts.jsx:210-225 | Saves the code and its time only for the Users table. |
| ManageAccounts.GenerateAndSave | src/admin/pages/ManageAccounts.jsx:172-225 | Writes nothing for an ineligible account, a failed rendering, or a staff table. |
| ManageAccounts.SelectUser | src/admin/pages/ManageAccounts.jsx:228-246 | No code for an ineligible account; a stored code is reused; otherwise a fresh code is rendered and shown, and saved only for the Users table; a failed rendering keeps the code already shown and writes nothing. |
| ManageAccounts.StaleCodeAfterFailedRender | src/admin/pages/ManageAccounts.jsx:192-246 | Selecting an account with a stored code and then one whose rendering fails leaves the first account's code on screen. |
| ManageAccounts.AfterSave | src/admin/pages/ManageAccounts.jsx:280-393 | The QR step after a save touches only that account's code fields. |
| ManageAccounts.Create | src/admin/pages/ManageAccounts.jsx:258-312 | Refused iff a required field is empty; otherwise pushes the form under a fresh key of the usertype's table, with the page's message. |
| ManageAccounts.CreateAllowsDuplicateEmail | src/admin/pages/ManageAccounts.jsx:258-278 | An email already in use is still accepted: there is no uniqueness check. |
| ManageAccounts.Edit | src/admin/pages/ManageAccounts.jsx:460-477 | The superadmin is refused; otherwise the form holds the account's username, email, password, points and address, and its usertype, or "user" when it has none. |
| ManageAccounts.EditThenMergeRestores | src/admin/pages/ManageAccounts.jsx:460-477 | Saving an unchanged edit form into the same node gives the node back with only the update time changed. |
| ManageAccounts.MoveNode | src/admin/pages/ManageAccounts.jsx:327-343 | A move removes the old node and pushes the new account under a fresh key of the other table; every other key of both tables, the third table and the products are unchanged. |
| ManageAccounts.Merge | src/admin/pages/ManageAccounts.jsx:365-374 | An in-place update overwrites the form's fields, the points included, and keeps history and code. |
| ManageAccounts.UpdateWith | src/admin/pages/ManageAccounts.jsx:315-411 | Refused iff a field is missing; a usertype change moves the account to a fresh key; otherwise it merges in place under the same id. Either way no other node, table or product changes. |
| ManageAccounts.UpdateAsWritten | src/admin/pages/ManageAccounts.jsx:341 | As written: a moved account takes its creation time from the selected row, or now. |
| ManageAccounts.MovedCreatedAtCounterexample | src/admin/pages/ManageAccounts.jsx:341 | Editing one account while another is selected gives the moved account the other account's creation time. |
| ManageAccounts.Update | src/admin/pages/ManageAccounts.jsx:315-411 | Corrected: a moved account keeps its own creation time. |
| ManageAccounts.MoveDropsHistory | src/admin/pages/ManageAccounts.jsx:327-343 | A move removes the old record, so its activities and achievements are lost. |
| ManageAccounts.FindRow | src/admin/pages/ManageAccounts.jsx:430 | The row with the id, or none iff no row has it. |
| ManageAccounts.Delete | src/admin/pages/ManageAccounts.jsx:427-457 | The superadmin is protected; an unconfirmed delete does nothing; otherwise only that node is removed and the products are untouched. |
| ManageAccounts.SuperAdminProtected | src/admin/pages/ManageAccounts.jsx:414-465 | The superadmin can be neither edited nor deleted. |
| ManageAccounts.Masked | src/admin/pages/ManageAccounts.jsx:422-423 | 32 characters: the encoding's alphanumerics kept, everything else and the padding replaced by `x`. |
| ManageAccounts.PasswordMask | src/admin/pages/ManageAccounts.jsx:419-424 | Always 32 characters: all `*` for an empty password, otherwise all alphanumeric. |
| ManageAccounts.FilteredData | src/admin/pages/ManageAccounts.jsx:526-540 | The tab's list for an empty term; otherwise exactly its rows matching the term case-insensitively, in order. |
| Catalogue.ParseOrZero | src/admin/pages/ManageProducts.jsx:77-80 | The parsed integer, or 0 when the text does not parse. |
| Catalogue.ParseOrZeroRoundTrip | src/admin/pages/ManageProducts.jsx:77-80 | A number's decimal text is read back as the number. |
| Catalogue.ParseOrZeroSkipsSpaces | src/admin/pages/ManageProducts.jsx:77-80 | Leading JavaScript whitespace before a number's decimal text is skipped. |
| Catalogue.NoBreakSpaceThenDigit | src/admin/pages/ManageProducts.jsx:77-80 | A no-break space followed by 5 reads as 5. |
| Catalogue.HandleInput | src/admin/pages/ManageProducts.jsx:74-86 | The checkbox takes its checked state, the numeric fields are parsed, and the others take the text. |
| Catalogue.TypedNumberIsStored | src/admin/pages/ManageProducts.jsx:77-80 | Typing a number into a numeric field stores that number. |
| Catalogue.FromForm | src/admin/pages/ManageProducts.jsx:96-140 | The product written carries the form's fields and the given timestamps. |
| Catalogue.Create | src/admin/pages/ManageProducts.jsx:89-123 | Refused iff the name or description is empty or the price is 0; otherwise pushes under a fresh key and resets the form. |
| Catalogue.Update | src/admin/pages/ManageProducts.jsx:126-160 | The same check; the update merges the form into that product only and keeps its creation time. |
| Catalogue.OnlyZeroPriceRefused | src/admin/pages/ManageProducts.jsx:91-94 | For any store, with a name and a description, creating and updating refuse only a price of 0: negative prices pass. |
| Catalogue.Delete | src/admin/pages/ManageProducts.jsx:163-178 | Removes that product once confirmed, and nothing else. |
| Catalogue.Edit | src/admin/pages/ManageProducts.jsx:181-193 | Fills the form from the product, with isActive true unless it is explicitly false. |
| Catalogue.EditSaveRoundTrip | src/admin/pages/ManageProducts.jsx:126-193 | Editing a valid product and saving without changes writes it back, only refreshing updatedAt and making isActive explicit. |
| Catalogue.ToggleActive | src/admin/pages/ManageProducts.jsx:211-225 | Stores the negation of the passed flag and a new updatedAt, and changes nothing else. |
| Catalogue.ToggleTwiceRestores | src/admin/pages/ManageProducts.jsx:211-225 | Toggling twice restores a stored flag. |
| Catalogue.DistinctCategories | src/admin/pages/ManageProducts.jsx:228-231 | Exactly the non-empty categories in use, each once, in the order of each one's first product. |
| Catalogue.Categories | src/admin/pages/ManageProducts.jsx:228-231 | "all", then each category in use once, in the order of each one's first product. |
| Catalogue.CategoriesDistinctIff | src/admin/pages/ManageProducts.jsx:228-231 | The list has no repeats iff no product's category is "all". |
| Catalogue.AdminFilter | src/admin/pages/ManageProducts.jsx:233-245 | Exactly the products matching the term in name, description or category, and the chosen category, in catalogue order with every copy kept. |
| Catalogue.AdminFilterNoCriteria | src/admin/pages/ManageProducts.jsx:233-245 | No term and "all" list every product. |
| Learn.FindModule | src/home/pages/LearnRecycling.jsx:35-136 | A module is found iff its id is 1 to 4. |
| Learn.TotalIs110 | src/home/pages/LearnRecycling.jsx:35-136 | The four modules are worth 110 points together. |
| Learn.EarnedIsSelected | src/home/pages/LearnRecycling.jsx:242-245 | For distinct ids, the earned points are the points of the completed modules, between 0 and the total. |
| Learn.ProgressIsQuarterSteps | src/home/pages/LearnRecycling.jsx:246 | The rounded percentage is 25 times the number completed. |
| Learn.Add | src/home/pages/LearnRecycling.jsx:266-267 | Adding keeps the ids distinct and is a no-op on a present id. |
| Learn.CompleteModule | src/home/pages/LearnRecycling.jsx:262-291 | An unknown id changes nothing; otherwise the id is added, one learning record is logged for a signed-in user, and the balance is never touched. |
| Learn.CompleteTwice | src/home/pages/LearnRecycling.jsx:266-283 | Completing twice keeps the completed set but logs two records. |
| Learn.ProgressBounds | src/home/pages/LearnRecycling.jsx:240-256 | For valid completions: earned within [0,110], percentage within [0,100], and remaining never negative. |
| Home.RecentActivities | src/home/pages/Home.jsx:105-117 | Nothing for an empty id; otherwise the first five of the user's log (or all of it), each record no more often than in the log, newest first. |
| Home.RecentAreNewest | src/home/pages/Home.jsx:111-117 | No record left out is newer than a shown one. |
| Home.ImpactScore | src/home/pages/Home.jsx:137-140 | 0 without activities; otherwise, below 100 it is round(points/100 + 5·count), and it is 100 exactly when that rounded value reaches 100. |
| Home.ImpactScoreUnique | src/home/pages/Home.jsx:137-140 | Any value meeting the rounding and capping conditions is the score, so the contract fixes it. |
| Home.ImpactMonotone | src/home/pages/Home.jsx:140 | More points never lower the score, and any activity with a non-negative balance scores at least 5. |
| Home.StatsOf | src/home/pages/Home.jsx:133-177 | Recycled and rewards counts are the recycling and redemption records, together at most the log; the points are the balance. |
| Home.CountedKindsDisjoint | src/home/pages/Home.jsx:134-135 | No record is counted as both recycled and a reward. |
| Home.TimeAgo | src/home/pages/Home.jsx:186-200 | The bucket by elapsed time: under a minute, under an hour, under a day, under a week, else a date; each count rounded down. |
| Home.StyleOf | src/home/pages/Home.jsx:55-76 | Unknown types use the recycling style; the prefix is "-" only for redemption. |
| Home.Badge | src/home/pages/Home.jsx:387-391 | No badge iff the points are 0; otherwise the prefix, the absolute points, and " points". |
| Dashboard.AveragePoints | src/admin/pages/Dashboard.jsx:110 | 0 without users; otherwise the total over the count, rounded half up. |
| Dashboard.AverageWithinRange | src/admin/pages/Dashboard.jsx:110 | The average lies within the range of the balances. |
| Dashboard.TopUsers | src/admin/pages/Dashboard.jsx:112-115 | The smaller of five and the number of users with a positive balance, each positive user at most as often as in the table, largest first. |
| Dashboard.TopUsersAreTop | src/admin/pages/Dashboard.jsx:112-115 | No positive user left out has more points than a listed one. |
| Dashboard.RecentUsers | src/admin/pages/Dashboard.jsx:117-121 | The smaller of five and the number of accounts with a creation time, each dated account at most as often as in the tables, newest first. |
| Dashboard.RecentUsersAreNewest | src/admin/pages/Dashboard.jsx:117-121 | No dated account left out was created later than a listed one. |
| Dashboard.DistributionOf | src/admin/pages/Dashboard.jsx:123-128 | The four bucket counts, which sum to the number of users. |
| Dashboard.BucketsPartition | src/admin/pages/Dashboard.jsx:123-128 | The four buckets partition the users. |
| Dashboard.AdminAnalytics | src/admin/pages/Dashboard.jsx:107-138 | Users counted over all three tables; points, average, top users and the bucket counts over regular users only; recent accounts over all three tables. |
| Dashboard.StaffDoNotCountForPoints | src/admin/pages/Dashboard.jsx:108-128 | Changing the staff tables changes only the user count. |
| BarangayDashboard.AnalyticsOf | src/barangay/pages/BarangayDashboard.jsx:69-102 | Users-only analytics: active users are those with points, never more than all users; the top and recent lists and the bucket counts are those of the admin dashboard taken over the Users table. |
| BarangayDashboard.TopUsersFewerThanActive | src/barangay/pages/BarangayDashboard.jsx:74-91 | The top list is never longer than the active count. |
| BarangayDashboard.OnlyUsersRead | src/barangay/pages/BarangayDashboard.jsx:69-102 | The analytics depend on the Users table alone. |
| BarangayDashboard.AverageCountsInactiveUsers | src/barangay/pages/BarangayDashboard.jsx:72 | One active user with 100 points and one inactive user average 50: the divisor counts inactive users. |
| ViewActivities.MockRows | src/barangay/pages/ViewActivities.jsx:89-99 | One mock row per user, in order. |
| ViewActivities.MockActivities | src/barangay/pages/ViewActivities.jsx:87-100 | A recycling row for exactly the users with a positive balance, newest first. |
| ViewActivities.DisplayActivities | src/barangay/pages/ViewActivities.jsx:104 | The stored activities when there are any, else the mock list. |
| ViewActivities.FilteredActivities | src/barangay/pages/ViewActivities.jsx:107-114 | Everything for an empty term; otherwise exactly the rows whose username, description or type contains it, in order. |
| ViewActivities.SearchFindsUsername | src/barangay/pages/ViewActivities.jsx:107-114 | Searching for a row's user name finds that row. |
| ViewActivities.MockSummary | src/barangay/pages/ViewActivities.jsx:87-266 | With the mock list, the cards show the active-user count, the positive balances summed, and those users as active. |
| ViewActivities.SummaryOf | src/barangay/pages/ViewActivities.jsx:247-265 | The row count, the points summed, and the distinct user ids, which are never more than the rows, none only for no rows, and exactly the ids of the rows. |
| ViewActivities.MockRowsPoints | src/barangay/pages/ViewActivities.jsx:96 | The mock rows carry their users' balances. |
| ViewUsers.FilteredUsers | src/barangay/pages/ViewUsers.jsx:63-70 | All users for an empty term; otherwise exactly those whose username, email or address contains it, in order. |
| ViewUsers.NarrowingTerm | src/barangay/pages/ViewUsers.jsx:65-69 | A longer term that contains a shorter one finds a subset of its results. |
| ViewUsers.StatusOf | src/barangay/pages/ViewUsers.jsx:177-178 | Active iff the balance is positive. |
| Landing.StatsOf | src/home/pages/Landing.jsx:125-140 | Users counted over all three tables, points over Users only, activities as the sum of each balance in twenties, which is the total in twenties less at most 19 per user, and loading over. |
| Landing.RunCounter | src/home/pages/Landing.jsx:120-124 | As written: every callback, failed or not, counts, and the figures stay at their initial value before the third. |
| Landing.ActivitiesEstimate | src/home/pages/Landing.jsx:130-133 | The estimate is the total in twenties, short by at most 19 points per user. |
| Landing.Received | src/home/pages/Landing.jsx:144-197 | A snapshot replaces its table, and an error leaves every table as it was. |
| Landing.CounterFreezesAtThird | src/home/pages/Landing.jsx:120-124 | As written: the figures appear at the third callback, whichever listeners sent it, and never change afterwards. |
| Landing.CounterMissesBarangay | src/home/pages/Landing.jsx:122-124 | Two Users snapshots and an Admins one freeze figures that leave out the Barangay accounts for good. |
| Landing.LoaderShowsCurrentTables | src/home/pages/Landing.jsx:120-141 | Corrected: loading until all three listeners reported, then the figures of the tables as they stand. |
| Landing.LoaderKeepsLastSnapshot | src/home/pages/Landing.jsx:144-197 | Each table holds its listener's last snapshot. |
| Landing.ImpactOf | src/home/pages/Landing.jsx:213-221 | Kilograms are a tenth of the points, and trees a fiftieth of the kilograms, both rounded down. |
| Landing.TreesPerPoints | src/home/pages/Landing.jsx:217-221 | A tree stands for 500 points. |
| Landing.ImpactMonotone | src/home/pages/Landing.jsx:217-221 | More points never show less waste or fewer trees. |
| ProfileDropdown.FirstTwo | src/home/components/UserProfileDropdown.jsx:221 | The first two characters, or all of a shorter string. |
| ProfileDropdown.InitialsAsWrittenCounterexamples | src/home/components/UserProfileDropdown.jsx:215-222 | As written: "Jo " shows "JUNDEFINED" and " " stops the header from rendering. |
| ProfileDropdown.Words | src/home/components/UserProfileDropdown.jsx:217 | The non-empty space-separated parts of the name. |
| ProfileDropdown.Initials | src/home/components/UserProfileDropdown.jsx:215-222 | Corrected: "U" without words, the first letters of the first two words, or the first two letters of the only word, upper-cased; one or two characters. |
| ProfileDropdown.InitialsFromName | src/home/components/UserProfileDropdown.jsx:215-222 | Every corrected initial is an upper-cased character of the name. |
| ProfileDropdown.AgreesOnWellSpacedNames | src/home/components/UserProfileDropdown.jsx:215-222 | For names with single spaces and none at either end, the code as written already gives the corrected initials. |
| ProfileDropdown.EligibleIsUserRole | src/home/components/UserProfileDropdown.jsx:41-43 | QR eligibility is exactly the user role of the session. |
| ProfileDropdown.QrClick | src/home/components/UserProfileDropdown.jsx:101-139 | The menu closes; an ineligible session gets the alert; otherwise the popup opens with the stored code, or with a fresh code saved for Users nodes. |
| ProfileDropdown.CloseQr | src/home/components/UserProfileDropdown.jsx:171-174 | The popup closes and forgets its code, and the menu is untouched. |
| ProfileDropdown.QrReused | src/home/components/UserProfileDropdown.jsx:113-125 | A code rendered once is reused on the next click, with no write. |
| ProfileDropdown.Escape | src/home/components/UserProfileDropdown.jsx:198-213 | Escape closes the popup when it is open, the menu otherwise. |
| ProfileDropdown.EscapeTwiceClosesAll | src/home/components/UserProfileDropdown.jsx:198-213 | Two presses close both the popup and the menu. |

## Left out

- Database plumbing: listeners, `get`/`set`/`update`/`push`/`remove`, listener clean-up, the 10-second balance polling and the 1-second debounce. The store is an explicit value passed in and returned. Listener callbacks are modelled only where the callback order matters (the landing page).
- Concurrency: `Promise.all` initialisation and resets are modelled as sequential writes. The stale cached balance written back by a redemption is modelled as the cached value the page passes in. Interleavings across tabs are not modelled.
- A write failing half-way: a redemption whose log append fails after the deduction, and the swallowed errors of the activity log and achievement initialisation during sign-up, are not modelled. The store never fails.
- Floating point and locale: `formatNumber`, the tons string, chart widths, `toLocaleDateString` and `toDateString`. Percentages are exact reals, `Math.floor(x * 0.1)` is integer division by 10, and calendar days come from a caller-supplied function.
- Times are integer milliseconds, not ISO strings. A missing timestamp reads as 0 in the wallet mapping, which is then replaced by now.
- QR image generation is a `Renderer` parameter, where "" stands for a failed rendering. `btoa` is an uninterpreted string function parameter.
- React rendering, navigation side effects, alerts as dialogs, `window.confirm` (a boolean parameter) and `localStorage`.
- Presentation files, configuration files and seeding scripts.
- Credential security: passwords are compared and stored in plain text, as the code does.
- The top-level `Activities` node that the barangay activities page reads is a parameter (`feed`). Nothing in the code writes it, so in practice the page shows the mock list.
- Wallet.Streak: counts days through a caller-supplied `dayOf`, not `toDateString` in the local time zone.
- Wallet.WasteReduced: `Math.floor(sum * 0.1)` is modelled as exact division by 10; for very large sums floating-point rounding could differ.
- Text.Upper and Text.Lower: ASCII-only case mapping, while `toUpperCase`/`toLowerCase` are Unicode-aware.
- Routing.Resolve: the router also percent-decodes the path and folds non-ASCII letter case; the model looks paths up after dropping trailing slashes and lower-casing ASCII letters only.
- Achievements.TypeOf: `ACHIEVEMENT_DEFINITIONS[type]` is also truthy for keys inherited from `Object.prototype` such as "constructor"; the model reports every key other than the eight as unknown.
- ProfileDropdown.FirstTwo: `substring(0, 2)` and `n[0]` count UTF-16 code units, while the model takes Unicode characters (a Dafny `char` is never a lone surrogate). For a name starting with a character outside the Basic Multilingual Plane the code takes that one character (or half of it), where the model takes two characters.
- Authentication.RegisterError: the length check counts characters, not UTF-16 code units.
- Home.Badge: when `pointsEarned` is 0 the page renders a stray "0" (React prints the falsy number). The model only says that no badge is shown.
- ManageAccounts.Create and ManageAccounts.UpdateWith: the `generateQRCode` call after a save (ManageAccounts.jsx:293, 358, 389) also sets the displayed QR image through `setQrCodeUrl` (line 201); only the stored code fields are modelled, not the page's displayed image.
- ProfileDropdown.QrClick: the QR payload writes an absent session password as "" where the code would encode `undefined`.
- ProfileDropdown.QrClick: opening the popup when it is already open keeps it open, so `showQr` is implied by eligibility and not equivalent to it.
- The learning page's route is commented out in the route table, so its path behaves as an unknown path. The page's own logic is still modelled.
- Achievements.Unlock: only the stored record is modelled; the returned type name is not.
- The QR refresh button of the profile menu and the `downloadQRCode` helper are left out: both are image handling.

## Findings

| source | as written | input that shows it | evidently intended | confidence | as-written member | corrected member |
|---|---|---|---|---|---|---|
| src/home/components/SettingsModal.jsx:133 | compares the current password with the session's password, which login and registration never set | any signed-in user filling the form with the correct current password | compare with the password stored for the account | not executed | Settings.CheckPasswordAsWritten | Settings.CheckPassword |
| src/home/components/UserProfileDropdown.jsx:215-222 | splits on single spaces and concatenates the first characters of the first two parts, which are `undefined` for empty parts | "Jo " shows "JUNDEFINED"; " " throws a TypeError | initials from the non-empty words of the name | not executed | ProfileDropdown.InitialsAsWrittenCounterexamples | ProfileDropdown.Initials |
| src/admin/pages/ManageAccounts.jsx:341 | a moved account's `createdAt` comes from the account selected for the QR panel, not from the account being edited | edit u1 while u2 is selected and change its usertype to admin: the new node gets u2's creation time | keep the edited account's own creation time | not executed | ManageAccounts.UpdateAsWritten | ManageAccounts.Update |
| src/home/pages/Landing.jsx:122-124 | counts callbacks rather than listeners and computes the figures only when the count is exactly 3 | Users, Users, Admins, then Barangay snapshots: the figures omit the Barangay accounts | compute once all three listeners have reported, and recompute on later snapshots | not executed | Landing.CounterMissesBarangay | Landing.LoaderShowsCurrentTables |

=== FILE: achievement_tests.dfy ===
/** The achievement test utilities: the three stat scenarios, forced
    unlocking, the progressive step sequences, the reset, and the console
    summary counts. */
module AchievementTests {
  import opened Wrappers
  import opened Seqs
  import opened Tables
  import opened Store
  import opened Achievements

  // ---------------------------------------------------------------------------
  // testAchievements
  // ---------------------------------------------------------------------------

  const NewUser := UserStats(0, 0, 0, 0, 0, 0, 0, false)
  const ActiveRecycler := UserStats(500, 100, 25, 5, 3, 50, 15, false)
  const EcoWarriorScenario := UserStats(1200, 600, 60, 12, 8, 120, 35, true)

  /** The seven types other than Green Pioneer, in checking order. */
  const NonPioneerTypes: seq<AchievementType> := [
    EcoWarrior, SmartSpender, RecyclingMaster, LearningEnthusiast,
    StreakChampion, CommunityHelper, ConsistencyKing
  ]

  /** Filtering out every element leaves nothing. */
  lemma FilterNone<T(!new)>(s: seq<T>, p: T -> bool)
    requires forall i :: 0 <= i < |s| ==> !p(s[i])
    ensures Filter(s, p) == []
  {
  }

  /** Statistics below every threshold unlock nothing. */
  predicate BelowAll(s: UserStats) {
    && s.totalPointsEarned < 1000 && s.totalPointsRedeemed < 500
    && s.recyclingActivitiesCount < 50 && s.learningActivitiesCount < 10
    && s.recyclingStreak < 7 && s.totalWasteReduced < 100 && s.consecutiveDays < 30
  }

  /** Statistics meeting every threshold that the checked metrics can meet. */
  predicate AtLeastAll(s: UserStats) {
    && s.totalPointsEarned >= 1000 && s.totalPointsRedeemed >= 500
    && s.recyclingActivitiesCount >= 50 && s.learningActivitiesCount >= 10
    && s.recyclingStreak >= 7 && s.totalWasteReduced >= 100 && s.consecutiveDays >= 30
  }

  lemma NothingUnlocks(s: UserStats)
    requires BelowAll(s)
    ensures UnlockedTypes(s) == []
  {
    FilterNone(CheckList(s), Unlocks);
  }

  /** The first seven checks are those of the seven other types, in order. */
  lemma FixedChecks(s: UserStats)
    ensures |CheckList(s)| >= 7
    ensures forall i :: 0 <= i < 7 ==> CheckList(s)[i].kind == NonPioneerTypes[i]
    ensures Kinds(CheckList(s)[..7]) == NonPioneerTypes
  {
    var ks := Kinds(CheckList(s)[..7]);
    assert ks[0] == EcoWarrior && ks[1] == SmartSpender && ks[2] == RecyclingMaster;
    assert ks[3] == LearningEnthusiast && ks[4] == StreakChampion && ks[5] == CommunityHelper;
    assert ks[6] == ConsistencyKing;
  }

  /** Statistics at every threshold make each of the first seven checks
      unlock. */
  lemma FixedChecksUnlock(s: UserStats)
    requires AtLeastAll(s)
    ensures |CheckList(s)| >= 7
    ensures forall i :: 0 <= i < 7 ==> Unlocks(CheckList(s)[i])
  {
    var cs := CheckList(s);
    assert Unlocks(cs[0]) && Unlocks(cs[1]) && Unlocks(cs[2]) && Unlocks(cs[3]);
    assert Unlocks(cs[4]) && Unlocks(cs[5]) && Unlocks(cs[6]);
  }

  lemma AllButPioneerUnlock(s: UserStats)
    requires AtLeastAll(s)
    ensures UnlockedTypes(s) == NonPioneerTypes
  {
    var cs := CheckList(s);
    var head := cs[..7];
    FixedChecks(s);
    FixedChecksUnlock(s);
    assert forall i :: 0 <= i < 7 ==> head[i] == cs[i];
    FilterAll(head, Unlocks);
    if s.isEarlyAdopter {
      assert cs == head + [cs[7]];
      FilterSnoc(head, cs[7], Unlocks);
    } else {
      assert cs == head;
    }
  }

  /** The first two scenarios unlock nothing; the third unlocks every type
      except Green Pioneer, although it is an early adopter. */
  lemma ScenarioOutcomes()
    ensures UnlockedTypes(NewUser) == []
    ensures UnlockedTypes(ActiveRecycler) == []
    ensures UnlockedTypes(EcoWarriorScenario) == NonPioneerTypes
  {
    NothingUnlocks(NewUser);
    NothingUnlocks(ActiveRecycler);
    AllButPioneerUnlock(EcoWarriorScenario);
  }

  /** What a check of such statistics leaves stored: the seven other types
      unlocked, and Green Pioneer, for an early adopter, at progress 1 and
      locked. */
  lemma AllButPioneerStored(d: Db, userID: string, s: UserStats, now: int)
    requires AtLeastAll(s) && s.isEarlyAdopter
    requires forall c :: c in CheckList(s) ==>
      AchievementOf(d, userID, c.kind) == Some(ProgressRecord(c.kind, c.progress, now))
    ensures forall t :: t in NonPioneerTypes ==>
      AchievementOf(d, userID, t).Some? && AchievementOf(d, userID, t).value.isUnlocked
    ensures AchievementOf(d, userID, GreenPioneer) == Some(ProgressRecord(GreenPioneer, 1, now))
  {
    var cs := CheckList(s);
    assert cs[7] in cs;
    FixedChecks(s);
    FixedChecksUnlock(s);
    forall i | 0 <= i < 7
      ensures AchievementOf(d, userID, NonPioneerTypes[i]).Some? && AchievementOf(d, userID, NonPioneerTypes[i]).value.isUnlocked
    {
      assert cs[i] in cs;
    }
  }

  /** `testAchievements(userID)`: the three scenarios in order against the
      same database, collecting what each reports. */
  method RunScenarios(db: Db, userID: string, now: int) returns (db': Db, reports: seq<seq<AchievementType>>)
    ensures userID == "" ==> db' == db && reports == []
    ensures userID != "" ==> reports == [[], [], NonPioneerTypes]
    ensures userID != "" ==> forall t :: t in NonPioneerTypes ==>
      AchievementOf(db', userID, t).Some? && AchievementOf(db', userID, t).value.isUnlocked
    ensures userID != "" ==> AchievementOf(db', userID, GreenPioneer) == Some(ProgressRecord(GreenPioneer, 1, now))
  {
    if userID == "" {
      return db, [];
    }
    var r1 := CheckAndUpdate(db, userID, NewUser, now);
    var r2 := CheckAndUpdate(r1.value.db, userID, ActiveRecycler, now);
    var r3 := CheckAndUpdate(r2.value.db, userID, EcoWarriorScenario, now);
    ScenarioOutcomes();
    AllButPioneerStored(r3.value.db, userID, EcoWarriorScenario, now);
    return r3.value.db, [r1.value.unlocked, r2.value.unlocked, r3.value.unlocked];
  }

  // ---------------------------------------------------------------------------
  // forceUnlockAchievement
  // ---------------------------------------------------------------------------

  /** `forceUnlockAchievement(userID, type, progress)`: the database after the
      call and the value it returns (`None` for the early returns). A missing
      `progress` means the type's threshold. */
  function ForceUnlock(db: Db, userID: string, achievementType: string, progress: Option<int>, now: int): (r: (Db, Option<bool>))
    ensures userID == "" || achievementType == "" || TypeOf(achievementType).None? ==> r == (db, None)
    ensures userID != "" && TypeOf(achievementType).Some? ==>
      var t := TypeOf(achievementType).value;
      var p := progress.GetOr(Threshold(t));
      r == (WriteRecord(db, userID, t, ProgressRecord(t, p, now)), Some(p >= Threshold(t)))
  {
    if userID == "" || achievementType == "" then (db, None)
    else match TypeOf(achievementType)
      case None => (db, None)
      case Some(t) =>
        var p := if progress.Some? then progress.value else Def(t).criteria.threshold;
        var u := UpdateProgress(db, userID, achievementType, p, now);
        (u.value.db, Some(u.value.unlocked))
  }

  /** Without an explicit progress every defined type is reported unlocked
      and stored unlocked. */
  lemma ForceUnlockDefaultUnlocks(db: Db, userID: string, t: AchievementType, now: int)
    requires userID != ""
    ensures var r := ForceUnlock(db, userID, Key(t), None, now);
      r.1 == Some(true) && AchievementOf(r.0, userID, t).Some? && AchievementOf(r.0, userID, t).value.isUnlocked
  {
    TypeOfKey(t);
  }

  // ---------------------------------------------------------------------------
  // testProgressiveAchievements
  // ---------------------------------------------------------------------------

  /** The progress updates of one type, in order, with the flag each reports. */
  function RunSteps(db: Db, userID: string, t: AchievementType, steps: seq<int>, now: int): (r: (Db, seq<bool>))
    requires userID != ""
    ensures |r.1| == |steps|
    ensures forall i :: 0 <= i < |steps| ==> (r.1[i] <==> steps[i] >= Threshold(t))
    ensures steps != [] ==> AchievementOf(r.0, userID, t) == Some(ProgressRecord(t, steps[|steps| - 1], now))
    ensures steps == [] ==> r.0 == db
    decreases |steps|
  {
    if steps == [] then (db, [])
    else
      var n := |steps| - 1;
      var prefix := RunSteps(db, userID, t, steps[..n], now);
      UpdateProgressOk(prefix.0, userID, t, steps[n], now);
      var u := UpdateProgress(prefix.0, userID, Key(t), steps[n], now).value;
      StepFlags(prefix.1, steps, u.unlocked, t);
      (u.db, prefix.1 + [u.unlocked])
  }

  lemma StepFlags(flags: seq<bool>, steps: seq<int>, last: bool, t: AchievementType)
    requires |steps| > 0 && |flags| == |steps| - 1
    requires forall i :: 0 <= i < |flags| ==> (flags[i] <==> steps[..|flags|][i] >= Threshold(t))
    requires last <==> steps[|flags|] >= Threshold(t)
    ensures forall i :: 0 <= i < |steps| ==> ((flags + [last])[i] <==> steps[i] >= Threshold(t))
  {
  }

  /** With non-decreasing steps, once a step reports unlocked every later
      step does too. */
  lemma StepsStayUnlocked(db: Db, userID: string, t: AchievementType, steps: seq<int>, now: int, i: int, j: int)
    requires userID != ""
    requires forall a, b :: 0 <= a < b < |steps| ==> steps[a] <= steps[b]
    requires 0 <= i < j < |steps|
    requires RunSteps(db, userID, t, steps, now).1[i]
    ensures RunSteps(db, userID, t, steps, now).1[j]
  {
    assert steps[i] <= steps[j];
  }

  /** The step sequences of `testProgressiveAchievements`. */
  const ProgressiveTests: seq<(AchievementType, seq<int>)> := [
    (EcoWarrior, [0, 250, 500, 750, 1000, 1200]),
    (SmartSpender, [0, 100, 250, 400, 500, 600]),
    (RecyclingMaster, [0, 10, 25, 40, 50, 60]),
    (LearningEnthusiast, [0, 2, 5, 8, 10, 12]),
    (StreakChampion, [0, 2, 4, 6, 7, 10])
  ]

  /** Six steps whose fifth is the threshold, the four before below it and
      the sixth above it. */
  predicate ThresholdAtFifth(t: AchievementType, steps: seq<int>) {
    && |steps| == 6
    && (forall i :: 0 <= i < 4 ==> steps[i] < Threshold(t))
    && steps[4] == Threshold(t) <= steps[5]
  }

  lemma ProgressiveTestsShape(k: nat)
    requires k < |ProgressiveTests|
    ensures ThresholdAtFifth(ProgressiveTests[k].0, ProgressiveTests[k].1)
  {
  }

  /** Such a sequence reports locked four times, then unlocked twice. */
  lemma FirstUnlockAtFifth(db: Db, userID: string, t: AchievementType, steps: seq<int>, now: int)
    requires userID != "" && ThresholdAtFifth(t, steps)
    ensures RunSteps(db, userID, t, steps, now).1 == [false, false, false, false, true, true]
  {
    FlagsAtFifth(RunSteps(db, userID, t, steps, now).1, t, steps);
  }

  lemma FlagsAtFifth(flags: seq<bool>, t: AchievementType, steps: seq<int>)
    requires ThresholdAtFifth(t, steps) && |flags| == |steps|
    requires forall i :: 0 <= i < |steps| ==> (flags[i] <==> steps[i] >= Threshold(t))
    ensures flags == [false, false, false, false, true, true]
  {
    assert !flags[0] && !flags[1] && !flags[2] && !flags[3] && flags[4] && flags[5];
  }

  /** Every sequence of the progressive test first reports unlocked at its
      threshold and stays unlocked. */
  lemma ProgressiveFirstUnlockAtThreshold(db: Db, userID: string, k: nat, now: int)
    requires userID != "" && k < |ProgressiveTests|
    ensures RunSteps(db, userID, ProgressiveTests[k].0, ProgressiveTests[k].1, now).1 == [false, false, false, false, true, true]
  {
    ProgressiveTestsShape(k);
    FirstUnlockAtFifth(db, userID, ProgressiveTests[k].0, ProgressiveTests[k].1, now);
  }

  // ---------------------------------------------------------------------------
  // resetAllAchievements
  // ---------------------------------------------------------------------------

  /** `resetAllAchievements(userID)`: a progress update at 0 for every type;
      nothing without a user id. */
  function ResetAll(db: Db, userID: string, now: int): (d: Db)
    ensures userID == "" ==> d == db
    ensures userID != "" ==> forall t :: AchievementOf(d, userID, t) == Some(ProgressRecord(t, 0, now))
    ensures d.AccountAt(UsersTable, userID) == db.AccountAt(UsersTable, userID).(achievements := d.AccountAt(UsersTable, userID).achievements)
    ensures forall other :: other != userID ==> Find(d.users, other) == Find(db.users, other)
    ensures d.admins == db.admins && d.barangay == db.barangay && d.products == db.products
  {
    if userID == "" then db
    else Initialize(db, userID, now).value
  }

  /** After a reset every type is locked at 0%. */
  lemma ResetLocksAll(db: Db, userID: string, now: int, t: AchievementType)
    requires userID != ""
    ensures var rec := AchievementOf(ResetAll(db, userID, now), userID, t);
      rec.Some? && !rec.value.isUnlocked && rec.value.progress.percentage == 0.0
  {
    InitializeAllLocked(db, userID, now, t);
  }

  // ---------------------------------------------------------------------------
  // logAchievementSummary
  // ---------------------------------------------------------------------------

  datatype SummaryCounts = SummaryCounts(total: nat, unlocked: nat, inProgress: nat, locked: nat)

  predicate LockedAtZero(r: AchievementRecord) {
    !r.isUnlocked && r.progress.percentage == 0.0
  }

  /** The counts `logAchievementSummary` prints; nothing for an empty list. */
  function Summary(rs: seq<AchievementRecord>): (s: Option<SummaryCounts>)
    ensures rs == [] <==> s.None?
    ensures s.Some? ==> s.value.total == |rs|
    ensures s.Some? ==> s.value.unlocked == Count(rs, IsUnlocked)
    ensures s.Some? ==> s.value.inProgress == Count(rs, InProgress)
    ensures s.Some? ==> s.value.locked == Count(rs, LockedAtZero)
    ensures s.Some? ==> s.value.unlocked + s.value.inProgress + s.value.locked <= s.value.total
  {
    if rs == [] then None
    else
      var u := Count(rs, IsUnlocked);
      var p := Count(rs, InProgress);
      var l := Count(rs, LockedAtZero);
      CountSplit(rs, IsUnlocked, InProgress, r => IsUnlocked(r) || InProgress(r));
      CountSplit(rs, r => IsUnlocked(r) || InProgress(r), LockedAtZero, r => IsUnlocked(r) || InProgress(r) || LockedAtZero(r));
      Some(SummaryCounts(|rs|, u, p, l))
  }

  /** The printed summary agrees with the statistics the achievement
      engine reports for the same records. */
  lemma SummaryAgreesWithStats(rs: seq<AchievementRecord>)
    requires rs != []
    ensures var s := Summary(rs).value;
      var st := StatsOf(rs);
      s.total == st.total && s.unlocked == st.unlocked && s.inProgress == st.inProgress
  {
  }

  /** With no negative percentage the three counts partition the list. */
  lemma SummaryPartitions(rs: seq<AchievementRecord>)
    requires rs != []
    requires forall i :: 0 <= i < |rs| ==> rs[i].progress.percentage >= 0.0
    ensures var s := Summary(rs).value;
      s.unlocked + s.inProgress + s.locked == s.total
  {
    var all := r => IsUnlocked(r) || InProgress(r) || LockedAtZero(r);
    CountSplit(rs, IsUnlocked, InProgress, r => IsUnlocked(r) || InProgress(r));
    CountSplit(rs, r => IsUnlocked(r) || InProgress(r), LockedAtZero, all);
    assert Count(rs, all) == |rs|;
  }
}

=== FILE: achievements.dfy ===
/** The achievement engine: the eight static definitions, the progress record
    `updateAchievementProgress` writes, `checkAndUpdateAchievements`,
    initialisation, statistics and the display order of the listing. */
module Achievements {
  import opened Wrappers
  import opened Seqs
  import opened Tables
  import opened Store

  // ---------------------------------------------------------------------------
  // Definitions
  // ---------------------------------------------------------------------------

  datatype Definition = Definition(
    id: string,
    title: string,
    description: string,
    icon: string,
    criteria: Criteria,
    rewards: Rewards
  )

  /** The key an achievement type is stored under. */
  function Key(t: AchievementType): string {
    match t
    case EcoWarrior => "eco_warrior"
    case SmartSpender => "smart_spender"
    case RecyclingMaster => "recycling_master"
    case LearningEnthusiast => "learning_enthusiast"
    case StreakChampion => "streak_champion"
    case CommunityHelper => "community_helper"
    case GreenPioneer => "green_pioneer"
    case ConsistencyKing => "consistency_king"
  }

  /** The value of its metric that unlocks each type. */
  function Threshold(t: AchievementType): int {
    match t
    case EcoWarrior => 1000
    case SmartSpender => 500
    case RecyclingMaster => 50
    case LearningEnthusiast => 10
    case StreakChampion => 7
    case CommunityHelper => 100
    case GreenPioneer => 100
    case ConsistencyKing => 30
  }

  /** `ACHIEVEMENT_DEFINITIONS[t]` */
  function Def(t: AchievementType): (d: Definition)
    ensures d.id == Key(t)
    ensures d.criteria.threshold == Threshold(t) > 0 && d.rewards.points > 0
    ensures d.rewards.badge == Key(t) + "_badge"
  {
    match t
    case EcoWarrior =>
      Definition(Key(t), "Eco Warrior", "Earn 1000 total points", "Star",
                 Criteria("total_points_earned", Threshold(t)), Rewards(100, Key(t) + "_badge"))
    case SmartSpender =>
      Definition(Key(t), "Smart Spender", "Redeem 500 points wisely", "Target",
                 Criteria("total_points_redeemed", Threshold(t)), Rewards(50, Key(t) + "_badge"))
    case RecyclingMaster =>
      Definition(Key(t), "Recycling Master", "Complete 50 recycling activities", "Recycle",
                 Criteria("recycling_activities_count", Threshold(t)), Rewards(200, Key(t) + "_badge"))
    case LearningEnthusiast =>
      Definition(Key(t), "Learning Enthusiast", "Complete 10 learning modules", "BookOpen",
                 Criteria("learning_activities_count", Threshold(t)), Rewards(150, Key(t) + "_badge"))
    case StreakChampion =>
      Definition(Key(t), "Streak Champion", "Maintain a 7-day recycling streak", "Flame",
                 Criteria("recycling_streak", Threshold(t)), Rewards(300, Key(t) + "_badge"))
    case CommunityHelper =>
      Definition(Key(t), "Community Helper", "Help reduce 100kg of waste", "Users",
                 Criteria("total_waste_reduced", Threshold(t)), Rewards(250, Key(t) + "_badge"))
    case GreenPioneer =>
      Definition(Key(t), "Green Pioneer", "One of the first 100 users", "Trophy",
                 Criteria("early_adopter", Threshold(t)), Rewards(500, Key(t) + "_badge"))
    case ConsistencyKing =>
      Definition(Key(t), "Consistency King", "Recycle for 30 consecutive days", "Calendar",
                 Criteria("consecutive_days", Threshold(t)), Rewards(400, Key(t) + "_badge"))
  }


  /** The types in the order `ACHIEVEMENT_DEFINITIONS` lists them. */
  const AllTypes: seq<AchievementType> := [
    EcoWarrior, SmartSpender, RecyclingMaster, LearningEnthusiast,
    StreakChampion, CommunityHelper, GreenPioneer, ConsistencyKing
  ]

  lemma AllTypesComplete(t: AchievementType)
    ensures t in AllTypes
  {
  }

  /** The types in the lexicographic order of their keys, the order in which
      the database lists the children of an `achievements` node. */
  const KeyOrder: seq<AchievementType> := [
    CommunityHelper, ConsistencyKing, EcoWarrior, GreenPioneer,
    LearningEnthusiast, RecyclingMaster, SmartSpender, StreakChampion
  ]

  lemma KeyOrderComplete(t: AchievementType)
    ensures t in KeyOrder
  {
  }

  /** The lookup `ACHIEVEMENT_DEFINITIONS[s]`: defined exactly for the eight
      keys. */
  function TypeOf(s: string): (r: Option<AchievementType>)
    ensures r.Some? ==> Key(r.value) == s
    ensures r.None? ==> forall t :: Key(t) != s
  {
    match s
    case "eco_warrior" => Some(EcoWarrior)
    case "smart_spender" => Some(SmartSpender)
    case "recycling_master" => Some(RecyclingMaster)
    case "learning_enthusiast" => Some(LearningEnthusiast)
    case "streak_champion" => Some(StreakChampion)
    case "community_helper" => Some(CommunityHelper)
    case "green_pioneer" => Some(GreenPioneer)
    case "consistency_king" => Some(ConsistencyKing)
    case _ => None
  }

  /** Each type is found again from its key, so the keys are distinct. */
  lemma TypeOfKey(t: AchievementType)
    ensures TypeOf(Key(t)) == Some(t)
  {
  }

  // ---------------------------------------------------------------------------
  // updateAchievementProgress
  // ---------------------------------------------------------------------------

  function Min(a: real, b: real): real {
    if a <= b then a else b
  }

  /** `Math.min((current / threshold) * 100, 100)`, exactly. */
  function Percentage(current: int, threshold: int): (p: real)
    requires threshold > 0
    ensures p <= 100.0
    ensures current >= 0 ==> p >= 0.0
    ensures current >= threshold ==> p == 100.0
    ensures current == 0 ==> p == 0.0
    ensures 0 <= current < threshold ==> p < 100.0
  {
    var q := current as real / threshold as real;
    assert q * threshold as real == current as real;
    assert current >= threshold ==> q >= 1.0;
    assert 0 <= current < threshold ==> 0.0 <= q < 1.0;
    Min(q * 100.0, 100.0)
  }

  /** `Percentage(current, Threshold(t))`, with the threshold of each type
      written as the constant it is. */
  function PercentageOf(t: AchievementType, current: int): (p: real)
    ensures p <= 100.0
    ensures current >= 0 ==> p >= 0.0
    ensures current >= Threshold(t) ==> p == 100.0
    ensures current == 0 ==> p == 0.0
    ensures 0 <= current < Threshold(t) ==> p < 100.0
  {
    match t
    case EcoWarrior => Percentage(current, 1000)
    case SmartSpender => Percentage(current, 500)
    case RecyclingMaster => Percentage(current, 50)
    case LearningEnthusiast => Percentage(current, 10)
    case StreakChampion => Percentage(current, 7)
    case CommunityHelper => Percentage(current, 100)
    case GreenPioneer => Percentage(current, 100)
    case ConsistencyKing => Percentage(current, 30)
  }

  /** Writing the threshold as a constant computes the same percentage. */
  lemma PercentageOfThreshold(t: AchievementType, current: int)
    ensures PercentageOf(t, current) == Percentage(current, Threshold(t))
  {
  }

  /** The record `updateAchievementProgress(userID, t, current)` writes at
      time `now`. */
  function ProgressRecord(t: AchievementType, current: int, now: int): (r: AchievementRecord)
    ensures r.achievementID == Key(t) && r.criteria == Def(t).criteria
    ensures r.progress.current == current && r.progress.target == Threshold(t)
    ensures r.progress.percentage == PercentageOf(t, current)
    ensures r.isUnlocked <==> current >= Threshold(t)
    ensures r.unlockedAt.Some? <==> r.isUnlocked
    ensures r.rewards.Some? <==> r.isUnlocked
    ensures r.isUnlocked ==> r.unlockedAt == Some(now) && r.rewards == Some(Def(t).rewards)
                             && r.progress.percentage == 100.0
  {
    var d := Def(t);
    var unlocked := current >= d.criteria.threshold;
    AchievementRecord(
      d.id, d.title, d.description, d.icon,
      Progress(current, d.criteria.threshold, PercentageOf(t, current)),
      d.criteria,
      unlocked,
      if unlocked then Some(now) else None,
      if unlocked then Some(d.rewards) else None)
  }

  /** A record as this code writes it: timestamp and rewards exactly when
      unlocked. */
  predicate WellFormed(r: AchievementRecord) {
    (r.unlockedAt.Some? <==> r.isUnlocked) && (r.rewards.Some? <==> r.isUnlocked)
  }

  /** The `achievements` node of user `userID`. */
  function StoredAchievements(db: Db, userID: string): map<AchievementType, AchievementRecord> {
    db.AccountAt(UsersTable, userID).achievements
  }

  function AchievementOf(db: Db, userID: string, t: AchievementType): Option<AchievementRecord> {
    var a := StoredAchievements(db, userID);
    if t in a then Some(a[t]) else None
  }

  /** `set(Users/<userID>/achievements/<t>, r)` */
  function WriteRecord(db: Db, userID: string, t: AchievementType, r: AchievementRecord): (d: Db)
    ensures AchievementOf(d, userID, t) == Some(r)
    ensures forall t' :: t' != t ==> AchievementOf(d, userID, t') == AchievementOf(db, userID, t')
    ensures d.AccountAt(UsersTable, userID) ==
            db.AccountAt(UsersTable, userID).(achievements := d.AccountAt(UsersTable, userID).achievements)
    ensures forall other :: other != userID ==> Find(d.users, other) == Find(db.users, other)
    ensures d.admins == db.admins && d.barangay == db.barangay && d.products == db.products
  {
    var acc := db.AccountAt(UsersTable, userID);
    var d := db.WithAccount(UsersTable, userID, acc.(achievements := acc.achievements[t := r]));
    assert d.TableOf(AdminsTable) == db.TableOf(AdminsTable);
    assert d.TableOf(BarangayTable) == db.TableOf(BarangayTable);
    d
  }

  /** A successful progress update: the new database and the returned flag. */
  datatype Updated = Updated(db: Db, unlocked: bool)

  const UserIdRequired := "UserID is required to update achievement progress"

  /** `updateAchievementProgress(userID, achievementType, current)`. */
  function UpdateProgress(db: Db, userID: string, achievementType: string, current: int, now: int): (r: Result<Updated>)
    ensures userID == "" ==> r == Err(UserIdRequired)
    ensures userID != "" && TypeOf(achievementType).None? ==>
              r == Err("Unknown achievement type: " + achievementType)
    ensures r.Ok? <==> userID != "" && TypeOf(achievementType).Some?
    ensures r.Ok? ==>
      var t := TypeOf(achievementType).value;
      && (r.value.unlocked <==> current >= Threshold(t))
      && AchievementOf(r.value.db, userID, t) == Some(ProgressRecord(t, current, now))
      && r.value.db == WriteRecord(db, userID, t, ProgressRecord(t, current, now))
  {
    if userID == "" then Err(UserIdRequired)
    else match TypeOf(achievementType)
      case None => Err("Unknown achievement type: " + achievementType)
      case Some(t) =>
        var rec := ProgressRecord(t, current, now);
        Ok(Updated(WriteRecord(db, userID, t, rec), rec.isUnlocked))
  }

  /** A known type under a non-empty user id always succeeds. */
  lemma UpdateProgressOk(db: Db, userID: string, t: AchievementType, current: int, now: int)
    requires userID != ""
    ensures UpdateProgress(db, userID, Key(t), current, now) ==
            Ok(Updated(WriteRecord(db, userID, t, ProgressRecord(t, current, now)), current >= Threshold(t)))
  {
    TypeOfKey(t);
  }

  /** The write replaces the whole record: what was stored before has no
      influence, so lower progress locks an unlocked achievement again and
      drops its `unlockedAt` and `rewards`. */
  lemma UpdateForgetsHistory(db1: Db, db2: Db, userID: string, t: AchievementType, current: int, now: int)
    requires userID != ""
    ensures var r1 := UpdateProgress(db1, userID, Key(t), current, now);
            var r2 := UpdateProgress(db2, userID, Key(t), current, now);
      r1.Ok? && r2.Ok? && r1.value.unlocked == r2.value.unlocked
      && AchievementOf(r1.value.db, userID, t) == AchievementOf(r2.value.db, userID, t)
  {
    TypeOfKey(t);
  }

  /** Unlocking is not monotone: an unlocked achievement updated with
      progress below its threshold is stored locked. */
  lemma RelockOnLowerProgress(db: Db, userID: string, t: AchievementType, high: int, low: int, now1: int, now2: int)
    requires userID != "" && high >= Threshold(t) && low < Threshold(t)
    ensures var r1 := UpdateProgress(db, userID, Key(t), high, now1);
      r1.Ok? && r1.value.unlocked
      && var r2 := UpdateProgress(r1.value.db, userID, Key(t), low, now2);
         r2.Ok? && !r2.value.unlocked
         && var rec := AchievementOf(r2.value.db, userID, t);
            rec.Some? && !rec.value.isUnlocked && rec.value.unlockedAt == None && rec.value.rewards == None
  {
    UpdateProgressOk(db, userID, t, high, now1);
    var d1 := WriteRecord(db, userID, t, ProgressRecord(t, high, now1));
    UpdateProgressOk(d1, userID, t, low, now2);
  }

  /** Each unlocked update stamps the time of that call, not of the first
      unlock. */
  lemma UnlockedAtRefreshed(db: Db, userID: string, t: AchievementType, p1: int, p2: int, now1: int, now2: int)
    requires userID != "" && p1 >= Threshold(t) && p2 >= Threshold(t)
    ensures var r1 := UpdateProgress(db, userID, Key(t), p1, now1);
      r1.Ok? &&
      var r2 := UpdateProgress(r1.value.db, userID, Key(t), p2, now2);
      r2.Ok? &&
      var rec := AchievementOf(r2.value.db, userID, t);
      rec.Some? && rec.value.unlockedAt == Some(now2)
  {
    UpdateProgressOk(db, userID, t, p1, now1);
    var d1 := WriteRecord(db, userID, t, ProgressRecord(t, p1, now1));
    UpdateProgressOk(d1, userID, t, p2, now2);
  }

  /** `unlockAchievement(userID, type, progress)`: stores an unlocked record
      with full percentage; a missing or zero `progress.current` becomes the
      threshold. */
  function Unlock(db: Db, userID: string, achievementType: string, current: Option<int>, now: int): (r: Result<Db>)
    ensures r.Ok? <==> userID != "" && TypeOf(achievementType).Some?
    ensures userID == "" ==> r == Err("UserID is required to unlock achievement")
    ensures r.Ok? ==>
      var t := TypeOf(achievementType).value;
      AchievementOf(r.value, userID, t).Some? &&
      var rec := AchievementOf(r.value, userID, t).value;
      && rec.isUnlocked && rec.progress.percentage == 100.0 && rec.unlockedAt == Some(now)
      && rec.rewards == Some(Def(t).rewards) && WellFormed(rec)
      && rec.progress.target == Threshold(t)
      && (current.None? || current == Some(0) ==> rec.progress.current == Threshold(t))
      && (current.Some? && current != Some(0) ==> rec.progress.current == current.value)
    ensures r.Ok? ==>
      var t := TypeOf(achievementType).value;
      && (forall t' :: t' != t ==> AchievementOf(r.value, userID, t') == AchievementOf(db, userID, t'))
      && r.value.AccountAt(UsersTable, userID) ==
         db.AccountAt(UsersTable, userID).(achievements := r.value.AccountAt(UsersTable, userID).achievements)
      && (forall other :: other != userID ==> Find(r.value.users, other) == Find(db.users, other))
      && r.value.admins == db.admins && r.value.barangay == db.barangay && r.value.products == db.products
  {
    if userID == "" then Err("UserID is required to unlock achievement")
    else match TypeOf(achievementType)
      case None => Err("Unknown achievement type: " + achievementType)
      case Some(t) =>
        var d := Def(t);
        var cur := if current.None? || current == Some(0) then d.criteria.threshold else current.value;
        var rec := AchievementRecord(d.id, d.title, d.description, d.icon,
                                     Progress(cur, d.criteria.threshold, 100.0), d.criteria,
                                     true, Some(now), Some(d.rewards));
        Ok(WriteRecord(db, userID, t, rec))
  }

  // ---------------------------------------------------------------------------
  // checkAndUpdateAchievements
  // ---------------------------------------------------------------------------

  /** The statistics `checkAndUpdateAchievements` reads; missing fields are 0
      and `false`. */
  datatype UserStats = UserStats(
    totalPointsEarned: int,
    totalPointsRedeemed: int,
    recyclingActivitiesCount: int,
    learningActivitiesCount: int,
    recyclingStreak: int,
    totalWasteReduced: int,
    consecutiveDays: int,
    isEarlyAdopter: bool
  )

  datatype Check = Check(kind: AchievementType, progress: int)

  function Kinds(cs: seq<Check>): (ks: seq<AchievementType>)
    ensures |ks| == |cs| && forall i :: 0 <= i < |cs| ==> ks[i] == cs[i].kind
  {
    seq(|cs|, i requires 0 <= i < |cs| => cs[i].kind)
  }

  /** `achievementsToCheck`: seven fixed entries, then Green Pioneer with
      progress 1 for an early adopter. */
  function CheckList(s: UserStats): (cs: seq<Check>)
    ensures |cs| == if s.isEarlyAdopter then 8 else 7
    ensures forall i, j :: 0 <= i < j < |cs| ==> cs[i].kind != cs[j].kind
    ensures s.isEarlyAdopter ==> cs[7] == Check(GreenPioneer, 1)
    ensures !s.isEarlyAdopter ==> forall i :: 0 <= i < |cs| ==> cs[i].kind != GreenPioneer
  {
    var fixed := [
      Check(EcoWarrior, s.totalPointsEarned),
      Check(SmartSpender, s.totalPointsRedeemed),
      Check(RecyclingMaster, s.recyclingActivitiesCount),
      Check(LearningEnthusiast, s.learningActivitiesCount),
      Check(StreakChampion, s.recyclingStreak),
      Check(CommunityHelper, s.totalWasteReduced),
      Check(ConsistencyKing, s.consecutiveDays)
    ];
    if s.isEarlyAdopter then fixed + [Check(GreenPioneer, 1)] else fixed
  }

  predicate Unlocks(c: Check) {
    c.progress >= Threshold(c.kind)
  }

  /** The checked types whose progress meets the threshold, in checking
      order. */
  function UnlockedTypes(s: UserStats): seq<AchievementType> {
    Kinds(Filter(CheckList(s), Unlocks))
  }

  /** A successful check: the new database and the returned list. */
  datatype Checked = Checked(db: Db, unlocked: seq<AchievementType>)

  predicate DistinctKinds(cs: seq<Check>) {
    forall i, j :: 0 <= i < j < |cs| ==> cs[i].kind != cs[j].kind
  }

  /** `checkAndUpdateAchievements(userID, stats)`: one progress update per
      checked type, in order, collecting every type reported unlocked
      (including ones that were unlocked before). */
  method CheckAndUpdate(db: Db, userID: string, s: UserStats, now: int) returns (r: Result<Checked>)
    ensures userID == "" ==> r == Err(UserIdRequired)
    ensures userID != "" ==> r.Ok?
    ensures r.Ok? ==> r.value.unlocked == UnlockedTypes(s)
    ensures r.Ok? ==> forall c :: c in CheckList(s) ==>
              AchievementOf(r.value.db, userID, c.kind) == Some(ProgressRecord(c.kind, c.progress, now))
    ensures r.Ok? ==> forall t :: t !in Kinds(CheckList(s)) ==>
              AchievementOf(r.value.db, userID, t) == AchievementOf(db, userID, t)
    ensures r.Ok? ==> OnlyUserChanged(db, r.value.db, userID)
  {
    if userID == "" {
      return Err(UserIdRequired);
    }
    var cs := CheckList(s);
    var checked := RunChecks(db, userID, cs, now);
    ChecksWrittenAll(db, checked.db, userID, cs, now);
    return Ok(checked);
  }

  /** The record each check writes, in checking order. */
  function CheckRecords(cs: seq<Check>, now: int): (rs: seq<AchievementRecord>)
    ensures |rs| == |cs|
    ensures forall i :: 0 <= i < |cs| ==> rs[i] == ProgressRecord(cs[i].kind, cs[i].progress, now)
  {
    seq(|cs|, i requires 0 <= i < |cs| => ProgressRecord(cs[i].kind, cs[i].progress, now))
  }

  /** The database after the records `rs` have been written under the first
      `n` types of `ks`: those are stored, no other achievement, user or
      table changed. */
  ghost predicate Written(db: Db, cur: Db, userID: string, ks: seq<AchievementType>, rs: seq<AchievementRecord>, n: nat)
    requires n <= |ks| == |rs|
  {
    && (forall j :: 0 <= j < n ==> AchievementOf(cur, userID, ks[j]) == Some(rs[j]))
    && (forall t :: t !in ks[..n] ==> AchievementOf(cur, userID, t) == AchievementOf(db, userID, t))
    && OnlyUserChanged(db, cur, userID)
  }

  /** Every other user, and every other table, is as in `db`. */
  ghost predicate OnlyUserChanged(db: Db, cur: Db, userID: string) {
    && (forall other :: other != userID ==> Find(cur.users, other) == Find(db.users, other))
    && cur.admins == db.admins && cur.barangay == db.barangay && cur.products == db.products
  }

  /** Writing record `n` extends the written prefix by one. */
  lemma WrittenStep(db: Db, cur: Db, next: Db, userID: string, ks: seq<AchievementType>, rs: seq<AchievementRecord>, n: nat)
    requires n < |ks| == |rs|
    requires forall j :: 0 <= j < n ==> ks[j] != ks[n]
    requires Written(db, cur, userID, ks, rs, n)
    requires AchievementOf(next, userID, ks[n]) == Some(rs[n])
    requires forall t :: t != ks[n] ==> AchievementOf(next, userID, t) == AchievementOf(cur, userID, t)
    requires OnlyUserChanged(cur, next, userID)
    ensures Written(db, next, userID, ks, rs, n + 1)
  {
    TakeSnoc(ks, n);
    forall j | 0 <= j < n + 1
      ensures AchievementOf(next, userID, ks[j]) == Some(rs[j])
    {
      if j < n {
        assert AchievementOf(next, userID, ks[j]) == AchievementOf(cur, userID, ks[j]);
      }
    }
    OnlyUserChangedTrans(db, cur, next, userID);
    forall t | t !in ks[..n + 1]
      ensures AchievementOf(next, userID, t) == AchievementOf(db, userID, t)
    {
      assert t != ks[n] && t !in ks[..n];
    }
  }

  /** Two changes confined to one user are together confined to that user. */
  lemma OnlyUserChangedTrans(d1: Db, d2: Db, d3: Db, userID: string)
    requires OnlyUserChanged(d1, d2, userID) && OnlyUserChanged(d2, d3, userID)
    ensures OnlyUserChanged(d1, d3, userID)
  {
  }

  lemma KindsAppend(a: seq<Check>, b: seq<Check>)
    ensures Kinds(a + b) == Kinds(a) + Kinds(b)
  {
  }

  /** The types reported by checking `cs` in order, built the way the loop
      builds its list. */
  function Reported(cs: seq<Check>): seq<AchievementType>
    decreases |cs|
  {
    if cs == [] then []
    else
      var last := cs[|cs| - 1];
      Reported(cs[..|cs| - 1]) + (if Unlocks(last) then [last.kind] else [])
  }

  /** The loop's list is the kinds of the passing checks. */
  lemma {:induction false} ReportedIsFiltered(cs: seq<Check>)
    ensures Reported(cs) == Kinds(Filter(cs, Unlocks))
    decreases |cs|
  {
    if cs != [] {
      var init := cs[..|cs| - 1];
      var last := cs[|cs| - 1];
      ReportedIsFiltered(init);
      assert cs == init + [last];
      FilterSnoc(init, last, Unlocks);
      KindsAppend(Filter(init, Unlocks), if Unlocks(last) then [last] else []);
    }
  }

  /** Once every check is written, each checked type holds its progress
      record and every other type is as before. */
  lemma ChecksWrittenAll(db: Db, cur: Db, userID: string, cs: seq<Check>, now: int)
    requires Written(db, cur, userID, Kinds(cs), CheckRecords(cs, now), |cs|)
    ensures forall c :: c in cs ==> AchievementOf(cur, userID, c.kind) == Some(ProgressRecord(c.kind, c.progress, now))
    ensures forall t :: t !in Kinds(cs) ==> AchievementOf(cur, userID, t) == AchievementOf(db, userID, t)
  {
    var ks := Kinds(cs);
    var rs := CheckRecords(cs, now);
    assert ks[..|cs|] == ks;
    forall c | c in cs
      ensures AchievementOf(cur, userID, c.kind) == Some(ProgressRecord(c.kind, c.progress, now))
    {
      var j :| 0 <= j < |cs| && cs[j] == c;
      assert AchievementOf(cur, userID, ks[j]) == Some(rs[j]);
    }
  }

  /** One iteration of the loop: the progress update for check `c`. */
  method CheckOne(cur: Db, userID: string, c: Check, now: int) returns (next: Db, unlocked: bool)
    requires userID != ""
    ensures next == WriteRecord(cur, userID, c.kind, ProgressRecord(c.kind, c.progress, now))
    ensures unlocked <==> Unlocks(c)
  {
    UpdateProgressOk(cur, userID, c.kind, c.progress, now);
    var step := UpdateProgress(cur, userID, Key(c.kind), c.progress, now);
    next := step.value.db;
    unlocked := step.value.unlocked;
  }

  /** The loop of `checkAndUpdateAchievements` over a list of distinct types. */
  method RunChecks(db: Db, userID: string, cs: seq<Check>, now: int) returns (r: Checked)
    requires userID != "" && DistinctKinds(cs)
    ensures r.unlocked == Kinds(Filter(cs, Unlocks))
    ensures Written(db, r.db, userID, Kinds(cs), CheckRecords(cs, now), |cs|)
  {
    ghost var ks := Kinds(cs);
    ghost var rs := CheckRecords(cs, now);
    var cur := db;
    var unlocked: seq<AchievementType> := [];
    for i := 0 to |cs|
      invariant unlocked == Reported(cs[..i])
      invariant Written(db, cur, userID, ks, rs, i)
    {
      var next, u := CheckOne(cur, userID, cs[i], now);
      assert ks[i] == cs[i].kind && rs[i] == ProgressRecord(cs[i].kind, cs[i].progress, now);
      WrittenStep(db, cur, next, userID, ks, rs, i);
      TakeSnoc(cs, i);
      if u {
        unlocked := unlocked + [cs[i].kind];
      }
      cur := next;
    }
    assert cs[..|cs|] == cs;
    ReportedIsFiltered(cs);
    return Checked(cur, unlocked);
  }

  /** Green Pioneer is checked with progress 1 against a threshold of 100, so
      this path never reports it. */
  lemma PioneerNeverUnlocked(s: UserStats)
    ensures GreenPioneer !in UnlockedTypes(s)
  {
    var cs := CheckList(s);
    var f := Filter(cs, Unlocks);
    forall i | 0 <= i < |f|
      ensures f[i].kind != GreenPioneer
    {
      assert f[i] in cs && Unlocks(f[i]);
    }
  }

  /** A type is in the kinds of the passing checks exactly when some check of
      that type passes. */
  lemma KindsFilterIff(cs: seq<Check>, t: AchievementType)
    ensures t in Kinds(Filter(cs, Unlocks)) <==> exists c :: c in cs && c.kind == t && Unlocks(c)
  {
    var f := Filter(cs, Unlocks);
    if t in Kinds(f) {
      var i :| 0 <= i < |f| && Kinds(f)[i] == t;
      assert f[i] in f;
    }
    forall c | c in cs && c.kind == t && Unlocks(c)
      ensures t in Kinds(f)
    {
      assert c in f;
      var i :| 0 <= i < |f| && f[i] == c;
      assert Kinds(f)[i] == t;
    }
  }

  /** A type is reported exactly when it is checked and meets its threshold. */
  lemma UnlockedTypesIff(s: UserStats, t: AchievementType)
    ensures t in UnlockedTypes(s) <==> exists c :: c in CheckList(s) && c.kind == t && Unlocks(c)
  {
    KindsFilterIff(CheckList(s), t);
  }

  // ---------------------------------------------------------------------------
  // initializeUserAchievements
  // ---------------------------------------------------------------------------

  /** One progress update at 0 for each type of `ts`, in order. */
  function ZeroAll(db: Db, userID: string, ts: seq<AchievementType>, now: int): (d: Db)
    requires userID != ""
    ensures forall t :: t in ts ==> AchievementOf(d, userID, t) == Some(ProgressRecord(t, 0, now))
    ensures forall t :: t !in ts ==> AchievementOf(d, userID, t) == AchievementOf(db, userID, t)
    ensures forall other :: other != userID ==> Find(d.users, other) == Find(db.users, other)
    ensures d.AccountAt(UsersTable, userID) ==
            db.AccountAt(UsersTable, userID).(achievements := d.AccountAt(UsersTable, userID).achievements)
    ensures d.admins == db.admins && d.barangay == db.barangay && d.products == db.products
    decreases |ts|
  {
    if ts == [] then db
    else
      var t := ts[|ts| - 1];
      var rest := ZeroAll(db, userID, ts[..|ts| - 1], now);
      assert forall x :: x in ts <==> x in ts[..|ts| - 1] || x == t;
      WriteRecord(rest, userID, t, ProgressRecord(t, 0, now))
  }

  /** `initializeUserAchievements(userID)`: every type stored at progress 0. */
  function Initialize(db: Db, userID: string, now: int): (r: Result<Db>)
    ensures userID == "" <==> r.Err?
    ensures r.Err? ==> r.msg == "UserID is required to initialize achievements"
    ensures r.Ok? ==> forall t :: AchievementOf(r.value, userID, t) == Some(ProgressRecord(t, 0, now))
    ensures r.Ok? ==>
      && r.value.AccountAt(UsersTable, userID) ==
         db.AccountAt(UsersTable, userID).(achievements := r.value.AccountAt(UsersTable, userID).achievements)
      && (forall other :: other != userID ==> Find(r.value.users, other) == Find(db.users, other))
      && r.value.admins == db.admins && r.value.barangay == db.barangay && r.value.products == db.products
  {
    if userID == "" then Err("UserID is required to initialize achievements")
    else
      assert forall t :: t in AllTypes by {
        forall t { AllTypesComplete(t); }
      }
      Ok(ZeroAll(db, userID, AllTypes, now))
  }

  /** After initialisation every achievement is locked at 0%, because every
      threshold is positive. */
  lemma InitializeAllLocked(db: Db, userID: string, now: int, t: AchievementType)
    requires userID != ""
    ensures var rec := AchievementOf(Initialize(db, userID, now).value, userID, t).value;
      !rec.isUnlocked && rec.progress.percentage == 0.0 && rec.unlockedAt == None && rec.rewards == None
  {
  }

  // ---------------------------------------------------------------------------
  // getUserAchievements: the display order
  // ---------------------------------------------------------------------------

  /** The records of `a` for the types of `ts`, in the order of `ts`. */
  function Present(a: map<AchievementType, AchievementRecord>, ts: seq<AchievementType>): (rs: seq<AchievementRecord>)
    ensures forall t :: t in ts && t in a ==> a[t] in rs
    ensures forall r :: r in rs ==> exists t :: t in ts && t in a && a[t] == r
    ensures |rs| <= |ts|
    decreases |ts|
  {
    if ts == [] then []
    else
      var head := if ts[0] in a then [a[ts[0]]] else [];
      var rest := Present(a, ts[1..]);
      assert forall t :: t in ts ==> t == ts[0] || t in ts[1..];
      assert forall r :: r in head + rest ==> r in head || r in rest;
      head + rest
  }

  /** The stored records in the order the database lists them. */
  function Records(db: Db, userID: string): (rs: seq<AchievementRecord>)
    ensures var m := StoredAchievements(db, userID);
      && (forall t :: t in m ==> m[t] in rs)
      && (forall r :: r in rs ==> exists t :: t in m && m[t] == r)
    ensures |rs| <= 8
  {
    assert forall t :: t in KeyOrder by {
      forall t { KeyOrderComplete(t); }
    }
    Present(StoredAchievements(db, userID), KeyOrder)
  }

  function UnlockTime(r: AchievementRecord): int {
    r.unlockedAt.GetOr(0)
  }

  /** The listing comparator, read as "may come before": unlocked records
      first, unlocked ones by `unlockedAt` descending, locked ones by
      percentage descending. */
  predicate DisplayBefore(a: AchievementRecord, b: AchievementRecord) {
    if a.isUnlocked != b.isUnlocked then a.isUnlocked
    else if a.isUnlocked then UnlockTime(a) >= UnlockTime(b)
    else a.progress.percentage >= b.progress.percentage
  }

  lemma DisplayOrderIsPreorder()
    ensures TotalPreorder(DisplayBefore)
  {
  }

  /** `getUserAchievements(userID)`: nothing for an empty user id, otherwise
      every stored record in display order. */
  function UserAchievements(db: Db, userID: string): (rs: seq<AchievementRecord>)
    ensures userID == "" ==> rs == []
    ensures userID != "" ==> multiset(rs) == multiset(Records(db, userID))
    ensures forall i, j :: 0 <= i < j < |rs| && rs[j].isUnlocked ==> rs[i].isUnlocked
    ensures forall i, j :: 0 <= i < j < |rs| && rs[i].isUnlocked && rs[j].isUnlocked ==>
              UnlockTime(rs[i]) >= UnlockTime(rs[j])
    ensures forall i, j :: 0 <= i < j < |rs| && !rs[i].isUnlocked && !rs[j].isUnlocked ==>
              rs[i].progress.percentage >= rs[j].progress.percentage
  {
    if userID == "" then []
    else
      DisplayOrderIsPreorder();
      var rs := Sort(Records(db, userID), DisplayBefore);
      assert forall i, j :: 0 <= i < j < |rs| ==> DisplayBefore(rs[i], rs[j]);
      rs
  }

  // ---------------------------------------------------------------------------
  // getAchievementStats
  // ---------------------------------------------------------------------------

  datatype AchievementStats = AchievementStats(total: nat, unlocked: nat, inProgress: nat, completionRate: real)

  predicate IsUnlocked(r: AchievementRecord) { r.isUnlocked }

  predicate InProgress(r: AchievementRecord) { !r.isUnlocked && r.progress.percentage > 0.0 }

  /** `part / whole * 100`, or 0 for an empty whole. */
  function Rate(part: nat, whole: nat): (r: real)
    requires part <= whole
    ensures 0.0 <= r <= 100.0
    ensures whole == 0 ==> r == 0.0
    ensures whole > 0 && part == whole ==> r == 100.0
    ensures whole > 0 ==> r * whole as real == part as real * 100.0
  {
    if whole == 0 then 0.0
    else
      var q := part as real / whole as real;
      assert q * whole as real == part as real;
      q * 100.0
  }

  /** The figures of a list of records: how many, how many unlocked, how
      many locked with some progress, and the unlocked share in percent. */
  function StatsOf(rs: seq<AchievementRecord>): (st: AchievementStats)
    ensures st.total == |rs|
    ensures st.unlocked == Count(rs, IsUnlocked) && st.inProgress == Count(rs, InProgress)
    ensures st.unlocked + st.inProgress <= st.total
    ensures 0.0 <= st.completionRate <= 100.0
    ensures st.completionRate == Rate(st.unlocked, st.total)
    ensures st.total == 0 ==> st.completionRate == 0.0
    ensures st.total > 0 && st.unlocked == st.total ==> st.completionRate == 100.0
  {
    var u, p := Count(rs, IsUnlocked), Count(rs, InProgress);
    CountSplit(rs, IsUnlocked, InProgress, r => IsUnlocked(r) || InProgress(r));
    var n := |rs|;
    var rate := Rate(u, n);
    assert n == 0 ==> u == 0 && rate == 0.0;
    AchievementStats(n, u, p, rate)
  }

  /** `getAchievementStats(userID)` over the stored records. */
  function Stats(db: Db, userID: string): (r: Result<AchievementStats>)
    ensures userID == "" <==> r.Err?
    ensures r.Ok? ==> r.value == StatsOf(Records(db, userID))
  {
    if userID == "" then Err("UserID is required")
    else Ok(StatsOf(Records(db, userID)))
  }
}

=== FILE: activities.dfy ===
/** The activity log: records under `Users/<id>/activities`, the templates the
    application logs from, and the newest-first listing. */
module Activities {
  import opened Wrappers
  import opened Text
  import opened Seqs
  import opened Tables
  import opened Store

  // ---------------------------------------------------------------------------
  // Activity types and templates
  // ---------------------------------------------------------------------------

  const Recycling := "recycling"
  const Redemption := "redemption"
  const Learning := "learning"
  const Bonus := "bonus"
  const Registration := "registration"

  /** `ACTIVITY_TYPES`: the five values of an activity's `type`. */
  const ActivityTypes: seq<string> := [Recycling, Redemption, Learning, Bonus, Registration]

  /** What a caller hands to `logActivity`: `pointsEarned`, `metadata` and
      `timestamp` may be missing, and an empty `category` counts as none. */
  datatype ActivityData = ActivityData(
    kind: string,
    title: string,
    description: string,
    pointsEarned: Option<int>,
    category: string,
    metadata: Option<Metadata>,
    timestamp: Option<int>
  )

  /** The entries of `ACTIVITY_TEMPLATES` with their arguments. */
  datatype Template =
    | PlasticRecycled(points: int)
    | PaperRecycled(points: int)
    | GlassRecycled(points: int)
    | MetalRecycled(points: int)
    | RewardRedeemed(productName: string, pointsSpent: int)
    | ModuleCompleted(moduleName: string, points: int)
    | DailyLogin(points: int)
    | StreakBonus(days: int, points: int)
    | AccountCreated

  function Abs(x: int): (r: int)
    ensures r >= 0 && (r == x || r == -x)
  {
    if x < 0 then -x else x
  }

  /** The activity a template produces, with the caller's `metadata`. */
  function Instantiate(t: Template, metadata: Metadata): (d: ActivityData)
    ensures d.kind in ActivityTypes
    ensures d.metadata == Some(metadata) && d.timestamp == None && d.category != ""
    ensures d.pointsEarned.Some?
    ensures t.RewardRedeemed? ==> d.kind == Redemption && d.pointsEarned.value <= 0
                                  && Abs(d.pointsEarned.value) == Abs(t.pointsSpent)
    ensures t.AccountCreated? ==> d.kind == Registration && d.pointsEarned == Some(0)
    ensures d.kind == Recycling <==> t.PlasticRecycled? || t.PaperRecycled? || t.GlassRecycled? || t.MetalRecycled?
    ensures d.kind == Bonus <==> t.DailyLogin? || t.StreakBonus?
    ensures d.kind == Learning <==> t.ModuleCompleted?
    ensures !t.RewardRedeemed? && !t.AccountCreated? ==> d.pointsEarned == Some(t.points)
  {
    match t
    case PlasticRecycled(p) =>
      ActivityData(Recycling, "Plastic bottles recycled", "Successfully recycled plastic bottles", Some(p), "Plastic", Some(metadata), None)
    case PaperRecycled(p) =>
      ActivityData(Recycling, "Paper recycled", "Successfully recycled paper materials", Some(p), "Paper", Some(metadata), None)
    case GlassRecycled(p) =>
      ActivityData(Recycling, "Glass bottles recycled", "Successfully recycled glass containers", Some(p), "Glass", Some(metadata), None)
    case MetalRecycled(p) =>
      ActivityData(Recycling, "Metal cans recycled", "Successfully recycled metal containers", Some(p), "Metal", Some(metadata), None)
    case RewardRedeemed(name, spent) =>
      ActivityData(Redemption, "Reward redeemed", "Redeemed " + name, Some(-Abs(spent)), "Reward", Some(metadata), None)
    case ModuleCompleted(name, p) =>
      ActivityData(Learning, "Learning module completed", "Completed \"" + name + "\" module", Some(p), "Education", Some(metadata), None)
    case DailyLogin(p) =>
      ActivityData(Bonus, "Daily login bonus", "Earned daily login bonus points", Some(p), "Bonus", Some(metadata), None)
    case StreakBonus(days, p) =>
      ActivityData(Bonus, IntToString(days) + "-day streak bonus",
                   "Achieved " + IntToString(days) + " consecutive days of recycling", Some(p), "Streak", Some(metadata), None)
    case AccountCreated =>
      ActivityData(Registration, "Welcome to SariCycle!", "Account successfully created", Some(0), "Registration", Some(metadata), None)
  }

  // ---------------------------------------------------------------------------
  // logActivity
  // ---------------------------------------------------------------------------

  /** The record `logActivity` stores: missing points become 0, an empty
      category becomes `null`, missing metadata becomes `{}`, a missing
      timestamp becomes `now`, and `createdAt` is always `now`. */
  function BuildRecord(d: ActivityData, now: int): (a: Activity)
    ensures a.kind == d.kind && a.title == d.title && a.description == d.description
    ensures d.pointsEarned.Some? ==> a.pointsEarned == d.pointsEarned.value
    ensures d.pointsEarned.None? ==> a.pointsEarned == 0
    ensures a.category.Some? <==> d.category != ""
    ensures a.category.Some? ==> a.category.value == d.category
    ensures d.metadata.Some? ==> a.metadata == d.metadata.value
    ensures d.metadata.None? ==> a.metadata == map[]
    ensures d.timestamp.Some? ==> a.timestamp == d.timestamp.value
    ensures d.timestamp.None? ==> a.timestamp == now
    ensures a.createdAt == now
  {
    Activity(
      d.kind, d.title, d.description,
      d.pointsEarned.GetOr(0),
      if d.category == "" then None else Some(d.category),
      d.metadata.GetOr(map[]),
      d.timestamp.GetOr(now),
      now)
  }

  /** A successful log: the new database and the key of the new record. */
  datatype Logged = Logged(db: Db, key: string)

  /** The activity log of user `userID` (empty for a user with no node). */
  function LogOf(db: Db, userID: string): Table<Activity> {
    db.AccountAt(UsersTable, userID).activities
  }

  /** `logActivity(userID, data)`: appends one record under a fresh key of
      `Users/<userID>/activities` and returns the key. */
  function LogActivity(db: Db, userID: string, d: ActivityData, now: int): (r: Result<Logged>)
    ensures userID == "" <==> r.Err?
    ensures r.Err? ==> r.msg == "UserID is required to log activity"
    ensures r.Ok? ==>
      && LogOf(r.value.db, userID) == LogOf(db, userID) + [Entry(r.value.key, BuildRecord(d, now))]
      && !HasKey(LogOf(db, userID), r.value.key)
      && r.value.db == db.WithAccount(UsersTable, userID,
           db.AccountAt(UsersTable, userID).(activities := LogOf(r.value.db, userID)))
  {
    if userID == "" then Err("UserID is required to log activity")
    else
      var pushed := Push(LogOf(db, userID), BuildRecord(d, now));
      var db' := db.WithAccount(UsersTable, userID, db.AccountAt(UsersTable, userID).(activities := pushed.0));
      Ok(Logged(db', pushed.1))
  }

  /** A log append changes nothing but the one user's activity log: every
      other account, and every other field of that account, is as before. */
  lemma LogActivityFrame(db: Db, userID: string, d: ActivityData, now: int)
    requires LogActivity(db, userID, d, now).Ok?
    ensures var db' := LogActivity(db, userID, d, now).value.db;
      && db'.admins == db.admins && db'.barangay == db.barangay && db'.products == db.products
      && (forall other :: other != userID ==> Find(db'.users, other) == Find(db.users, other))
      && db'.AccountAt(UsersTable, userID) == db.AccountAt(UsersTable, userID).(activities := LogOf(db', userID))
  {
    var db' := LogActivity(db, userID, d, now).value.db;
    assert db'.TableOf(AdminsTable) == db.TableOf(AdminsTable);
    assert db'.TableOf(BarangayTable) == db.TableOf(BarangayTable);
  }

  // ---------------------------------------------------------------------------
  // The logging helpers
  // ---------------------------------------------------------------------------

  /** The material table of `logRecyclingActivity`, keyed by the lower-cased
      material name. */
  function MaterialTemplate(material: string, points: int): (t: Option<Template>)
    ensures t.Some? <==> Lower(material) in ["plastic", "paper", "glass", "metal"]
    ensures t.Some? ==> (t.value.PlasticRecycled? || t.value.PaperRecycled? || t.value.GlassRecycled?
                         || t.value.MetalRecycled?) && t.value.points == points
  {
    match Lower(material)
    case "plastic" => Some(PlasticRecycled(points))
    case "paper" => Some(PaperRecycled(points))
    case "glass" => Some(GlassRecycled(points))
    case "metal" => Some(MetalRecycled(points))
    case _ => None
  }

  /** `logRecyclingActivity`: the material is looked up first, so an unknown
      material fails before the user id is examined. */
  function LogRecycling(db: Db, userID: string, material: string, points: int, metadata: Metadata, now: int): (r: Result<Logged>)
    ensures Lower(material) !in ["plastic", "paper", "glass", "metal"] ==>
              r == Err("Unknown material type: " + material)
    ensures Lower(material) in ["plastic", "paper", "glass", "metal"] ==>
              r == LogActivity(db, userID, Instantiate(MaterialTemplate(material, points).value, metadata), now)
  {
    match MaterialTemplate(material, points)
    case None => Err("Unknown material type: " + material)
    case Some(t) => LogActivity(db, userID, Instantiate(t, metadata), now)
  }

  /** Every recycling log that succeeds appends one `recycling` record whose
      points are the given points. */
  lemma LogRecyclingRecord(db: Db, userID: string, material: string, points: int, metadata: Metadata, now: int)
    requires LogRecycling(db, userID, material, points, metadata, now).Ok?
    ensures var r := LogRecycling(db, userID, material, points, metadata, now).value;
      && |LogOf(r.db, userID)| == |LogOf(db, userID)| + 1
      && var a := LogOf(r.db, userID)[|LogOf(db, userID)|].value;
         a.kind == Recycling && a.pointsEarned == points && a.metadata == metadata
  {
    var t := MaterialTemplate(material, points).value;
    var a := RecyclingRecord(t, points, metadata, now);
    var r := LogActivity(db, userID, Instantiate(t, metadata), now);
    assert LogRecycling(db, userID, material, points, metadata, now) == r;
    assert LogOf(r.value.db, userID) == LogOf(db, userID) + [Entry(r.value.key, a)];
  }

  /** The record a recycling template produces. */
  function RecyclingRecord(t: Template, points: int, metadata: Metadata, now: int): (a: Activity)
    requires t.PlasticRecycled? || t.PaperRecycled? || t.GlassRecycled? || t.MetalRecycled?
    requires t.points == points
    ensures a == BuildRecord(Instantiate(t, metadata), now)
    ensures a.kind == Recycling && a.pointsEarned == points && a.metadata == metadata
  {
    BuildRecord(Instantiate(t, metadata), now)
  }

  /** `logRewardRedemption` */
  function LogRedemption(db: Db, userID: string, productName: string, pointsSpent: int, metadata: Metadata, now: int): Result<Logged> {
    LogActivity(db, userID, Instantiate(RewardRedeemed(productName, pointsSpent), metadata), now)
  }

  /** `logLearningActivity` */
  function LogLearning(db: Db, userID: string, moduleName: string, points: int, metadata: Metadata, now: int): Result<Logged> {
    LogActivity(db, userID, Instantiate(ModuleCompleted(moduleName, points), metadata), now)
  }

  /** `logAccountCreation` */
  function LogAccountCreation(db: Db, userID: string, now: int): Result<Logged> {
    LogActivity(db, userID, Instantiate(AccountCreated, map[]), now)
  }

  /** A redemption record never adds points: it is `-|spent|`. */
  lemma RedemptionNeverPositive(db: Db, userID: string, productName: string, pointsSpent: int, metadata: Metadata, now: int)
    requires LogRedemption(db, userID, productName, pointsSpent, metadata, now).Ok?
    ensures var r := LogRedemption(db, userID, productName, pointsSpent, metadata, now).value;
      var a := Find(LogOf(r.db, userID), r.key).value;
      a.kind == Redemption && a.pointsEarned == -Abs(pointsSpent) && a.pointsEarned <= 0
  {
    var r := LogRedemption(db, userID, productName, pointsSpent, metadata, now).value;
    FindAppendFresh(LogOf(db, userID), r.key, BuildRecord(Instantiate(RewardRedeemed(productName, pointsSpent), metadata), now));
  }

  // ---------------------------------------------------------------------------
  // getUserActivities
  // ---------------------------------------------------------------------------

  const DefaultLimit: nat := 10

  function TimestampOf(e: Entry<Activity>): int {
    e.value.timestamp
  }

  /** `getUserActivities(userID, limit)`: at most `limit` records, newest
      first; nothing for an empty user id. */
  function UserActivities(db: Db, userID: string, limit: nat): (r: seq<Entry<Activity>>)
    ensures userID == "" ==> r == []
    ensures |r| <= limit
    ensures userID != "" ==> |r| == if |LogOf(db, userID)| < limit then |LogOf(db, userID)| else limit
    ensures forall i, j :: 0 <= i < j < |r| ==> r[i].value.timestamp >= r[j].value.timestamp
    ensures forall e :: e in r ==> e in LogOf(db, userID)
    ensures multiset(r) <= multiset(LogOf(db, userID))
    ensures userID != "" && |LogOf(db, userID)| <= limit ==> multiset(r) == multiset(LogOf(db, userID))
  {
    if userID == "" then []
    else
      TopK(LogOf(db, userID), TimestampOf, limit)
  }

  /** No record left out of the listing is newer than a record in it. */
  lemma UserActivitiesAreNewest(db: Db, userID: string, limit: nat)
    requires userID != ""
    ensures var r := UserActivities(db, userID, limit);
      forall e, i :: e in LogOf(db, userID) && e !in r && 0 <= i < |r| ==>
        r[i].value.timestamp >= e.value.timestamp
  {
    var log := LogOf(db, userID);
    var r := UserActivities(db, userID, limit);
    TopKIsTop(log, TimestampOf, limit);
    forall e, i | e in log && e !in r && 0 <= i < |r|
      ensures r[i].value.timestamp >= e.value.timestamp
    {
      assert TimestampOf(r[i]) >= TimestampOf(e);
    }
  }
}

=== FILE: auth.dfy ===
/** The authentication context: the session user, login's three-table
    credential lookup, registration, the role predicates, and the session
    updates other pages call. */
module Auth {
  import opened Wrappers
  import opened Text
  import opened Tables
  import opened Store
  import opened Activities
  import opened Achievements

  // ---------------------------------------------------------------------------
  // The session
  // ---------------------------------------------------------------------------

  /** The signed-in user as the context keeps it. Login and registration
      never copy the password into it; only a refresh or a profile update
      carrying one does. */
  datatype SessionUser = SessionUser(
    userID: string,
    username: string,
    email: string,
    usertype: string,
    points: int,
    address: string,
    category: Category,
    password: Option<string>
  )

  /** `user`, with `isAuthenticated` exactly when it is present. */
  type Session = Option<SessionUser>

  // ---------------------------------------------------------------------------
  // login
  // ---------------------------------------------------------------------------

  const DevEmail := "dev@dev.com"
  const DevPassword := "dev123"
  const DevAdmin := SessionUser("dev-admin-001", "Dev Admin", "dev@dev.com", "admin", 0, "Development", AdminsTable, None)

  const InvalidCredentials := "Invalid email or password"

  predicate Matches(a: Account, email: string, password: string) {
    a.email == email && a.password == password
  }

  /** The first account of `t`, in listing order, with exactly these
      credentials. */
  function FirstMatch(t: Table<Account>, email: string, password: string): (r: Option<Entry<Account>>)
    ensures r.None? <==> forall i :: 0 <= i < |t| ==> !Matches(t[i].value, email, password)
    ensures r.Some? ==> exists i :: 0 <= i < |t| && t[i] == r.value && Matches(t[i].value, email, password)
                         && forall j :: 0 <= j < i ==> !Matches(t[j].value, email, password)
    decreases |t|
  {
    if t == [] then None
    else if Matches(t[0].value, email, password) then Some(t[0])
    else
      var r := FirstMatch(t[1..], email, password);
      assert forall i :: 1 <= i < |t| ==> t[i] == t[1..][i - 1];
      assert r.Some? ==> exists i :: 0 <= i < |t| && t[i] == r.value && Matches(t[i].value, email, password)
                           && forall j :: 0 <= j < i ==> !Matches(t[j].value, email, password) by {
        if r.Some? {
          var i :| 0 <= i < |t[1..]| && t[1..][i] == r.value && Matches(t[1..][i].value, email, password)
                   && forall j :: 0 <= j < i ==> !Matches(t[1..][j].value, email, password);
          assert t[i + 1] == r.value;
        }
      }
      r
  }

  /** The usertype a session gets when the account has none. */
  function DefaultUsertype(c: Category): string {
    match c
    case UsersTable => "user"
    case AdminsTable => "admin"
    case BarangayTable => "barangay"
  }

  /** The session built from account `e` of table `c`. */
  function SessionOf(e: Entry<Account>, c: Category): (u: SessionUser)
    ensures u.userID == e.key && u.email == e.value.email && u.category == c
    ensures u.usertype == if e.value.usertype == "" then DefaultUsertype(c) else e.value.usertype
    ensures u.points == e.value.points && u.password == None
  {
    var a := e.value;
    SessionUser(e.key, a.username, a.email, if a.usertype == "" then DefaultUsertype(c) else a.usertype,
                a.points, a.address, c, None)
  }

  datatype LoginResult = LoggedIn(user: SessionUser) | LoginFailed(message: string)

  predicate IsDev(email: string, password: string) {
    email == DevEmail && password == DevPassword
  }

  /** `login(email, password)`: the development pair, then Users, Admins and
      Barangay in that order; the first exact match wins. */
  function Login(db: Db, email: string, password: string): (r: LoginResult)
    ensures IsDev(email, password) ==> r == LoggedIn(DevAdmin)
    ensures r.LoginFailed? ==> r.message == InvalidCredentials
    ensures r.LoginFailed? <==>
      !IsDev(email, password) && forall c :: FirstMatch(db.TableOf(c), email, password).None?
  {
    if IsDev(email, password) then LoggedIn(DevAdmin)
    else match FirstMatch(db.users, email, password)
      case Some(e) =>
        assert db.TableOf(UsersTable) == db.users;
        LoggedIn(SessionOf(e, UsersTable))
      case None =>
        match FirstMatch(db.admins, email, password)
        case Some(e) =>
          assert db.TableOf(AdminsTable) == db.admins;
          LoggedIn(SessionOf(e, AdminsTable))
        case None =>
          match FirstMatch(db.barangay, email, password)
          case Some(e) =>
            assert db.TableOf(BarangayTable) == db.barangay;
            LoggedIn(SessionOf(e, BarangayTable))
          case None =>
            assert forall c :: db.TableOf(c) in [db.users, db.admins, db.barangay];
            LoginFailed(InvalidCredentials)
  }

  /** The position of a table in the lookup order. */
  function Rank(c: Category): nat {
    match c
    case UsersTable => 0
    case AdminsTable => 1
    case BarangayTable => 2
  }

  /** A successful database login comes from the first table, in lookup
      order, holding the credentials, and is that table's first match. */
  lemma LoginTakesFirstTable(db: Db, email: string, password: string)
    requires !IsDev(email, password)
    requires Login(db, email, password).LoggedIn?
    ensures var u := Login(db, email, password).user;
      && FirstMatch(db.TableOf(u.category), email, password).Some?
      && u == SessionOf(FirstMatch(db.TableOf(u.category), email, password).value, u.category)
      && forall c :: Rank(c) < Rank(u.category) ==> FirstMatch(db.TableOf(c), email, password).None?
  {
  }

  /** Every stored account signs in with its own email and password. */
  lemma StoredAccountSignsIn(db: Db, c: Category, id: string)
    requires HasKey(db.TableOf(c), id)
    ensures var a := db.AccountAt(c, id); Login(db, a.email, a.password).LoggedIn?
  {
  }

  /** Applying a login result: a failure leaves the session as it was. */
  function AfterLogin(s: Session, r: LoginResult): (s': Session)
    ensures r.LoginFailed? ==> s' == s
    ensures r.LoggedIn? ==> s' == Some(r.user)
  {
    if r.LoggedIn? then Some(r.user) else s
  }

  // ---------------------------------------------------------------------------
  // register
  // ---------------------------------------------------------------------------

  const EmailExists := "Email already exists"

  /** Some account of some table has exactly this email. */
  predicate EmailTaken(db: Db, email: string) {
    exists c: Category, i :: 0 <= i < |db.TableOf(c)| && db.TableOf(c)[i].value.email == email
  }

  /** `getTableName(usertype)`, case-insensitive. */
  function TableFor(usertype: string): (c: Category)
    ensures c == AdminsTable <==> Lower(usertype) == "admin"
    ensures c == BarangayTable <==> Lower(usertype) == "barangay"
  {
    var t := Lower(usertype);
    if t == "admin" then AdminsTable
    else if t == "barangay" then BarangayTable
    else UsersTable
  }

  /** The node `register` pushes. */
  function NewAccount(username: string, email: string, password: string, usertype: string, address: string, now: int): Account {
    Account(username, email, password, usertype, 0, address, Some(now), Some(now), "", None, [], map[])
  }

  datatype RegisterResult = Registered(db: Db, user: SessionUser) | RegisterFailed(message: string)

  /** The record a new regular user's log starts with. */
  function WelcomeRecord(now: int): (a: Activity)
    ensures a.kind == Registration && a.pointsEarned == 0 && a.timestamp == now
  {
    BuildRecord(Instantiate(AccountCreated, map[]), now)
  }

  /** The follow-up for a regular user: the registration record, then every
      achievement at 0. Neither can fail for a pushed key, and nothing else
      in the database changes. */
  function Onboard(db: Db, userID: string, usertype: string, now: int): (d: Db)
    requires userID != ""
    ensures usertype != "user" ==> d == db
    ensures usertype == "user" ==>
      var before := LogOf(db, userID);
      && |LogOf(d, userID)| == |before| + 1 && LogOf(d, userID)[..|before|] == before
      && LogOf(d, userID)[|before|].value == WelcomeRecord(now)
      && (forall t :: AchievementOf(d, userID, t) == Some(ProgressRecord(t, 0, now)))
      && d.AccountAt(UsersTable, userID) == db.AccountAt(UsersTable, userID).(
           activities := LogOf(d, userID), achievements := d.AccountAt(UsersTable, userID).achievements)
      && (forall other :: other != userID ==> Find(d.users, other) == Find(db.users, other))
      && d.admins == db.admins && d.barangay == db.barangay && d.products == db.products
  {
    if usertype == "user" then
      var logged := LogAccountCreation(db, userID, now).value;
      LogActivityFrame(db, userID, Instantiate(AccountCreated, map[]), now);
      assert LogOf(logged.db, userID) == LogOf(db, userID) + [Entry(logged.key, WelcomeRecord(now))];
      var fin := Initialize(logged.db, userID, now).value;
      assert fin == ZeroAll(logged.db, userID, AllTypes, now);
      fin
    else db
  }

  /** A staff or non-onboarded node: `a` pushed under a fresh key of table
      `c`, nothing else changed. */
  function PushAccount(db: Db, c: Category, a: Account): (r: (Db, string))
    ensures r.1 != "" && !HasKey(db.TableOf(c), r.1)
    ensures Find(r.0.TableOf(c), r.1) == Some(a)
    ensures forall other :: other != r.1 ==> Find(r.0.TableOf(c), other) == Find(db.TableOf(c), other)
    ensures forall c' :: c' != c ==> r.0.TableOf(c') == db.TableOf(c')
    ensures r.0.products == db.products
  {
    var pushed := Push(db.TableOf(c), a);
    (db.WithTable(c, pushed.0), pushed.1)
  }

  /** Two stores with the same staff tables differ at most in `Users`. */
  lemma OnlyUsersDiffer(d: Db, db: Db)
    requires d.admins == db.admins && d.barangay == db.barangay
    ensures forall c' :: c' != UsersTable ==> d.TableOf(c') == db.TableOf(c')
  {
  }

  /** A regular user's node: pushed into `Users`, then onboarded. */
  function PushUser(db: Db, a: Account, now: int): (r: (Db, string))
    requires a.activities == [] && a.achievements == map[] && a.usertype == "user"
    ensures r.1 != "" && !HasKey(db.users, r.1) && HasKey(r.0.users, r.1)
    ensures r.0.AccountAt(UsersTable, r.1).(activities := [], achievements := map[]) == a
    ensures |LogOf(r.0, r.1)| == 1 && LogOf(r.0, r.1)[0].value == WelcomeRecord(now)
    ensures forall t :: AchievementOf(r.0, r.1, t) == Some(ProgressRecord(t, 0, now))
    ensures forall other :: other != r.1 ==> Find(r.0.users, other) == Find(db.users, other)
    ensures r.0.admins == db.admins && r.0.barangay == db.barangay && r.0.products == db.products
    ensures forall c' :: c' != UsersTable ==> r.0.TableOf(c') == db.TableOf(c')
  {
    var pushed := Push(db.users, a);
    var db1 := db.(users := pushed.0);
    assert db1.AccountAt(UsersTable, pushed.1) == a;
    assert LogOf(db1, pushed.1) == [];
    var d := Onboard(db1, pushed.1, a.usertype, now);
    OnlyUsersDiffer(d, db);
    (d, pushed.1)
  }

  /** The node pushed into table `c` and, for usertype exactly `user`,
      onboarded. */
  function Enroll(db: Db, c: Category, a: Account, now: int): (r: (Db, string))
    requires a.activities == [] && a.achievements == map[]
    requires a.usertype == "user" ==> c == UsersTable
    ensures r.1 != "" && !HasKey(db.TableOf(c), r.1) && HasKey(r.0.TableOf(c), r.1)
    ensures r.0.AccountAt(c, r.1).(activities := [], achievements := map[]) == a
    ensures a.usertype != "user" ==> r.0.AccountAt(c, r.1) == a
    ensures a.usertype == "user" ==>
      && |LogOf(r.0, r.1)| == 1 && LogOf(r.0, r.1)[0].value == WelcomeRecord(now)
      && forall t :: AchievementOf(r.0, r.1, t) == Some(ProgressRecord(t, 0, now))
    ensures forall other :: other != r.1 ==> Find(r.0.TableOf(c), other) == Find(db.TableOf(c), other)
    ensures forall c' :: c' != c ==> r.0.TableOf(c') == db.TableOf(c')
    ensures r.0.products == db.products
  {
    if a.usertype == "user" then PushUser(db, a, now)
    else PushAccount(db, c, a)
  }

  /** `register(username, email, password, usertype, address)`: refused when
      any table already holds the email; otherwise the new node is stored,
      with 0 points, under the session's fresh key in the table the usertype
      names. Only usertype exactly `user` is onboarded (one welcome record,
      all eight achievements at 0); any other, `User` included, gets neither. */
  function Register(db: Db, username: string, email: string, password: string, usertype: string, address: string, now: int): (r: RegisterResult)
    ensures r.RegisterFailed? <==> EmailTaken(db, email)
    ensures r.RegisterFailed? ==> r.message == EmailExists
    ensures r.Registered? ==>
      var c := TableFor(usertype);
      var k := r.user.userID;
      var acc := r.db.AccountAt(c, k);
      && r.user == SessionUser(k, username, email, usertype, 0, address, c, None)
      && k != "" && !HasKey(db.TableOf(c), k) && HasKey(r.db.TableOf(c), k)
      && acc.username == username && acc.email == email && acc.password == password
      && acc.usertype == usertype && acc.points == 0 && acc.address == address
      && acc.createdAt == Some(now) && acc.updatedAt == Some(now)
      && (usertype == "user" ==>
            && c == UsersTable
            && |acc.activities| == 1 && acc.activities[0].value == WelcomeRecord(now)
            && forall t :: AchievementOf(r.db, k, t) == Some(ProgressRecord(t, 0, now)))
      && (usertype != "user" ==> acc.activities == [] && acc.achievements == map[])
    ensures r.Registered? ==>
      var c := TableFor(usertype);
      && (forall other :: other != r.user.userID ==> Find(r.db.TableOf(c), other) == Find(db.TableOf(c), other))
      && (forall c' :: c' != c ==> r.db.TableOf(c') == db.TableOf(c'))
      && r.db.products == db.products
  {
    if EmailTaken(db, email) then RegisterFailed(EmailExists)
    else
      var c := TableFor(usertype);
      assert usertype == "user" ==> Lower(usertype) == "user";
      var a := NewAccount(username, email, password, usertype, address, now);
      var e := Enroll(db, c, a, now);
      Registered(e.0, SessionUser(e.1, username, email, usertype, 0, address, c, None))
  }

  // ---------------------------------------------------------------------------
  // Roles and session updates
  // ---------------------------------------------------------------------------

  predicate IsAdmin(s: Session) {
    s.Some? && (s.value.usertype == "admin" || s.value.category == AdminsTable)
  }

  predicate IsUser(s: Session) {
    s.Some? && (s.value.usertype == "user" || s.value.category == UsersTable)
  }

  predicate IsBarangay(s: Session) {
    s.Some? && (s.value.usertype == "barangay" || s.value.category == BarangayTable)
  }

  /** Every signed-in session has the role of its table, and the roles are
      not exclusive: an account of usertype `user` stored under Admins is
      both. */
  lemma RoleOfTable(u: SessionUser)
    ensures u.category == UsersTable ==> IsUser(Some(u))
    ensures u.category == AdminsTable ==> IsAdmin(Some(u))
    ensures u.category == BarangayTable ==> IsBarangay(Some(u))
    ensures u.usertype == "user" && u.category == AdminsTable ==> IsUser(Some(u)) && IsAdmin(Some(u))
    ensures IsAdmin(Some(u)) || IsUser(Some(u)) || IsBarangay(Some(u))
  {
  }

  /** `updateUserPoints(newPoints)`: only the points change; no session, no
      change. */
  function UpdateUserPoints(s: Session, points: int): (s': Session)
    ensures s.None? <==> s'.None?
    ensures s.Some? ==> s'.value.points == points && s'.value.(points := s.value.points) == s.value
  {
    if s.None? then None else Some(s.value.(points := points))
  }

  /** The fields an `updateUserProfile` call carries; absent ones are kept. */
  datatype ProfileChange = ProfileChange(username: Option<string>, address: Option<string>, password: Option<string>)

  function ChangeAccount(a: Account, ch: ProfileChange): Account {
    a.(username := ch.username.GetOr(a.username),
       address := ch.address.GetOr(a.address),
       password := ch.password.GetOr(a.password))
  }

  function ChangeSession(u: SessionUser, ch: ProfileChange): SessionUser {
    u.(username := ch.username.GetOr(u.username),
       address := ch.address.GetOr(u.address),
       password := if ch.password.Some? then ch.password else u.password)
  }

  datatype ProfileUpdated = ProfileUpdated(db: Db, session: SessionUser)

  const UserNotFound := "User not found"

  /** `updateUserProfile(updateData)`: merges the change into the signed-in
      account's node and into the session. */
  function UpdateUserProfile(db: Db, s: Session, ch: ProfileChange): (r: Result<ProfileUpdated>)
    ensures r.Err? <==> s.None? || s.value.userID == ""
    ensures r.Err? ==> r.msg == UserNotFound
    ensures r.Ok? ==>
      var u := s.value;
      && r.value.db.AccountAt(u.category, u.userID) == ChangeAccount(db.AccountAt(u.category, u.userID), ch)
      && (forall other :: other != u.userID ==> Find(r.value.db.TableOf(u.category), other) == Find(db.TableOf(u.category), other))
      && (forall c :: c != u.category ==> r.value.db.TableOf(c) == db.TableOf(c))
      && r.value.db.products == db.products
      && r.value.session == ChangeSession(u, ch)
  {
    if s.None? || s.value.userID == "" then Err(UserNotFound)
    else
      var u := s.value;
      Ok(ProfileUpdated(db.WithAccount(u.category, u.userID, ChangeAccount(db.AccountAt(u.category, u.userID), ch)),
                        ChangeSession(u, ch)))
  }

  /** A profile change touches only the fields it carries. */
  lemma ProfileChangeKeepsRest(db: Db, s: Session, ch: ProfileChange)
    requires UpdateUserProfile(db, s, ch).Ok?
    ensures var u := s.value;
      var before := db.AccountAt(u.category, u.userID);
      var after := UpdateUserProfile(db, s, ch).value.db.AccountAt(u.category, u.userID);
      && after.email == before.email && after.points == before.points && after.usertype == before.usertype
      && after.activities == before.activities && after.achievements == before.achievements
      && (ch.password.None? ==> after.password == before.password)
  {
  }

  /** `refreshUserData()`: reloads points, username, email, address and the
      password from the stored node when it exists. */
  function RefreshUserData(db: Db, s: Session): (s': Session)
    ensures s.None? || s.value.userID == "" || !HasKey(db.TableOf(s.value.category), s.value.userID) ==> s' == s
    ensures s.Some? && s.value.userID != "" && HasKey(db.TableOf(s.value.category), s.value.userID) ==>
      var a := db.AccountAt(s.value.category, s.value.userID);
      s' == Some(s.value.(points := a.points, username := a.username, email := a.email,
                          address := a.address, password := Some(a.password)))
  {
    if s.None? || s.value.userID == "" then s
    else match Find(db.TableOf(s.value.category), s.value.userID)
      case None => s
      case Some(a) =>
        Some(s.value.(points := a.points, username := a.username, email := a.email,
                      address := a.address, password := Some(a.password)))
  }

  /** Sessions created by login or registration carry no password. */
  lemma FreshSessionsHaveNoPassword(db: Db, email: string, password: string, username: string, usertype: string, address: string, now: int)
    ensures var l := Login(db, email, password); l.LoggedIn? ==> l.user.password == None
    ensures var r := Register(db, username, email, password, usertype, address, now); r.Registered? ==> r.user.password == None
  {
  }
}

=== FILE: authentication.dfy ===
/** The sign-in / sign-up page: the form, the checks each submit makes
    before calling the authentication context, and where a successful submit
    navigates. */
module Authentication {
  import opened Wrappers
  import opened Tables
  import opened Store
  import opened Activities
  import opened Achievements
  import opened Auth
  import opened Routing

  datatype AuthForm = AuthForm(
    username: string,
    email: string,
    password: string,
    confirmPassword: string,
    usertype: string,
    address: string
  )

  /** The form as the page opens it and as switching modes resets it. */
  const BlankForm := AuthForm("", "", "", "", "user", "")

  /** The inputs the page renders; none of them is named `usertype`. */
  datatype Field = UsernameField | EmailField | PasswordField | ConfirmField | AddressField

  /** `handleInputChange`: sets the named input's value. */
  function Input(f: AuthForm, field: Field, value: string): AuthForm {
    match field
    case UsernameField => f.(username := value)
    case EmailField => f.(email := value)
    case PasswordField => f.(password := value)
    case ConfirmField => f.(confirmPassword := value)
    case AddressField => f.(address := value)
  }

  datatype PageState = PageState(isLogin: bool, form: AuthForm, error: string)

  const Opened := PageState(true, BlankForm, "")

  datatype Event = Typed(field: Field, value: string) | ToggledMode

  /** Typing clears the error; `toggleMode` flips the mode and resets the
      form and the error. */
  function OnEvent(st: PageState, e: Event): PageState {
    match e
    case Typed(field, value) => st.(form := Input(st.form, field, value), error := "")
    case ToggledMode => PageState(!st.isLogin, BlankForm, "")
  }

  function Replay(events: seq<Event>): PageState
    decreases |events|
  {
    if events == [] then Opened else OnEvent(Replay(events[..|events| - 1]), events[|events| - 1])
  }

  /** Whatever is typed and toggled, the form's user type stays `user`. */
  lemma {:induction false} UsertypeStaysUser(events: seq<Event>)
    ensures Replay(events).form.usertype == "user"
    decreases |events|
  {
    if events != [] {
      UsertypeStaysUser(events[..|events| - 1]);
    }
  }

  /** Switching modes twice returns to the same mode with a blank form. */
  lemma ToggleTwice(st: PageState)
    ensures OnEvent(OnEvent(st, ToggledMode), ToggledMode) == PageState(st.isLogin, BlankForm, "")
  {
  }

  // ---------------------------------------------------------------------------
  // Submitting
  // ---------------------------------------------------------------------------

  /** A submit either stops with a message shown on the form or signs in
      and navigates; only a successful sign-up changes the database. */
  datatype Submitted = Refused(message: string) | SignedIn(db: Db, user: SessionUser, path: string)

  const CredentialsRequired := "Email and password are required"
  const DetailsRequired := "Username, email, and password are required"
  const PasswordsDiffer := "Passwords do not match"
  const PasswordTooShort := "Password must be at least 6 characters long"
  const MinPasswordLength := 6

  /** Where `handleLogin` navigates: admins to their dashboard, then barangay
      officials to theirs, everyone else home. */
  function PostLoginPath(u: SessionUser): (p: string)
    ensures p == AdminDashboardPath <==> IsAdmin(Some(u))
    ensures p == BarangayDashboardPath <==> !IsAdmin(Some(u)) && IsBarangay(Some(u))
    ensures p == HomePath <==> !IsAdmin(Some(u)) && !IsBarangay(Some(u))
  {
    if u.usertype == "admin" || u.category == AdminsTable then AdminDashboardPath
    else if u.usertype == "barangay" || u.category == BarangayTable then BarangayDashboardPath
    else HomePath
  }

  /** Signing in lands where the root route would send the same session. */
  lemma PostLoginIsStartPath(u: SessionUser)
    ensures PostLoginPath(u) == StartPath(Some(u))
  {
  }

  /** `handleLogin`: both fields must be filled before any lookup. */
  function HandleLogin(db: Db, f: AuthForm): (r: Submitted)
    ensures (f.email == "" || f.password == "") ==> r == Refused(CredentialsRequired)
    ensures r.SignedIn? <==> f.email != "" && f.password != "" && Login(db, f.email, f.password).LoggedIn?
    ensures r.SignedIn? ==> r.db == db && r.user == Login(db, f.email, f.password).user
    ensures r.SignedIn? ==> r.path == StartPath(Some(r.user))
  {
    if f.email == "" || f.password == "" then Refused(CredentialsRequired)
    else
      match Login(db, f.email, f.password)
      case LoginFailed(message) => Refused(message)
      case LoggedIn(user) =>
        PostLoginIsStartPath(user);
        SignedIn(db, user, PostLoginPath(user))
  }

  /** The first of the sign-up checks that fails, in the page's order. */
  function RegisterError(f: AuthForm): (e: Option<string>)
    ensures e.None? <==>
      f.username != "" && f.email != "" && f.password != ""
      && f.password == f.confirmPassword && |f.password| >= MinPasswordLength
    ensures e == Some(DetailsRequired) <==> f.username == "" || f.email == "" || f.password == ""
    ensures e == Some(PasswordsDiffer) ==> f.password != f.confirmPassword
    ensures e == Some(PasswordTooShort) ==> f.password == f.confirmPassword && |f.password| < MinPasswordLength
  {
    if f.username == "" || f.email == "" || f.password == "" then Some(DetailsRequired)
    else if f.password != f.confirmPassword then Some(PasswordsDiffer)
    else if |f.password| < MinPasswordLength then Some(PasswordTooShort)
    else None
  }

  /** Where `handleRegister` navigates: admins to their dashboard, every
      other type home, barangay officials included. */
  function PostRegisterPath(u: SessionUser): (p: string)
    ensures p == AdminDashboardPath <==> IsAdmin(Some(u))
    ensures p != AdminDashboardPath ==> p == HomePath
  {
    if u.usertype == "admin" || u.category == AdminsTable then AdminDashboardPath else HomePath
  }

  /** After signing up a barangay official lands at home, not on the
      barangay dashboard the root route would choose. */
  lemma BarangaySignUpLandsHome(u: SessionUser)
    requires u.usertype == "barangay" && u.category == BarangayTable
    ensures PostRegisterPath(u) == HomePath
    ensures StartPath(Some(u)) == BarangayDashboardPath
  {
  }

  /** `handleRegister`: the checks, then `register` with the form's fields. */
  function HandleRegister(db: Db, f: AuthForm, now: int): (r: Submitted)
    ensures RegisterError(f).Some? ==> r == Refused(RegisterError(f).value)
    ensures RegisterError(f).None? ==> (r.Refused? <==> EmailTaken(db, f.email))
    ensures RegisterError(f).None? && r.Refused? ==> r.message == EmailExists
    ensures r.SignedIn? ==> r.path == PostRegisterPath(r.user)
    ensures r.SignedIn? ==>
      && r.user.username == f.username && r.user.email == f.email
      && r.user.usertype == f.usertype && r.user.points == 0
      && r.db.AccountAt(r.user.category, r.user.userID).password == f.password
  {
    match RegisterError(f)
    case Some(message) => Refused(message)
    case None =>
      match Register(db, f.username, f.email, f.password, f.usertype, f.address, now)
      case RegisterFailed(message) => Refused(message)
      case Registered(db', user) => SignedIn(db', user, PostRegisterPath(user))
  }

  /** Every sign-up made through the page creates a regular user in the Users
      table, with the welcome activity, and lands home. */
  lemma SignUpCreatesUser(db: Db, events: seq<Event>, now: int)
    ensures var r := HandleRegister(db, Replay(events).form, now);
      r.SignedIn? ==>
        && r.path == HomePath
        && r.user.category == UsersTable
        && var acc := r.db.AccountAt(UsersTable, r.user.userID);
           |acc.activities| == 1 && acc.activities[0].value == WelcomeRecord(now)
  {
    UsertypeStaysUser(events);
  }
}

=== FILE: barangay_dashboard.dfy ===
/** The barangay dashboard: the admin dashboard's figures over the Users
    table alone, plus the number of active users. */
module BarangayDashboard {
  import opened Wrappers
  import opened Seqs
  import opened Tables
  import opened Store
  import opened Dashboard
  import opened Numbers

  datatype BarangayAnalytics = BarangayAnalytics(
    totalUsers: nat,
    totalPoints: int,
    averagePoints: int,
    topUsers: seq<Entry<Account>>,
    recentUsers: seq<Entry<Account>>,
    distribution: Distribution,
    activeUsers: nat
  )

  /** `analytics`: read from the Users table only. */
  function AnalyticsOf(db: Db): (a: BarangayAnalytics)
    ensures a.totalUsers == |db.users|
    ensures a.activeUsers == Count(db.users, Active) <= a.totalUsers
    ensures a.totalPoints == TotalPoints(db.users) && a.averagePoints == AveragePoints(db.users)
    ensures a.topUsers == TopUsers(db.users) && a.recentUsers == RecentUsers(db.users)
    ensures forall e :: e in a.topUsers ==> e in db.users && Active(e)
    ensures |a.topUsers| <= a.activeUsers
    ensures forall e :: e in a.recentUsers ==> e in db.users
    ensures a.distribution == DistributionOf(db.users)
    ensures a.distribution.upto50 + a.distribution.upto100 + a.distribution.upto200 + a.distribution.over200 == a.totalUsers
  {
    var top := TopUsers(db.users);
    TopUsersFewerThanActive(db.users);
    BarangayAnalytics(|db.users|, TotalPoints(db.users), AveragePoints(db.users), top,
                      RecentUsers(db.users), DistributionOf(db.users), Count(db.users, Active))
  }

  /** The top list holds distinct active users, so it is no longer than
      their count. */
  lemma TopUsersFewerThanActive(users: Table<Account>)
    ensures |TopUsers(users)| <= Count(users, Active)
  {
    CountIsFilterLength(users, Active);
  }

  /** The figures do not depend on the staff tables or the catalogue. */
  lemma OnlyUsersRead(db: Db, other: Db)
    requires other.users == db.users
    ensures AnalyticsOf(other) == AnalyticsOf(db)
  {
  }

  /** The card labelled per active user divides by every user: one user
      with 100 points and one with none average 50, not 100. */
  lemma AverageCountsInactiveUsers()
    ensures var db := Db([Entry("a", EmptyAccount.(points := 100)), Entry("b", EmptyAccount)], [], [], []);
      var a := AnalyticsOf(db);
      a.activeUsers == 1 && a.totalPoints == 100 && a.averagePoints == 50
  {
    var users := [Entry("a", EmptyAccount.(points := 100)), Entry("b", EmptyAccount)];
    var tail := [Entry("b", EmptyAccount)];
    assert users[1..] == tail && tail[1..] == [];
    assert Sum(tail, PointsOf) == 0;
    assert TotalPoints(users) == 100;
    assert Count(users, Active) == 1;
    RoundExact(50, 2);
  }
}

=== FILE: catalogue.dfy ===
/** The product catalogue as the admin page manages it: the product form and
    its input parsing, create/update validation, the active toggle, the
    category list and the admin search. */
module Catalogue {
  import opened Wrappers
  import opened Text
  import opened Seqs
  import opened Tables
  import opened Store

  // ---------------------------------------------------------------------------
  // The product form
  // ---------------------------------------------------------------------------

  datatype ProductForm = ProductForm(
    name: string,
    description: string,
    pointsRequired: int,
    image: string,
    category: string,
    stock: int,
    isActive: bool
  )

  /** The form's initial state, restored after every save and on cancel. */
  const InitialForm := ProductForm("", "", 0, "", "", 0, true)

  /** The form inputs, by their `name` attribute. Only `isActive` is a
      checkbox. */
  datatype Field = NameField | DescriptionField | PointsField | ImageField | CategoryField | StockField | ActiveField

  /** `parseInt(value) || 0`: the parsed integer, with `NaN` read as 0. */
  function ParseOrZero(value: string): (n: int)
    ensures ParseInt(value).None? ==> n == 0
    ensures ParseInt(value).Some? ==> n == ParseInt(value).value
  {
    match ParseInt(value)
    case None => 0
    case Some(v) => v
  }

  /** A number typed in its decimal form is read back as itself. */
  lemma ParseOrZeroRoundTrip(n: int)
    ensures ParseOrZero(IntToString(n)) == n
  {
    ParseIntRoundTrip(n);
  }

  /** A number typed after any leading white space, the no-break space
      included, is still read as that number. */
  lemma ParseOrZeroSkipsSpaces(ws: string, n: int)
    requires forall i :: 0 <= i < |ws| ==> IsSpace(ws[i])
    ensures ParseOrZero(ws + IntToString(n)) == n
  {
    ParseIntSkipsSpaces(ws, IntToString(n));
    ParseIntRoundTrip(n);
  }

  /** `parseInt("\u00A05")` is 5. */
  lemma NoBreakSpaceThenDigit()
    ensures ParseOrZero("\U{00A0}5") == 5
  {
    assert IntToString(5) == "5";
    ParseOrZeroSkipsSpaces("\U{00A0}", 5);
    assert "\U{00A0}" + "5" == "\U{00A0}5";
  }

  /** `handleInputChange`: the checkbox takes its checked state, the two
      numeric fields are parsed, the others take the typed text. Every other
      field is left as it was. */
  function HandleInput(form: ProductForm, field: Field, value: string, checked: bool): (f: ProductForm)
    ensures field == ActiveField ==> f == form.(isActive := checked)
    ensures field == PointsField ==> f == form.(pointsRequired := ParseOrZero(value))
    ensures field == StockField ==> f == form.(stock := ParseOrZero(value))
    ensures field == NameField ==> f == form.(name := value)
    ensures field == DescriptionField ==> f == form.(description := value)
    ensures field == ImageField ==> f == form.(image := value)
    ensures field == CategoryField ==> f == form.(category := value)
  {
    match field
    case ActiveField => form.(isActive := checked)
    case PointsField => form.(pointsRequired := ParseOrZero(value))
    case StockField => form.(stock := ParseOrZero(value))
    case NameField => form.(name := value)
    case DescriptionField => form.(description := value)
    case ImageField => form.(image := value)
    case CategoryField => form.(category := value)
  }

  /** Typing a number into a numeric field stores that number. */
  lemma TypedNumberIsStored(form: ProductForm, n: int)
    ensures HandleInput(form, PointsField, IntToString(n), false).pointsRequired == n
    ensures HandleInput(form, StockField, IntToString(n), false).stock == n
  {
    ParseOrZeroRoundTrip(n);
  }

  // ---------------------------------------------------------------------------
  // Create, update, delete
  // ---------------------------------------------------------------------------

  const MandatoryFields := "Product name, description, and points required are mandatory!"

  /** The check both save handlers make before writing. */
  predicate ValidForm(form: ProductForm) {
    form.name != "" && form.description != "" && form.pointsRequired != 0
  }

  /** A saved form: the new database, the product's key, and the reset form. */
  datatype Saved = Saved(db: Db, key: string, form: ProductForm)

  /** The product a save writes from the form. */
  function FromForm(form: ProductForm, createdAt: Option<int>, now: int): (p: Product)
    ensures p.name == form.name && p.description == form.description
    ensures p.pointsRequired == form.pointsRequired && p.stock == form.stock
    ensures p.image == form.image && p.category == form.category
    ensures p.isActive == Some(form.isActive)
    ensures p.createdAt == createdAt && p.updatedAt == Some(now)
  {
    Product(form.name, form.description, form.pointsRequired, form.image, form.category,
            form.stock, Some(form.isActive), createdAt, Some(now))
  }

  /** `handleCreate`: pushes the form as a new product, stamped `now`. */
  function Create(db: Db, form: ProductForm, now: int): (r: Result<Saved>)
    ensures r.Err? <==> !ValidForm(form)
    ensures r.Err? ==> r.msg == MandatoryFields
    ensures r.Ok? ==>
      && r.value.db == db.(products := db.products + [Entry(r.value.key, FromForm(form, Some(now), now))])
      && !HasKey(db.products, r.value.key)
      && r.value.form == InitialForm
  {
    if !ValidForm(form) then Err(MandatoryFields)
    else
      var pushed := Push(db.products, FromForm(form, Some(now), now));
      Ok(Saved(db.(products := pushed.0), pushed.1, InitialForm))
  }

  /** The product node an `update` merges into (an absent one is created). */
  function ProductAt(db: Db, id: string): Option<Product> {
    Find(db.products, id)
  }

  /** `handleUpdate`: merges the form into `Products/<id>` with a new
      `updatedAt`; `createdAt` is whatever the node had. */
  function Update(db: Db, id: string, form: ProductForm, now: int): (r: Result<Saved>)
    ensures r.Err? <==> !ValidForm(form)
    ensures r.Err? ==> r.msg == MandatoryFields
    ensures r.Ok? ==>
      var createdAt := if ProductAt(db, id).Some? then ProductAt(db, id).value.createdAt else None;
      && ProductAt(r.value.db, id) == Some(FromForm(form, createdAt, now))
      && (forall other :: other != id ==> ProductAt(r.value.db, other) == ProductAt(db, other))
      && r.value.db.users == db.users && r.value.db.admins == db.admins && r.value.db.barangay == db.barangay
      && r.value.key == id && r.value.form == InitialForm
  {
    if !ValidForm(form) then Err(MandatoryFields)
    else
      var createdAt := if ProductAt(db, id).Some? then ProductAt(db, id).value.createdAt else None;
      Ok(Saved(db.(products := Set(db.products, id, FromForm(form, createdAt, now))), id, InitialForm))
  }

  /** Zero is the one price both save handlers refuse; a negative price
      passes. */
  lemma OnlyZeroPriceRefused(db: Db, id: string, form: ProductForm, now: int)
    requires form.name != "" && form.description != ""
    ensures Create(db, form, now).Err? <==> form.pointsRequired == 0
    ensures Update(db, id, form, now).Err? <==> form.pointsRequired == 0
  {
  }

  /** `handleDelete`: removes `Products/<id>` once the user confirmed. */
  function Delete(db: Db, id: string, confirmed: bool): (d: Db)
    ensures !confirmed ==> d == db
    ensures confirmed ==> ProductAt(d, id).None?
    ensures forall other :: other != id ==> ProductAt(d, other) == ProductAt(db, other)
    ensures d.users == db.users && d.admins == db.admins && d.barangay == db.barangay
  {
    if confirmed then db.(products := Remove(db.products, id)) else db
  }

  /** `handleEdit`: fills the form from a product; a product written without
      the flag counts as active. */
  function Edit(p: Product): (f: ProductForm)
    ensures f.isActive <==> p.isActive != Some(false)
    ensures f.name == p.name && f.description == p.description && f.pointsRequired == p.pointsRequired
    ensures f.image == p.image && f.category == p.category && f.stock == p.stock
  {
    ProductForm(p.name, p.description, p.pointsRequired, p.image, p.category, p.stock,
                if p.isActive.Some? then p.isActive.value else true)
  }

  /** Editing a valid product and saving without changes writes it back as
      it was, apart from `updatedAt` and a missing active flag now stored as
      `true`. */
  lemma EditSaveRoundTrip(db: Db, id: string, now: int)
    requires ProductAt(db, id).Some?
    requires ValidForm(Edit(ProductAt(db, id).value))
    ensures var p := ProductAt(db, id).value;
      var r := Update(db, id, Edit(p), now);
      r.Ok? && ProductAt(r.value.db, id) ==
        Some(p.(updatedAt := Some(now), isActive := Some(p.isActive != Some(false))))
  {
  }

  // ---------------------------------------------------------------------------
  // The active toggle
  // ---------------------------------------------------------------------------

  /** `handleToggleActive(id, product.isActive)`: stores the negation of the
      flag as the page shows it (a missing flag reads as false) and refreshes
      `updatedAt`; every other field is kept. */
  function ToggleActive(db: Db, id: string, current: Option<bool>, now: int): (d: Db)
    ensures var before := ProductAt(db, id);
      && ProductAt(d, id).Some?
      && ProductAt(d, id).value.isActive == Some(current != Some(true))
      && ProductAt(d, id).value.updatedAt == Some(now)
      && (before.Some? ==> ProductAt(d, id).value == before.value.(isActive := Some(current != Some(true)), updatedAt := Some(now)))
    ensures forall other :: other != id ==> ProductAt(d, other) == ProductAt(db, other)
    ensures d.users == db.users && d.admins == db.admins && d.barangay == db.barangay
  {
    var base := ProductAt(db, id).GetOr(Product("", "", 0, "", "", 0, None, None, None));
    db.(products := Set(db.products, id, base.(isActive := Some(current != Some(true)), updatedAt := Some(now))))
  }

  /** Toggling twice, each time passing the flag as stored, restores a stored
      flag. */
  lemma ToggleTwiceRestores(db: Db, id: string, now1: int, now2: int)
    requires ProductAt(db, id).Some? && ProductAt(db, id).value.isActive.Some?
    ensures var p := ProductAt(db, id).value;
      var d1 := ToggleActive(db, id, p.isActive, now1);
      var d2 := ToggleActive(d1, id, ProductAt(d1, id).value.isActive, now2);
      ProductAt(d2, id) == Some(p.(updatedAt := Some(now2)))
  {
    var p := ProductAt(db, id).value;
    var d1 := ToggleActive(db, id, p.isActive, now1);
    var p1 := ProductAt(d1, id).value;
    assert p1 == p.(isActive := Some(p.isActive != Some(true)), updatedAt := Some(now1));
    var b := p.isActive.value;
    assert p1.isActive == Some(!b);
    var d2 := ToggleActive(d1, id, p1.isActive, now2);
    assert ProductAt(d2, id).value == p1.(isActive := Some(p1.isActive != Some(true)), updatedAt := Some(now2));
  }

  // ---------------------------------------------------------------------------
  // Categories and search
  // ---------------------------------------------------------------------------

  function CategoryOf(e: Entry<Product>): string {
    e.value.category
  }

  predicate NonEmpty(s: string) {
    s != ""
  }

  /** The category of every product, in table order. */
  function CategoryList(ps: Table<Product>): (all: seq<string>)
    ensures |all| == |ps|
    ensures forall i :: 0 <= i < |ps| ==> all[i] == ps[i].value.category
  {
    seq(|ps|, i requires 0 <= i < |ps| => CategoryOf(ps[i]))
  }

  lemma CategoryListMembers(ps: Table<Product>)
    ensures forall c :: c in CategoryList(ps) <==> exists i :: 0 <= i < |ps| && ps[i].value.category == c
  {
    var all := CategoryList(ps);
    forall c | exists i :: 0 <= i < |ps| && ps[i].value.category == c
      ensures c in all
    {
      var i :| 0 <= i < |ps| && ps[i].value.category == c;
      assert all[i] == c;
    }
  }

  /** The distinct non-empty categories, in order of first appearance: of
      two listed categories, the earlier one's first product comes first. */
  function DistinctCategories(ps: Table<Product>): (cs: seq<string>)
    ensures forall c :: c in cs <==> c != "" && exists i :: 0 <= i < |ps| && ps[i].value.category == c
    ensures forall c :: c in cs ==> c in CategoryList(ps)
    ensures forall i, j :: 0 <= i < j < |cs| ==> cs[i] != cs[j]
    ensures InFirstOrder(CategoryList(ps), cs)
  {
    var all := CategoryList(ps);
    var cs := Distinct(Filter(all, NonEmpty));
    CategoryListMembers(ps);
    DistinctFilterFirstOrder(all, NonEmpty);
    cs
  }

  /** The category choices: `all`, then every category in use, in order of
      first appearance. */
  function Categories(ps: Table<Product>): (cs: seq<string>)
    ensures |cs| >= 1 && cs[0] == "all"
    ensures forall c :: c in cs[1..] <==> c != "" && exists i :: 0 <= i < |ps| && ps[i].value.category == c
    ensures forall c :: c in cs[1..] ==> c in CategoryList(ps)
    ensures forall i, j :: 1 <= i < j < |cs| ==> cs[i] != cs[j]
    ensures InFirstOrder(CategoryList(ps), cs[1..])
  {
    var d := DistinctCategories(ps);
    assert ([ "all" ] + d)[1..] == d;
    ["all"] + d
  }

  /** The list has no repeated entry unless some product's category is
      literally `all`. */
  lemma CategoriesDistinctIff(ps: Table<Product>)
    ensures (forall i, j :: 0 <= i < j < |Categories(ps)| ==> Categories(ps)[i] != Categories(ps)[j])
            <==> forall i :: 0 <= i < |ps| ==> ps[i].value.category != "all"
  {
    var cs := Categories(ps);
    if exists i :: 0 <= i < |ps| && ps[i].value.category == "all" {
      var i :| 0 <= i < |ps| && ps[i].value.category == "all";
      assert "all" in cs[1..];
      var j :| 0 <= j < |cs[1..]| && cs[1..][j] == "all";
      assert cs[0] == cs[j + 1];
    } else {
      assert "all" !in cs[1..];
      forall i, j | 0 <= i < j < |cs|
        ensures cs[i] != cs[j]
      {
        if i == 0 {
          assert cs[j] == cs[1..][j - 1];
        }
      }
    }
  }

  /** The admin page's product filter. */
  predicate AdminMatches(p: Product, term: string, category: string) {
    && (term == "" || FieldMatches(p.name, term) || FieldMatches(p.description, term) || FieldMatches(p.category, term))
    && (category == "all" || p.category == category)
  }

  /** `filteredProducts` of the admin page. */
  function AdminFilter(ps: Table<Product>, term: string, category: string): (r: Table<Product>)
    ensures forall e :: e in r <==> e in ps && AdminMatches(e.value, term, category)
    ensures Subseq(r, ps) && multiset(r) <= multiset(ps)
    ensures forall e: Entry<Product> :: AdminMatches(e.value, term, category) ==> multiset(r)[e] == multiset(ps)[e]
  {
    var p := (e: Entry<Product>) => AdminMatches(e.value, term, category);
    FilterKeepsOrder(ps, p);
    FilterMultiset(ps, p);
    Filter(ps, p)
  }

  /** No search term and the `all` category list every product. */
  lemma AdminFilterNoCriteria(ps: Table<Product>)
    ensures AdminFilter(ps, "", "all") == ps
  {
    FilterAll(ps, (e: Entry<Product>) => AdminMatches(e.value, "", "all"));
  }
}

=== FILE: dashboard.dfy ===
/** The analytics of the admin dashboard, whose figures the barangay
    dashboard repeats over the Users table alone. */
module Dashboard {
  import opened Wrappers
  import opened Seqs
  import opened Tables
  import opened Store
  import opened Numbers

  function PointsOf(e: Entry<Account>): int { e.value.points }

  /** The sum of the balances, `reduce` with `|| 0`. */
  function TotalPoints(users: Table<Account>): int {
    Sum(users, PointsOf)
  }

  /** `averagePoints`: 0 for no users, else the total over the number of
      users, rounded. */
  function AveragePoints(users: Table<Account>): (a: int)
    ensures |users| == 0 ==> a == 0
    ensures |users| > 0 ==> 2 * |users| * a <= 2 * TotalPoints(users) + |users| < 2 * |users| * (a + 1)
  {
    if |users| == 0 then 0 else Round(TotalPoints(users), |users|)
  }

  /** The average lies between the smallest and the largest balance. */
  lemma AverageWithinRange(users: Table<Account>, lo: int, hi: int)
    requires |users| > 0
    requires forall i :: 0 <= i < |users| ==> lo <= users[i].value.points <= hi
    ensures lo <= AveragePoints(users) <= hi
  {
    var loF := (e: Entry<Account>) => lo;
    var hiF := (e: Entry<Account>) => hi;
    SumMonotone(users, loF, PointsOf);
    SumMonotone(users, PointsOf, hiF);
    SumConst(users, loF, lo);
    SumConst(users, hiF, hi);
    RoundWithin(TotalPoints(users), |users|, lo, hi);
  }

  predicate Active(e: Entry<Account>) { e.value.points > 0 }

  const TopCount: nat := 5

  /** `topUsers`: the users with a positive balance, largest first, at
      most five. */
  function TopUsers(users: Table<Account>): (r: seq<Entry<Account>>)
    ensures |r| == if Count(users, Active) < TopCount then Count(users, Active) else TopCount
    ensures forall e :: e in r ==> e in users && Active(e)
    ensures multiset(r) <= multiset(Filter(users, Active))
    ensures forall i, j :: 0 <= i < j < |r| ==> r[i].value.points >= r[j].value.points
  {
    CountIsFilterLength(users, Active);
    TopK(Filter(users, Active), PointsOf, TopCount)
  }

  /** No active user left out of the list has more points than one in it. */
  lemma TopUsersAreTop(users: Table<Account>)
    ensures var r := TopUsers(users);
      forall e, i :: e in users && Active(e) && e !in r && 0 <= i < |r| ==> r[i].value.points >= e.value.points
  {
    var r := TopUsers(users);
    TopKIsTop(Filter(users, Active), PointsOf, TopCount);
    forall e, i | e in users && Active(e) && e !in r && 0 <= i < |r|
      ensures r[i].value.points >= e.value.points
    {
      assert PointsOf(r[i]) >= PointsOf(e);
    }
  }

  predicate HasCreatedAt(e: Entry<Account>) { e.value.createdAt.Some? }

  function CreatedOf(e: Entry<Account>): int { e.value.createdAt.GetOr(0) }

  /** `recentUsers`: the accounts with a creation time, newest first, at
      most five. */
  function RecentUsers(all: Table<Account>): (r: seq<Entry<Account>>)
    ensures |r| == if Count(all, HasCreatedAt) < TopCount then Count(all, HasCreatedAt) else TopCount
    ensures forall e :: e in r ==> e in all && HasCreatedAt(e)
    ensures multiset(r) <= multiset(Filter(all, HasCreatedAt))
    ensures forall i, j :: 0 <= i < j < |r| ==> CreatedOf(r[i]) >= CreatedOf(r[j])
  {
    CountIsFilterLength(all, HasCreatedAt);
    TopK(Filter(all, HasCreatedAt), CreatedOf, TopCount)
  }

  /** No dated account left out of the list was created later than one in
      it. */
  lemma RecentUsersAreNewest(all: Table<Account>)
    ensures var r := RecentUsers(all);
      forall e, i :: e in all && HasCreatedAt(e) && e !in r && 0 <= i < |r| ==> CreatedOf(r[i]) >= CreatedOf(e)
  {
    var r := RecentUsers(all);
    var dated := Filter(all, HasCreatedAt);
    TopKIsTop(dated, CreatedOf, TopCount);
    forall e, i | e in all && HasCreatedAt(e) && e !in r && 0 <= i < |r|
      ensures CreatedOf(r[i]) >= CreatedOf(e)
    {
      assert e in dated;
    }
  }

  // ---------------------------------------------------------------------------
  // The points distribution
  // ---------------------------------------------------------------------------

  predicate Upto50(e: Entry<Account>) { e.value.points <= 50 }
  predicate From51To100(e: Entry<Account>) { 50 < e.value.points <= 100 }
  predicate From101To200(e: Entry<Account>) { 100 < e.value.points <= 200 }
  predicate Over200(e: Entry<Account>) { e.value.points > 200 }

  datatype Distribution = Distribution(upto50: nat, upto100: nat, upto200: nat, over200: nat)

  /** `pointsDistribution`: four buckets that partition the users; a
      negative balance falls in the first. */
  function DistributionOf(users: Table<Account>): (d: Distribution)
    ensures d.upto50 + d.upto100 + d.upto200 + d.over200 == |users|
    ensures d.upto50 == Count(users, Upto50) && d.over200 == Count(users, Over200)
    ensures d.upto100 == Count(users, From51To100) && d.upto200 == Count(users, From101To200)
  {
    BucketsPartition(users);
    Distribution(Count(users, Upto50), Count(users, From51To100), Count(users, From101To200), Count(users, Over200))
  }

  lemma BucketsPartition(users: Table<Account>)
    ensures Count(users, Upto50) + Count(users, From51To100) + Count(users, From101To200) + Count(users, Over200) == |users|
  {
    var upto100 := (e: Entry<Account>) => e.value.points <= 100;
    var upto200 := (e: Entry<Account>) => e.value.points <= 200;
    var any := (e: Entry<Account>) => true;
    CountSplit(users, Upto50, From51To100, upto100);
    CountSplit(users, upto100, From101To200, upto200);
    CountSplit(users, upto200, Over200, any);
  }

  // ---------------------------------------------------------------------------
  // The admin dashboard
  // ---------------------------------------------------------------------------

  datatype Analytics = Analytics(
    totalUsers: nat,
    totalPoints: int,
    averagePoints: int,
    topUsers: seq<Entry<Account>>,
    recentUsers: seq<Entry<Account>>,
    distribution: Distribution
  )

  /** `analytics` of the admin dashboard: every table counts as a user,
      only the Users table counts for points, the average and the buckets;
      recent accounts come from all three tables. */
  function AdminAnalytics(db: Db): (a: Analytics)
    ensures a.totalUsers == |db.users| + |db.admins| + |db.barangay|
    ensures a.totalPoints == TotalPoints(db.users)
    ensures a.averagePoints == AveragePoints(db.users)
    ensures a.topUsers == TopUsers(db.users)
    ensures a.recentUsers == RecentUsers(db.users + db.admins + db.barangay)
    ensures forall e :: e in a.recentUsers ==> e in db.users + db.admins + db.barangay
    ensures a.distribution == DistributionOf(db.users)
    ensures a.distribution.upto50 + a.distribution.upto100 + a.distribution.upto200 + a.distribution.over200 == |db.users|
  {
    Analytics(|db.users| + |db.admins| + |db.barangay|, TotalPoints(db.users), AveragePoints(db.users),
              TopUsers(db.users), RecentUsers(db.users + db.admins + db.barangay), DistributionOf(db.users))
  }

  /** Staff accounts count as users but never move the points figures. */
  lemma StaffDoNotCountForPoints(db: Db, admins: Table<Account>, barangay: Table<Account>)
    ensures var a1 := AdminAnalytics(db);
      var a2 := AdminAnalytics(db.(admins := admins, barangay := barangay));
      && a1.totalPoints == a2.totalPoints && a1.averagePoints == a2.averagePoints
      && a1.topUsers == a2.topUsers && a1.distribution == a2.distribution
      && a2.totalUsers == a1.totalUsers - |db.admins| - |db.barangay| + |admins| + |barangay|
  {
  }
}

=== FILE: home.dfy ===
/** The home page: the newest activities, the three statistics cards, and
    how one activity is shown. */
module Home {
  import opened Wrappers
  import opened Text
  import opened Seqs
  import opened Tables
  import opened Store
  import opened Activities
  import opened Numbers

  // ---------------------------------------------------------------------------
  // The activity lists
  // ---------------------------------------------------------------------------

  const RecentCount: nat := 5

  /** `recentActivities`: the log sorted newest first, cut to five; the
      same listing `getUserActivities` makes with a limit of five. */
  function RecentActivities(db: Db, userID: string): (r: seq<Entry<Activity>>)
    ensures userID == "" ==> r == []
    ensures userID != "" ==> |r| == if |LogOf(db, userID)| < RecentCount then |LogOf(db, userID)| else RecentCount
    ensures forall i, j :: 0 <= i < j < |r| ==> r[i].value.timestamp >= r[j].value.timestamp
    ensures forall e :: e in r ==> e in LogOf(db, userID)
    ensures multiset(r) <= multiset(LogOf(db, userID))
  {
    var r := UserActivities(db, userID, RecentCount);
    r
  }

  /** No record of the log is newer than one of the five shown. */
  lemma RecentAreNewest(db: Db, userID: string)
    requires userID != ""
    ensures var r := RecentActivities(db, userID);
      forall e, i :: e in LogOf(db, userID) && e !in r && 0 <= i < |r| ==>
        r[i].value.timestamp >= e.value.timestamp
  {
    UserActivitiesAreNewest(db, userID, RecentCount);
  }

  // ---------------------------------------------------------------------------
  // The statistics cards
  // ---------------------------------------------------------------------------

  predicate IsRecyclingRecord(e: Entry<Activity>) { e.value.kind == Recycling }
  predicate IsRedemptionRecord(e: Entry<Activity>) { e.value.kind == Redemption }

  datatype HomeStats = HomeStats(points: int, recycled: nat, rewards: nat, impactScore: int)

  const MaxImpact := 100

  /** `impactScore`: 0 without activities, else the rounded sum of a
      hundredth of the balance and five per activity, capped at 100. */
  function ImpactScore(points: int, activityCount: nat): (s: int)
    ensures activityCount == 0 ==> s == 0
    ensures s <= MaxImpact
    ensures activityCount > 0 && s < MaxImpact ==>
      200 * s <= 2 * (points + 500 * activityCount) + 100 < 200 * (s + 1)
    ensures activityCount > 0 && s == MaxImpact ==>
      2 * (points + 500 * activityCount) + 100 >= 200 * MaxImpact
  {
    if activityCount > 0 then
      var r := Round(points + 500 * activityCount, 100);
      if r < MaxImpact then r else MaxImpact
    else 0
  }

  /** The contract above determines the score: any value meeting it is the
      capped, rounded one. */
  lemma ImpactScoreUnique(points: int, activityCount: nat, t: int)
    requires activityCount > 0 && t <= MaxImpact
    requires t < MaxImpact ==> 200 * t <= 2 * (points + 500 * activityCount) + 100 < 200 * (t + 1)
    requires t == MaxImpact ==> 2 * (points + 500 * activityCount) + 100 >= 200 * MaxImpact
    ensures t == ImpactScore(points, activityCount)
  {
  }

  /** More points never lower the score, and a non-negative balance with
      at least one activity scores at least 5. */
  lemma ImpactMonotone(p1: int, p2: int, n: nat)
    requires p1 <= p2
    ensures ImpactScore(p1, n) <= ImpactScore(p2, n)
    ensures n > 0 && p1 >= 0 ==> ImpactScore(p1, n) >= 5
  {
    if n > 0 {
      RoundMonotone(p1 + 500 * n, p2 + 500 * n, 100);
      if p1 >= 0 {
        RoundMonotone(500, p1 + 500 * n, 100);
        RoundExact(5, 100);
      }
    }
  }

  /** `calculatedStats` over the whole log, with the session's balance. */
  function StatsOf(points: int, log: Table<Activity>): (s: HomeStats)
    ensures s.recycled == |Filter(log, IsRecyclingRecord)|
    ensures s.rewards == |Filter(log, IsRedemptionRecord)|
    ensures s.recycled + s.rewards <= |log|
    ensures s.impactScore == ImpactScore(points, |log|)
    ensures s.points == points
  {
    CountedKindsDisjoint(log);
    HomeStats(points, Count(log, IsRecyclingRecord), Count(log, IsRedemptionRecord), ImpactScore(points, |log|))
  }

  /** Recycling and redemption records are told apart by type, so the two
      counts never overlap. */
  lemma {:induction false} CountedKindsDisjoint(log: Table<Activity>)
    ensures Count(log, IsRecyclingRecord) == |Filter(log, IsRecyclingRecord)|
    ensures Count(log, IsRedemptionRecord) == |Filter(log, IsRedemptionRecord)|
    ensures Count(log, IsRecyclingRecord) + Count(log, IsRedemptionRecord) <= |log|
    decreases |log|
  {
    if log != [] {
      CountedKindsDisjoint(log[1..]);
    }
  }

  // ---------------------------------------------------------------------------
  // formatTimeAgo
  // ---------------------------------------------------------------------------

  const MinuteMs := 60000

  datatype Ago = JustNow | MinutesAgo(minutes: int) | HoursAgo(hours: int) | DaysAgo(days: int) | OnDate(timestamp: int)

  /** `formatTimeAgo(timestamp)` at time `now`, by elapsed whole minutes. */
  function TimeAgo(timestamp: int, now: int): (a: Ago)
    ensures a == JustNow <==> now - timestamp < MinuteMs
    ensures a.MinutesAgo? <==> MinuteMs <= now - timestamp < 60 * MinuteMs
    ensures a.HoursAgo? <==> 60 * MinuteMs <= now - timestamp < 24 * 60 * MinuteMs
    ensures a.DaysAgo? <==> 24 * 60 * MinuteMs <= now - timestamp < 7 * 24 * 60 * MinuteMs
    ensures a.OnDate? ==> a.timestamp == timestamp
    ensures a.MinutesAgo? ==> a.minutes == (now - timestamp) / MinuteMs
    ensures a.HoursAgo? ==> a.hours == (now - timestamp) / (60 * MinuteMs)
    ensures a.DaysAgo? ==> a.days == (now - timestamp) / (24 * 60 * MinuteMs)
  {
    var minutes := FloorDiv(now - timestamp, MinuteMs);
    var hours := FloorDiv(minutes, 60);
    var days := FloorDiv(hours, 24);
    DivDiv(now - timestamp, MinuteMs, 60);
    DivDiv(now - timestamp, MinuteMs * 60, 24);
    if minutes < 1 then JustNow
    else if minutes < 60 then MinutesAgo(minutes)
    else if hours < 24 then HoursAgo(hours)
    else if days < 7 then DaysAgo(days)
    else OnDate(timestamp)
  }

  /** The text shown; a date beyond a week is left to the platform. */
  function AgoText(a: Ago, dateLabel: int -> string): string {
    match a
    case JustNow => "Just now"
    case MinutesAgo(m) => IntToString(m) + " minutes ago"
    case HoursAgo(h) => IntToString(h) + " hours ago"
    case DaysAgo(d) => IntToString(d) + " days ago"
    case OnDate(t) => dateLabel(t)
  }

  // ---------------------------------------------------------------------------
  // One activity row
  // ---------------------------------------------------------------------------

  datatype Style = Style(color: string, prefix: string)

  /** `ACTIVITY_TYPES[type] || ACTIVITY_TYPES.recycling` */
  function StyleOf(kind: string): (s: Style)
    ensures kind !in [Recycling, Redemption, Learning, Bonus] ==> s == Style("secondary", "+")
    ensures s.prefix == if kind == Redemption then "-" else "+"
  {
    if kind == Redemption then Style("accent", "-")
    else if kind == Learning then Style("accent", "+")
    else if kind == Bonus then Style("primary", "+")
    else Style("secondary", "+")
  }

  /** The points badge: none for 0 points; otherwise the type's prefix,
      whatever the sign, and the magnitude. */
  function Badge(a: Activity): (b: Option<string>)
    ensures b.None? <==> a.pointsEarned == 0
    ensures b.Some? ==> b.value == StyleOf(a.kind).prefix + IntToString(Abs(a.pointsEarned)) + " points"
  {
    if a.pointsEarned == 0 then None
    else Some(StyleOf(a.kind).prefix + IntToString(Abs(a.pointsEarned)) + " points")
  }

  /** Only redemption rows open the receipt. */
  predicate Clickable(a: Activity) {
    a.kind == Redemption
  }
}

=== FILE: landing.dfy ===
/** The public landing page's community figures: three listeners (Users,
    Admins, Barangay) report their tables, the totals are computed from the
    tables received, and the impact cards derive kilograms and trees from the
    total balance. */
module Landing {
  import opened Seqs
  import opened Tables
  import opened Store
  import opened Numbers
  import Dashboard

  datatype Stats = Stats(totalUsers: nat, totalPoints: int, totalActivities: int, loading: bool)

  /** The figures before anything is computed. */
  const InitialStats := Stats(0, 0, 0, true)

  /** The estimated number of activities behind a balance: one per 20 points,
      rounded down (`Math.floor((points || 0) / 20)`). */
  function ActivitiesOf(e: Entry<Account>): int {
    FloorDiv(e.value.points, 20)
  }

  /** The figures of the tables received: every account of the three tables,
      the Users balances only, and the activity estimate over Users. */
  function StatsOf(data: Db): (s: Stats)
    ensures s.totalUsers == |data.users| + |data.admins| + |data.barangay|
    ensures s.totalPoints == Dashboard.TotalPoints(data.users)
    ensures s.totalActivities == Sum(data.users, ActivitiesOf)
    ensures 20 * s.totalActivities <= s.totalPoints <= 20 * s.totalActivities + 19 * |data.users|
    ensures !s.loading
  {
    ActivitiesEstimate(data.users);
    Stats(|data.users| + |data.admins| + |data.barangay|,
          Dashboard.TotalPoints(data.users),
          Sum(data.users, ActivitiesOf),
          false)
  }

  /** The activity estimate is the total balance in twenties, less at most
      19 leftover points per user. */
  lemma {:induction false} ActivitiesEstimate(users: Table<Account>)
    ensures var a := Sum(users, ActivitiesOf);
      20 * a <= Dashboard.TotalPoints(users) <= 20 * a + 19 * |users|
    decreases |users|
  {
    if users != [] {
      ActivitiesEstimate(users[1..]);
      var q := ActivitiesOf(users[0]);
      assert 20 * q <= users[0].value.points < 20 * (q + 1);
      assert Sum(users, ActivitiesOf) == q + Sum(users[1..], ActivitiesOf);
      assert Dashboard.TotalPoints(users) == users[0].value.points + Dashboard.TotalPoints(users[1..]);
    }
  }

  // ---------------------------------------------------------------------------
  // The listener callbacks
  // ---------------------------------------------------------------------------

  /** One listener callback: a snapshot of a table (an absent node reads as
      the empty table) or an error, which leaves the data as it was. */
  datatype Callback = Snapshot(c: Category, rows: Table<Account>) | Failed(c: Category)

  /** The tables as they stand after a callback. */
  function Received(data: Db, cb: Callback): (d: Db)
    ensures cb.Snapshot? ==> d.TableOf(cb.c) == cb.rows
    ensures forall c :: c != cb.c || cb.Failed? ==> d.TableOf(c) == data.TableOf(c)
  {
    match cb
    case Snapshot(c, rows) => data.WithTable(c, rows)
    case Failed(_) => data
  }

  const NoData := Db([], [], [], [])

  /** The page as written: a counter of callbacks, successful or not, and the
      figures computed when it reaches exactly 3. */
  datatype Counter = Counter(data: Db, ready: nat, stats: Stats)

  const CounterStart := Counter(NoData, 0, InitialStats)

  function CounterStep(l: Counter, cb: Callback): Counter {
    var data := Received(l.data, cb);
    var ready := l.ready + 1;
    Counter(data, ready, if ready == 3 then StatsOf(data) else l.stats)
  }

  /** The callbacks in the order they arrive: every callback counts, and
      the figures stay at their initial value until the third. */
  function RunCounter(cbs: seq<Callback>): (l: Counter)
    ensures l.ready == |cbs|
    ensures |cbs| < 3 ==> l.stats == InitialStats
    decreases |cbs|
  {
    if cbs == [] then CounterStart else CounterStep(RunCounter(cbs[..|cbs| - 1]), cbs[|cbs| - 1])
  }

  /** As written the figures appear at the third callback, whichever
      listeners sent the three, and never change afterwards. */
  lemma {:induction false} CounterFreezesAtThird(cbs: seq<Callback>)
    ensures RunCounter(cbs).ready == |cbs|
    ensures |cbs| < 3 ==> RunCounter(cbs).stats == InitialStats
    ensures |cbs| >= 3 ==> RunCounter(cbs).stats == StatsOf(RunCounter(cbs[..3]).data)
    decreases |cbs|
  {
    if cbs != [] {
      var init := cbs[..|cbs| - 1];
      CounterFreezesAtThird(init);
      if |cbs| > 3 {
        assert init[..3] == cbs[..3];
      } else if |cbs| == 3 {
        assert cbs[..3] == cbs;
      }
    }
  }

  /** A Users update that arrives before the Barangay table does uses up the
      count: the figures leave the Barangay accounts out for good. */
  lemma CounterMissesBarangay()
    ensures var u := [Entry("u1", EmptyAccount)];
      var b := [Entry("b1", EmptyAccount)];
      var cbs := [Snapshot(UsersTable, u), Snapshot(UsersTable, u), Snapshot(AdminsTable, []),
                  Snapshot(BarangayTable, b)];
      && RunCounter(cbs).data.barangay == b
      && RunCounter(cbs).stats.totalUsers == 1
      && StatsOf(RunCounter(cbs).data).totalUsers == 2
  {
    var u := [Entry("u1", EmptyAccount)];
    var b := [Entry("b1", EmptyAccount)];
    var cbs := [Snapshot(UsersTable, u), Snapshot(UsersTable, u), Snapshot(AdminsTable, []),
                Snapshot(BarangayTable, b)];
    var s1 := CounterStep(CounterStart, cbs[0]);
    var s2 := CounterStep(s1, cbs[1]);
    var s3 := CounterStep(s2, cbs[2]);
    var s4 := CounterStep(s3, cbs[3]);
    assert cbs[..1][..0] == [];
    assert RunCounter(cbs[..1]) == s1;
    assert cbs[..2][..1] == cbs[..1];
    assert RunCounter(cbs[..2]) == s2;
    assert cbs[..3][..2] == cbs[..2];
    assert RunCounter(cbs[..3]) == s3;
    assert cbs[..3] == cbs[..|cbs| - 1];
    assert RunCounter(cbs) == s4;
    assert s3.stats.totalUsers == 1;
  }

  // ---------------------------------------------------------------------------
  // The corrected loader
  // ---------------------------------------------------------------------------

  const AllListeners: set<Category> := {UsersTable, AdminsTable, BarangayTable}

  /** The loader as intended: it remembers which listeners have reported and
      computes the figures once all three have, from the tables as they
      stand. */
  datatype Loader = Loader(data: Db, reported: set<Category>, stats: Stats)

  const LoaderStart := Loader(NoData, {}, InitialStats)

  function LoaderStep(l: Loader, cb: Callback): Loader {
    var data := Received(l.data, cb);
    var reported := l.reported + {cb.c};
    Loader(data, reported, if reported == AllListeners then StatsOf(data) else l.stats)
  }

  function RunLoader(cbs: seq<Callback>): Loader
    decreases |cbs|
  {
    if cbs == [] then LoaderStart else LoaderStep(RunLoader(cbs[..|cbs| - 1]), cbs[|cbs| - 1])
  }

  /** The listeners that sent at least one callback. */
  function Senders(cbs: seq<Callback>): set<Category> {
    set i | 0 <= i < |cbs| :: cbs[i].c
  }

  /** Until every listener has reported the page shows the loading figures;
      from then on the figures are those of the tables as received. */
  lemma {:induction false} LoaderShowsCurrentTables(cbs: seq<Callback>)
    ensures RunLoader(cbs).reported == Senders(cbs)
    ensures Senders(cbs) != AllListeners ==> RunLoader(cbs).stats == InitialStats
    ensures Senders(cbs) == AllListeners ==> RunLoader(cbs).stats == StatsOf(RunLoader(cbs).data)
    decreases |cbs|
  {
    if cbs != [] {
      var init := cbs[..|cbs| - 1];
      LoaderShowsCurrentTables(init);
      assert Senders(cbs) == Senders(init) + {cbs[|cbs| - 1].c} by {
        forall c | c in Senders(cbs)
          ensures c in Senders(init) + {cbs[|cbs| - 1].c}
        {
          var i :| 0 <= i < |cbs| && cbs[i].c == c;
          if i < |init| {
            assert init[i] == cbs[i];
          }
        }
        forall c | c in Senders(init)
          ensures c in Senders(cbs)
        {
          var i :| 0 <= i < |init| && init[i].c == c;
          assert cbs[i] == init[i];
        }
      }
    }
  }

  /** Each table holds the rows of its listener's last snapshot, or stays
      empty while that listener has sent none. */
  lemma {:induction false} LoaderKeepsLastSnapshot(cbs: seq<Callback>, c: Category, i: nat)
    requires i < |cbs| && cbs[i].Snapshot? && cbs[i].c == c
    requires forall j :: i < j < |cbs| ==> cbs[j].c != c || cbs[j].Failed?
    ensures RunLoader(cbs).data.TableOf(c) == cbs[i].rows
    decreases |cbs|
  {
    if i < |cbs| - 1 {
      var init := cbs[..|cbs| - 1];
      assert init[i] == cbs[i];
      LoaderKeepsLastSnapshot(init, c, i);
    }
  }

  // ---------------------------------------------------------------------------
  // Impact figures
  // ---------------------------------------------------------------------------

  datatype Impact = Impact(wasteKg: int, treesSaved: int)

  /** `impactStats`: a tenth of a kilogram per point and a tree per 50
      kilograms, both rounded down. */
  function ImpactOf(s: Stats): (r: Impact)
    ensures 10 * r.wasteKg <= s.totalPoints < 10 * (r.wasteKg + 1)
    ensures 50 * r.treesSaved <= r.wasteKg < 50 * (r.treesSaved + 1)
  {
    var kg := FloorDiv(s.totalPoints, 10);
    Impact(kg, FloorDiv(kg, 50))
  }

  /** A tree stands for 500 points. */
  lemma TreesPerPoints(s: Stats)
    ensures ImpactOf(s).treesSaved == s.totalPoints / 500
  {
    DivDiv(s.totalPoints, 10, 50);
  }

  /** More points never show less waste or fewer trees. */
  lemma ImpactMonotone(s: Stats, t: Stats)
    requires s.totalPoints <= t.totalPoints
    ensures ImpactOf(s).wasteKg <= ImpactOf(t).wasteKg
    ensures ImpactOf(s).treesSaved <= ImpactOf(t).treesSaved
  {
    var a, b := ImpactOf(s), ImpactOf(t);
    if a.wasteKg > b.wasteKg {
      MulMonotone(10, b.wasteKg + 1, a.wasteKg);
    }
    if a.treesSaved > b.treesSaved {
      MulMonotone(50, b.treesSaved + 1, a.treesSaved);
    }
  }
}

=== FILE: learn.dfy ===
/** The learning page: the four modules, the progress figures derived from
    the completed set, and `completeModule`. */
module Learn {
  import opened Wrappers
  import opened Text
  import opened Tables
  import opened Store
  import opened Activities
  import opened Numbers

  datatype LearningModule = LearningModule(id: int, title: string, duration: string, difficulty: string, points: int)

  /** `LEARNING_MODULES`. */
  const Modules: seq<LearningModule> := [
    LearningModule(1, "Plastic Recycling Basics", "15 min", "Beginner", 25),
    LearningModule(2, "Paper Recycling Guide", "12 min", "Beginner", 20),
    LearningModule(3, "Glass & Metal Recycling", "18 min", "Intermediate", 30),
    LearningModule(4, "Composting Organic Waste", "20 min", "Intermediate", 35)
  ]

  const ModuleCount := 4

  /** `LEARNING_MODULES.find(m => m.id === id)`. */
  function FindModule(id: int): (r: Option<LearningModule>)
    ensures r.Some? <==> 1 <= id <= ModuleCount
    ensures r.Some? ==> r.value == Modules[id - 1] && r.value.id == id
  {
    if 1 <= id <= ModuleCount then Some(Modules[id - 1]) else None
  }

  /** The points a completed id contributes: 0 when no module has it. */
  function PointsOf(id: int): (p: int)
    ensures p >= 0
    ensures FindModule(id).None? ==> p == 0
  {
    match FindModule(id)
    case Some(m) => m.points
    case None => 0
  }

  /** `totalAvailablePoints`: the sum of every module's points. */
  function TotalAvailablePoints(): int {
    Modules[0].points + Modules[1].points + Modules[2].points + Modules[3].points
  }

  lemma TotalIs110()
    ensures TotalAvailablePoints() == 110
  {
  }

  /** The completed set, in insertion order, as a JavaScript `Set`
      iterates it. */
  type Completed = seq<int>

  predicate NoDuplicates(c: Completed) {
    forall i, j :: 0 <= i < j < |c| ==> c[i] != c[j]
  }

  /** `earnedPoints`: the points of the completed ids, summed in set order. */
  function EarnedPoints(c: Completed): int
    decreases |c|
  {
    if c == [] then 0 else EarnedPoints(c[..|c| - 1]) + PointsOf(c[|c| - 1])
  }

  /** Each module's points, counted when its id is in the set. */
  function SelectedPoints(c: Completed): (p: int)
    ensures 0 <= p <= TotalAvailablePoints()
  {
    (if 1 in c then 25 else 0) + (if 2 in c then 20 else 0) + (if 3 in c then 30 else 0) + (if 4 in c then 35 else 0)
  }

  /** Summing in set order counts each completed module once: the earned
      points are the completed modules' points, and never exceed the
      total. */
  lemma {:induction false} EarnedIsSelected(c: Completed)
    requires NoDuplicates(c)
    ensures EarnedPoints(c) == SelectedPoints(c)
    ensures 0 <= EarnedPoints(c) <= TotalAvailablePoints()
    decreases |c|
  {
    if c != [] {
      var init := c[..|c| - 1];
      var x := c[|c| - 1];
      assert NoDuplicates(init);
      EarnedIsSelected(init);
      assert x !in init;
      assert forall y :: y in c <==> y in init || y == x;
    }
  }

  /** `progressPercentage`: the completed share, rounded. */
  function ProgressPercentage(c: Completed): int {
    Round(|c| * 100, ModuleCount)
  }

  /** The percentage moves in steps of 25: it is 25 times the number of
      completed modules. */
  lemma ProgressIsQuarterSteps(c: Completed)
    ensures ProgressPercentage(c) == 25 * |c|
  {
    assert |c| * 100 == (25 * |c|) * ModuleCount;
    RoundExact(25 * |c|, ModuleCount);
  }

  /** `remainingModules` */
  function RemainingModules(c: Completed): int {
    ModuleCount - |c|
  }

  /** `newCompleted.add(id)`: a no-op on a present id. */
  function Add(c: Completed, id: int): (r: Completed)
    ensures NoDuplicates(c) ==> NoDuplicates(r)
    ensures forall y :: y in r <==> y in c || y == id
    ensures id in c ==> r == c
  {
    if id in c then c else c + [id]
  }

  /** Only ids of modules enter the set. */
  predicate Valid(c: Completed) {
    NoDuplicates(c) && forall i :: 0 <= i < |c| ==> FindModule(c[i]).Some?
  }

  datatype Completion = Completion(completed: Completed, db: Db, message: Option<string>)

  function ModuleMetadata(m: LearningModule): Metadata {
    map["moduleId" := Num(m.id), "duration" := Str(m.duration), "difficulty" := Str(m.difficulty)]
  }

  /** `completeModule(id)`: an unknown id changes nothing. A known one joins
      the set and, for a signed-in user, one learning record is logged; the
      balance itself is never updated. */
  function CompleteModule(db: Db, userID: string, c: Completed, id: int, now: int): (r: Completion)
    ensures FindModule(id).None? ==> r == Completion(c, db, None)
    ensures FindModule(id).Some? ==>
      && r.completed == Add(c, id)
      && r.message == Some("Module completed! You earned " + IntToString(FindModule(id).value.points) + " points.")
    ensures userID == "" ==> r.db == db
    ensures FindModule(id).Some? && userID != "" ==>
      var m := FindModule(id).value;
      var log := LogLearning(db, userID, m.title, m.points, ModuleMetadata(m), now);
      && log.Ok? && r.db == log.value.db
      && LogOf(r.db, userID) == LogOf(db, userID) + [Entry(log.value.key, BuildRecord(Instantiate(ModuleCompleted(m.title, m.points), ModuleMetadata(m)), now))]
    ensures r.db.AccountAt(UsersTable, userID).points == db.AccountAt(UsersTable, userID).points
    ensures Valid(c) ==> Valid(r.completed)
  {
    match FindModule(id)
    case None => Completion(c, db, None)
    case Some(m) =>
      var message := Some("Module completed! You earned " + IntToString(m.points) + " points.");
      if userID == "" then Completion(Add(c, id), db, message)
      else
        var log := LogLearning(db, userID, m.title, m.points, ModuleMetadata(m), now);
        LogActivityFrame(db, userID, Instantiate(ModuleCompleted(m.title, m.points), ModuleMetadata(m)), now);
        Completion(Add(c, id), log.value.db, message)
  }

  /** Completing a module twice leaves the set as once, but logs a second
      record. */
  lemma CompleteTwice(db: Db, userID: string, c: Completed, id: int, now1: int, now2: int)
    requires FindModule(id).Some? && userID != ""
    ensures var r1 := CompleteModule(db, userID, c, id, now1);
      var r2 := CompleteModule(r1.db, userID, r1.completed, id, now2);
      && r2.completed == r1.completed
      && |LogOf(r2.db, userID)| == |LogOf(db, userID)| + 2
  {
  }

  /** The figures the page shows for a valid set: earned points within the
      total, a percentage in [0, 100], and the remaining modules. */
  lemma ProgressBounds(c: Completed)
    requires Valid(c)
    ensures 0 <= EarnedPoints(c) <= 110
    ensures 0 <= ProgressPercentage(c) <= 100
    ensures RemainingModules(c) >= 0
  {
    EarnedIsSelected(c);
    ValidAtMostFour(c);
    ProgressIsQuarterSteps(c);
  }

  /** A set without duplicates drawn from the four ids has at most four
      elements. */
  lemma ValidAtMostFour(c: Completed)
    requires Valid(c)
    ensures |c| <= ModuleCount
  {
    var s := set i | 0 <= i < |c| :: c[i];
    assert s <= {1, 2, 3, 4} by {
      forall y | y in s ensures y in {1, 2, 3, 4} {
        var i :| 0 <= i < |c| && c[i] == y;
        assert FindModule(c[i]).Some?;
      }
    }
    SetSizeOfDistinct(c);
    SubsetSize(s, {1, 2, 3, 4});
  }

  /** The elements of a duplicate-free sequence form a set of its length. */
  lemma {:induction false} SetSizeOfDistinct(c: Completed)
    requires NoDuplicates(c)
    ensures |set i | 0 <= i < |c| :: c[i]| == |c|
    decreases |c|
  {
    if c != [] {
      var init := c[..|c| - 1];
      assert NoDuplicates(init);
      SetSizeOfDistinct(init);
      var s := set i | 0 <= i < |c| :: c[i];
      var si := set i | 0 <= i < |init| :: init[i];
      assert s == si + {c[|c| - 1]};
      assert c[|c| - 1] !in si;
    }
  }

  lemma SubsetSize(a: set<int>, b: set<int>)
    requires a <= b
    ensures |a| <= |b|
  {
    assert b == a + (b - a);
  }
}

=== FILE: manage_accounts.dfy ===
/** The admin page that creates, edits, moves and deletes accounts of the
    three tables, masks passwords, searches the current tab and shows the
    QR code of regular users. */
module ManageAccounts {
  import opened Wrappers
  import opened Text
  import opened Seqs
  import opened Tables
  import opened Store
  import opened Auth
  import opened Catalogue

  // ---------------------------------------------------------------------------
  // The listed accounts
  // ---------------------------------------------------------------------------

  const SuperadminEmail := "saricycle-admin@gmail.com"
  const SuperadminUsername := "saricyclesuperadmin"

  /** The protected account, recognised by either its email or its
      username. */
  predicate IsSuperAdmin(a: Account) {
    a.email == SuperadminEmail || a.username == SuperadminUsername
  }

  /** A row of the page: the account with its key and table. */
  datatype Listed = Listed(userID: string, category: Category, account: Account)

  function ListOf(t: Table<Account>, c: Category): (r: seq<Listed>)
    ensures |r| == |t|
    ensures forall i :: 0 <= i < |t| ==> r[i] == Listed(t[i].key, c, t[i].value)
  {
    seq(|t|, i requires 0 <= i < |t| => Listed(t[i].key, c, t[i].value))
  }

  datatype Tab = UsersTab | AdminsTab | BarangayTab

  /** `activeTab`: `admins` and `barangay` name their tabs, anything else is
      the users tab. */
  function TabOf(name: string): Tab {
    if name == "admins" then AdminsTab
    else if name == "barangay" then BarangayTab
    else UsersTab
  }

  predicate NotSuperAdmin(l: Listed) {
    !IsSuperAdmin(l.account)
  }

  /** `getCurrentData()`: the tab's table, with the superadmin dropped from
      the admins list only. */
  function CurrentData(db: Db, tab: Tab): (r: seq<Listed>)
    ensures tab == UsersTab ==> r == ListOf(db.users, UsersTable)
    ensures tab == BarangayTab ==> r == ListOf(db.barangay, BarangayTable)
    ensures tab == AdminsTab ==> forall l :: l in r <==> l in ListOf(db.admins, AdminsTable) && !IsSuperAdmin(l.account)
    ensures tab == AdminsTab ==> Subseq(r, ListOf(db.admins, AdminsTable))
    ensures tab == AdminsTab ==> forall l: Listed :: !IsSuperAdmin(l.account) ==> multiset(r)[l] == multiset(ListOf(db.admins, AdminsTable))[l]
  {
    match tab
    case UsersTab => ListOf(db.users, UsersTable)
    case AdminsTab =>
      FilterKeepsOrder(ListOf(db.admins, AdminsTable), NotSuperAdmin);
      FilterMultiset(ListOf(db.admins, AdminsTable), NotSuperAdmin);
      Filter(ListOf(db.admins, AdminsTable), NotSuperAdmin)
    case BarangayTab => ListOf(db.barangay, BarangayTable)
  }

  // ---------------------------------------------------------------------------
  // The form
  // ---------------------------------------------------------------------------

  datatype AccountForm = AccountForm(username: string, email: string, password: string, points: int, usertype: string, address: string)

  /** The form's initial state, restored after a save and on cancel. */
  const BlankForm := AccountForm("", "", "", 0, "", "")

  datatype FormField = UsernameInput | EmailInput | PasswordInput | PointsInput | UsertypeInput | AddressInput

  /** `handleInputChange`: `points` is parsed, `parseInt(value) || 0`; the
      other inputs take the typed text. */
  function HandleInput(f: AccountForm, field: FormField, value: string): (r: AccountForm)
    ensures field == PointsInput ==> r == f.(points := ParseOrZero(value))
    ensures field == UsernameInput ==> r == f.(username := value)
    ensures field == EmailInput ==> r == f.(email := value)
    ensures field == PasswordInput ==> r == f.(password := value)
    ensures field == UsertypeInput ==> r == f.(usertype := value)
    ensures field == AddressInput ==> r == f.(address := value)
  {
    match field
    case UsernameInput => f.(username := value)
    case EmailInput => f.(email := value)
    case PasswordInput => f.(password := value)
    case PointsInput => f.(points := ParseOrZero(value))
    case UsertypeInput => f.(usertype := value)
    case AddressInput => f.(address := value)
  }

  const FieldsRequired := "Username, Email, Password, and User Type are required!"

  predicate Complete(f: AccountForm) {
    f.username != "" && f.email != "" && f.password != "" && f.usertype != ""
  }

  // ---------------------------------------------------------------------------
  // QR codes
  // ---------------------------------------------------------------------------

  /** The JSON object a QR code encodes. */
  datatype QrPayload = QrPayload(userID: string, username: string, email: string, password: string,
                                 points: int, usertype: string, address: string, category: Category)

  /** The image renderer: a data URL for a payload, "" standing for a
      failed rendering. */
  type Renderer = QrPayload -> string

  /** `isQRCodeEligible(user)`. */
  predicate QrEligible(usertype: string, c: Category) {
    usertype == "user" || c == UsersTable
  }

  function PayloadOf(id: string, c: Category, a: Account): QrPayload {
    QrPayload(id, a.username, a.email, a.password, a.points,
              if a.usertype == "" then "user" else a.usertype, a.address, c)
  }

  /** `saveQRCodeToFirebase`: only Users nodes store a code. */
  function SaveQr(db: Db, id: string, url: string, c: Category, now: int): (d: Db)
    ensures c != UsersTable ==> d == db
    ensures c == UsersTable ==>
      d == db.WithAccount(c, id, db.AccountAt(c, id).(qrCode := url, qrCodeUpdatedAt := Some(now)))
  {
    if c != UsersTable then db
    else db.WithAccount(c, id, db.AccountAt(c, id).(qrCode := url, qrCodeUpdatedAt := Some(now)))
  }

  /** `generateQRCode` followed by `saveQRCodeToFirebase` when it produced
      an image. */
  function GenerateAndSave(db: Db, id: string, c: Category, a: Account, render: Renderer, now: int): (d: Db)
    ensures !QrEligible(a.usertype, c) || render(PayloadOf(id, c, a)) == "" ==> d == db
    ensures c != UsersTable ==> d == db
  {
    if !QrEligible(a.usertype, c) then db
    else
      var url := render(PayloadOf(id, c, a));
      if url == "" then db else SaveQr(db, id, url, c, now)
  }

  /** `handleUserSelect(user)`: the code shown and the database after it,
      given the code on screen before. Ineligible accounts clear it; a
      stored code replaces it; otherwise a generated code replaces it and,
      for Users nodes, is saved. A failed rendering sets nothing, so the
      code on screen stays. */
  function SelectUser(db: Db, l: Listed, shown: string, render: Renderer, now: int): (r: (Db, string))
    ensures !QrEligible(l.account.usertype, l.category) ==> r == (db, "")
    ensures QrEligible(l.account.usertype, l.category) && l.account.qrCode != "" ==> r == (db, l.account.qrCode)
    ensures QrEligible(l.account.usertype, l.category) && l.account.qrCode == "" ==>
      var url := render(PayloadOf(l.userID, l.category, l.account));
      && r.1 == (if url == "" then shown else url)
      && (url == "" || l.category != UsersTable ==> r.0 == db)
      && (url != "" && l.category == UsersTable ==> r.0.AccountAt(UsersTable, l.userID).qrCode == url)
  {
    if !QrEligible(l.account.usertype, l.category) then (db, "")
    else if l.account.qrCode != "" then (db, l.account.qrCode)
    else
      var url := render(PayloadOf(l.userID, l.category, l.account));
      (GenerateAndSave(db, l.userID, l.category, l.account, render, now), if url == "" then shown else url)
  }

  /** After selecting an account with a stored code, selecting another
      eligible account whose rendering fails leaves the first account's code
      on screen next to the second account. */
  lemma StaleCodeAfterFailedRender(db: Db, first: Listed, second: Listed, shown: string, render: Renderer, now: int)
    requires QrEligible(first.account.usertype, first.category) && first.account.qrCode != ""
    requires QrEligible(second.account.usertype, second.category) && second.account.qrCode == ""
    requires render(PayloadOf(second.userID, second.category, second.account)) == ""
    ensures var (db1, code1) := SelectUser(db, first, shown, render, now);
      SelectUser(db1, second, code1, render, now) == (db, first.account.qrCode)
  {
  }

  // ---------------------------------------------------------------------------
  // Create
  // ---------------------------------------------------------------------------

  datatype Outcome = Refused(message: string) | Done(db: Db, key: string, message: string)

  function FormAccount(f: AccountForm, createdAt: Option<int>, now: int): Account {
    Account(f.username, f.email, f.password, f.usertype, f.points, f.address, createdAt, Some(now), "", None, [], map[])
  }

  /** The QR step that follows a create or an update: only for usertype
      exactly `user`. */
  function AfterSave(db: Db, id: string, c: Category, f: AccountForm, render: Renderer, now: int): (d: Db)
    ensures f.usertype != "user" || c != UsersTable ==> d == db
    ensures d.TableOf(AdminsTable) == db.TableOf(AdminsTable) && d.TableOf(BarangayTable) == db.TableOf(BarangayTable)
    ensures d.products == db.products
    ensures forall other :: other != id ==> Find(d.users, other) == Find(db.users, other)
    ensures forall c' :: c' != c ==> d.TableOf(c') == db.TableOf(c')
    ensures forall other :: other != id ==> Find(d.TableOf(c), other) == Find(db.TableOf(c), other)
    ensures d.AccountAt(c, id).(qrCode := "", qrCodeUpdatedAt := None) == db.AccountAt(c, id).(qrCode := "", qrCodeUpdatedAt := None)
  {
    if f.usertype == "user" then
      GenerateAndSave(db, id, c, db.AccountAt(c, id), render, now)
    else db
  }

  /** `handleCreate`: pushes the form, with its points, into the table the
      usertype names. No email-uniqueness check is made. */
  function Create(db: Db, f: AccountForm, render: Renderer, now: int): (r: Outcome)
    ensures r.Refused? <==> !Complete(f)
    ensures r.Refused? ==> r.message == FieldsRequired
    ensures r.Done? ==>
      var c := TableFor(f.usertype);
      && r.key != "" && !HasKey(db.TableOf(c), r.key) && HasKey(r.db.TableOf(c), r.key)
      && r.db.AccountAt(c, r.key).(qrCode := "", qrCodeUpdatedAt := None) == FormAccount(f, Some(now), now)
      && (forall other :: other != r.key ==> Find(r.db.TableOf(c), other) == Find(db.TableOf(c), other))
      && (forall c' :: c' != c ==> r.db.TableOf(c') == db.TableOf(c'))
      && r.db.products == db.products
      && r.message == f.usertype + (if f.usertype == "user" then " created successfully with QR code!" else " created successfully!")
  {
    if !Complete(f) then Refused(FieldsRequired)
    else
      var c := TableFor(f.usertype);
      var pushed := Push(db.TableOf(c), FormAccount(f, Some(now), now));
      var db1 := db.WithTable(c, pushed.0);
      assert Find(db1.TableOf(c), pushed.1) == Some(FormAccount(f, Some(now), now));
      forall other | other != pushed.1
        ensures Find(db1.TableOf(c), other) == Find(db.TableOf(c), other)
      {
        FindAppendOther(db.TableOf(c), pushed.1, FormAccount(f, Some(now), now), other);
      }
      var d := AfterSave(db1, pushed.1, c, f, render, now);
      Done(d, pushed.1,
           f.usertype + (if f.usertype == "user" then " created successfully with QR code!" else " created successfully!"))
  }

  /** Registering through this page accepts an email some account already
      has: a complete form is always saved. */
  lemma CreateAllowsDuplicateEmail(db: Db, f: AccountForm, render: Renderer, now: int)
    requires Complete(f) && EmailTaken(db, f.email)
    ensures Create(db, f, render, now).Done?
    ensures var c := TableFor(f.usertype); var r := Create(db, f, render, now);
      exists k :: HasKey(r.db.TableOf(c), k) && r.db.AccountAt(c, k).email == f.email && k == r.key
  {
  }

  // ---------------------------------------------------------------------------
  // Edit, update and the category move
  // ---------------------------------------------------------------------------

  const EditProtected := "Cannot edit superadmin account. This account is protected."
  const DeleteProtected := "Cannot delete superadmin account. This account is protected."

  /** What editing remembers: the row's key and table. */
  datatype Editing = Editing(id: string, category: Category)

  /** `handleEdit(user)`: refused for the superadmin; otherwise the form is
      filled from the row, with usertype `user` when it has none. */
  function Edit(l: Listed): (r: Result<(AccountForm, Editing)>)
    ensures r.Err? <==> IsSuperAdmin(l.account)
    ensures r.Err? ==> r.msg == EditProtected
    ensures r.Ok? ==> r.value.1 == Editing(l.userID, l.category)
    ensures r.Ok? ==>
      && r.value.0.email == l.account.email && r.value.0.password == l.account.password
      && r.value.0.points == l.account.points && r.value.0.usertype != ""
      && r.value.0.username == l.account.username && r.value.0.address == l.account.address
    ensures r.Ok? && l.account.usertype != "" ==> r.value.0.usertype == l.account.usertype
    ensures r.Ok? && l.account.usertype == "" ==> r.value.0.usertype == "user"
  {
    if IsSuperAdmin(l.account) then Err(EditProtected)
    else
      var a := l.account;
      Ok((AccountForm(a.username, a.email, a.password, a.points, if a.usertype == "" then "user" else a.usertype, a.address),
          Editing(l.userID, l.category)))
  }

  /** Saving an unchanged edit form into the same node gives the node back,
      stamped with the save time. */
  lemma EditThenMergeRestores(l: Listed, now: int)
    requires !IsSuperAdmin(l.account) && l.account.usertype != ""
    ensures Merge(l.account, Edit(l).value.0, now) == l.account.(updatedAt := Some(now))
  {
  }

  /** The move: the node under `e` is removed, its activities,
      achievements and code with it, and `a` is pushed into table `c`. */
  function MoveNode(db: Db, e: Editing, c: Category, a: Account): (r: (Db, string))
    requires c != e.category
    ensures !HasKey(r.0.TableOf(e.category), e.id)
    ensures r.1 != "" && !HasKey(db.TableOf(c), r.1) && HasKey(r.0.TableOf(c), r.1)
    ensures r.0.AccountAt(c, r.1) == a
    ensures r.0.products == db.products
    ensures forall other :: other != e.id ==> Find(r.0.TableOf(e.category), other) == Find(db.TableOf(e.category), other)
    ensures forall other :: other != r.1 ==> Find(r.0.TableOf(c), other) == Find(db.TableOf(c), other)
    ensures forall c' :: c' != c && c' != e.category ==> r.0.TableOf(c') == db.TableOf(c')
  {
    var removed := db.WithTable(e.category, Remove(db.TableOf(e.category), e.id));
    var pushed := Push(removed.TableOf(c), a);
    var db1 := removed.WithTable(c, pushed.0);
    assert Find(db1.TableOf(c), pushed.1) == Some(a);
    assert db1.TableOf(e.category) == removed.TableOf(e.category);
    (db1, pushed.1)
  }

  /** The form's fields merged into a node; everything else is kept. */
  function Merge(before: Account, f: AccountForm, now: int): (a: Account)
    ensures a.(qrCode := "", qrCodeUpdatedAt := None) ==
      FormAccount(f, before.createdAt, now).(activities := before.activities, achievements := before.achievements)
    ensures a.qrCode == before.qrCode && a.qrCodeUpdatedAt == before.qrCodeUpdatedAt
  {
    before.(username := f.username, email := f.email, password := f.password, points := f.points,
            usertype := f.usertype, address := f.address, updatedAt := Some(now))
  }

  /** The two update paths, given the `createdAt` a moved node gets. A
      usertype naming another table moves the node; otherwise the form's
      fields are merged into the node under the same key. */
  function UpdateWith(db: Db, e: Editing, f: AccountForm, movedCreatedAt: Option<int>, render: Renderer, now: int): (r: Outcome)
    ensures r.Refused? <==> !Complete(f)
    ensures r.Refused? ==> r.message == FieldsRequired
    ensures r.Done? ==> r.message == if f.usertype == "user" then "User updated successfully with new QR code!" else "User updated successfully!"
    ensures r.Done? && TableFor(f.usertype) != e.category ==>
      var c := TableFor(f.usertype);
      && !HasKey(r.db.TableOf(e.category), e.id)
      && r.key != "" && !HasKey(db.TableOf(c), r.key) && HasKey(r.db.TableOf(c), r.key)
      && r.db.AccountAt(c, r.key).(qrCode := "", qrCodeUpdatedAt := None) == FormAccount(f, movedCreatedAt, now)
      && (forall other :: other != e.id ==> Find(r.db.TableOf(e.category), other) == Find(db.TableOf(e.category), other))
      && (forall other :: other != r.key ==> Find(r.db.TableOf(c), other) == Find(db.TableOf(c), other))
      && (forall c' :: c' != c && c' != e.category ==> r.db.TableOf(c') == db.TableOf(c'))
    ensures r.Done? && TableFor(f.usertype) == e.category ==>
      && r.key == e.id
      && r.db.AccountAt(e.category, e.id).(qrCode := "", qrCodeUpdatedAt := None) ==
         Merge(db.AccountAt(e.category, e.id), f, now).(qrCode := "", qrCodeUpdatedAt := None)
      && (forall other :: other != e.id ==> Find(r.db.TableOf(e.category), other) == Find(db.TableOf(e.category), other))
      && (forall c' :: c' != e.category ==> r.db.TableOf(c') == db.TableOf(c'))
    ensures r.Done? ==> r.db.products == db.products
  {
    if !Complete(f) then Refused(FieldsRequired)
    else
      var message := if f.usertype == "user" then "User updated successfully with new QR code!" else "User updated successfully!";
      var c := TableFor(f.usertype);
      if c != e.category then
        var moved := MoveNode(db, e, c, FormAccount(f, movedCreatedAt, now));
        Done(AfterSave(moved.0, moved.1, c, f, render, now), moved.1, message)
      else
        var db1 := db.WithAccount(e.category, e.id, Merge(db.AccountAt(e.category, e.id), f, now));
        Done(AfterSave(db1, e.id, e.category, f, render, now), e.id, message)
  }

  /** `handleUpdate` as written: a moved node takes its `createdAt` from
      the row last selected for its QR code, not from the node being
      edited, and the current time when none is selected. */
  function UpdateAsWritten(db: Db, e: Editing, f: AccountForm, selected: Option<Listed>, render: Renderer, now: int): (r: Outcome)
    ensures r.Refused? <==> !Complete(f)
    ensures r.Done? && TableFor(f.usertype) != e.category ==>
      r.db.AccountAt(TableFor(f.usertype), r.key).createdAt ==
        if selected.Some? && selected.value.account.createdAt.Some? then selected.value.account.createdAt else Some(now)
  {
    var created := if selected.Some? && selected.value.account.createdAt.Some? then selected.value.account.createdAt else Some(now);
    UpdateWith(db, e, f, created, render, now)
  }

  /** The evident intent: a moved node keeps the edited node's own
      `createdAt`. */
  function Update(db: Db, e: Editing, f: AccountForm, render: Renderer, now: int): (r: Outcome)
    ensures r.Done? && TableFor(f.usertype) != e.category && db.AccountAt(e.category, e.id).createdAt.Some? ==>
      r.db.AccountAt(TableFor(f.usertype), r.key).createdAt == db.AccountAt(e.category, e.id).createdAt
    ensures r.Refused? <==> !Complete(f)
  {
    var own := db.AccountAt(e.category, e.id).createdAt;
    UpdateWith(db, e, f, if own.Some? then own else Some(now), render, now)
  }

  /** Account `u1` (created at 1) is edited into an admin while the QR
      panel shows `u2` (created at 2): as written the new Admins node says
      it was created at 2; corrected it keeps 1. */
  lemma MovedCreatedAtCounterexample(render: Renderer)
    ensures var a1 := EmptyAccount.(username := "ann", email := "a@x", password := "pw", createdAt := Some(1));
      var a2 := EmptyAccount.(username := "bob", email := "b@x", password := "pw", createdAt := Some(2));
      var db := Db([Entry("u1", a1), Entry("u2", a2)], [], [], []);
      var f := AccountForm("ann", "a@x", "pw", 0, "admin", "");
      var e := Editing("u1", UsersTable);
      var w := UpdateAsWritten(db, e, f, Some(Listed("u2", UsersTable, a2)), render, 5);
      var c := Update(db, e, f, render, 5);
      && w.Done? && w.db.AccountAt(AdminsTable, w.key).createdAt == Some(2)
      && c.Done? && c.db.AccountAt(AdminsTable, c.key).createdAt == Some(1)
  {
    var a1 := EmptyAccount.(username := "ann", email := "a@x", password := "pw", createdAt := Some(1));
    var a2 := EmptyAccount.(username := "bob", email := "b@x", password := "pw", createdAt := Some(2));
    var db := Db([Entry("u1", a1), Entry("u2", a2)], [], [], []);
    var f := AccountForm("ann", "a@x", "pw", 0, "admin", "");
    assert Lower("admin") == "admin";
    assert TableFor("admin") == AdminsTable;
    assert db.AccountAt(UsersTable, "u1") == a1;
  }

  /** A move drops the old node's activity log and achievements: the new
      node starts with neither. */
  lemma MoveDropsHistory(db: Db, e: Editing, f: AccountForm, render: Renderer, now: int)
    requires TableFor(f.usertype) != e.category
    requires Update(db, e, f, render, now).Done?
    ensures var r := Update(db, e, f, render, now);
      && !HasKey(r.db.TableOf(e.category), e.id)
      && r.db.AccountAt(TableFor(f.usertype), r.key).activities == []
      && r.db.AccountAt(TableFor(f.usertype), r.key).achievements == map[]
  {
  }

  // ---------------------------------------------------------------------------
  // Delete
  // ---------------------------------------------------------------------------

  datatype DeleteOutcome = Protected | Cancelled | Deleted(db: Db)

  /** The first row of `rows` with this key. */
  function FindRow(rows: seq<Listed>, id: string): (r: Option<Listed>)
    ensures r.Some? ==> r.value in rows && r.value.userID == id
    ensures r.None? ==> forall l :: l in rows ==> l.userID != id
  {
    if rows == [] then None
    else if rows[0].userID == id then Some(rows[0])
    else FindRow(rows[1..], id)
  }

  /** `handleDelete(userID, category)`: a superadmin row of the current tab
      is protected; otherwise the node goes once the admin confirms. */
  function Delete(db: Db, tab: Tab, id: string, c: Category, confirmed: bool): (r: DeleteOutcome)
    ensures r.Protected? <==> FindRow(CurrentData(db, tab), id).Some? && IsSuperAdmin(FindRow(CurrentData(db, tab), id).value.account)
    ensures r.Cancelled? <==> !r.Protected? && !confirmed
    ensures r.Deleted? ==>
      && !HasKey(r.db.TableOf(c), id)
      && (forall other :: other != id ==> Find(r.db.TableOf(c), other) == Find(db.TableOf(c), other))
      && (forall c' :: c' != c ==> r.db.TableOf(c') == db.TableOf(c'))
      && r.db.products == db.products
  {
    var row := FindRow(CurrentData(db, tab), id);
    if row.Some? && IsSuperAdmin(row.value.account) then Protected
    else if !confirmed then Cancelled
    else Deleted(db.WithTable(c, Remove(db.TableOf(c), id)))
  }

  /** A superadmin shown in the current tab can be neither edited nor
      deleted. */
  lemma SuperAdminProtected(db: Db, tab: Tab, l: Listed, c: Category, confirmed: bool)
    requires l in CurrentData(db, tab) && IsSuperAdmin(l.account)
    requires forall m :: m in CurrentData(db, tab) && m.userID == l.userID ==> m == l
    ensures Edit(l).Err?
    ensures Delete(db, tab, l.userID, c, confirmed) == Protected
  {
  }

  // ---------------------------------------------------------------------------
  // The password mask
  // ---------------------------------------------------------------------------

  const MaskLength := 32

  predicate IsAlnum(ch: char) {
    ('a' <= ch <= 'z') || ('A' <= ch <= 'Z') || ('0' <= ch <= '9')
  }

  /** The first 32 characters of the encoding with every other character
      replaced by `x`, padded with `x` to 32. */
  function Masked(encoded: string): (r: string)
    ensures |r| == MaskLength
    ensures forall i :: 0 <= i < MaskLength ==>
      r[i] == if i < |encoded| && IsAlnum(encoded[i]) then encoded[i] else 'x'
  {
    seq(MaskLength, i requires 0 <= i < MaskLength => if i < |encoded| && IsAlnum(encoded[i]) then encoded[i] else 'x')
  }

  /** `getEncryptedPasswordDisplay(password)`, with `btoa` as a parameter:
      32 asterisks for an empty password, else 32 letters and digits. */
  function PasswordMask(password: string, btoa: string -> string): (r: string)
    ensures |r| == MaskLength
    ensures password == "" ==> forall i :: 0 <= i < |r| ==> r[i] == '*'
    ensures password != "" ==> forall i :: 0 <= i < |r| ==> IsAlnum(r[i])
    ensures password != "" ==> forall i :: 0 <= i < |r| && i < |btoa(password)| && IsAlnum(btoa(password)[i]) ==> r[i] == btoa(password)[i]
  {
    if password == "" then seq(MaskLength, _ => '*') else Masked(btoa(password))
  }

  // ---------------------------------------------------------------------------
  // Search
  // ---------------------------------------------------------------------------

  predicate RowMatches(l: Listed, term: string) {
    || FieldMatches(l.account.username, term)
    || FieldMatches(l.account.email, term)
    || FieldMatches(l.userID, term)
    || FieldMatches(l.account.usertype, term)
    || FieldMatches(l.account.address, term)
  }

  /** `filteredData`: the tab's rows, narrowed by a non-empty term to those
      with a field containing it, ignoring case, in the tab's order. */
  function FilteredData(db: Db, tab: Tab, term: string): (r: seq<Listed>)
    ensures term == "" ==> r == CurrentData(db, tab)
    ensures term != "" ==> forall l :: l in r <==> l in CurrentData(db, tab) && RowMatches(l, term)
    ensures Subseq(r, CurrentData(db, tab))
  {
    Search(CurrentData(db, tab), term, (l: Listed) => RowMatches(l, term))
  }
}

=== FILE: numbers.dfy ===
/** `Math.round` and `Math.floor` of a quotient of integers. The pages
    divide integers as doubles and round the result; for the magnitudes
    involved the double quotient is the exact rational one. */
module Numbers {

  /** `Math.floor(num / den)` for a positive divisor. */
  function FloorDiv(num: int, den: int): (q: int)
    requires den > 0
    ensures den * q <= num < den * (q + 1)
  {
    num / den
  }

  /** `Math.round(num / den)`: the nearest integer, halves rounded up. */
  function Round(num: int, den: int): (r: int)
    requires den > 0
    ensures 2 * den * r <= 2 * num + den < 2 * den * (r + 1)
  {
    FloorDiv(2 * num + den, 2 * den)
  }

  /** Multiplying by a non-negative factor keeps an order. */
  lemma MulMonotone(k: int, x: int, y: int)
    requires k >= 0 && x <= y
    ensures k * x <= k * y
  {
    assert k * y - k * x == k * (y - x);
  }

  /** An exact quotient rounds to itself. */
  lemma RoundExact(q: int, den: int)
    requires den > 0
    ensures Round(q * den, den) == q
  {
    var r := Round(q * den, den);
    assert 2 * (q * den) == 2 * den * q;
    if r < q {
      MulMonotone(2 * den, r + 1, q);
    } else if r > q {
      MulMonotone(2 * den, q + 1, r);
    }
  }

  /** Rounding is monotone in the numerator. */
  lemma RoundMonotone(a: int, b: int, den: int)
    requires den > 0 && a <= b
    ensures Round(a, den) <= Round(b, den)
  {
    var ra := Round(a, den);
    var rb := Round(b, den);
    if ra > rb {
      MulMonotone(2 * den, rb + 1, ra);
    }
  }

  /** A quotient and remainder in range are the Euclidean ones. */
  lemma DivUnique(n: int, d: int, q: int, r: int)
    requires d > 0 && 0 <= r < d && n == d * q + r
    ensures n / d == q
  {
    var q0 := n / d;
    var r0 := n % d;
    assert n == d * q0 + r0;
    if q0 < q {
      MulMonotone(d, q0 + 1, q);
    } else if q0 > q {
      MulMonotone(d, q + 1, q0);
    }
  }

  /** Dividing twice is dividing by the product. */
  lemma DivDiv(n: int, a: int, b: int)
    requires a > 0 && b > 0
    ensures n / a / b == n / (a * b)
  {
    var q := n / a;
    var r := n % a;
    var q2 := q / b;
    var r2 := q % b;
    assert n == a * q + r;
    assert q == b * q2 + r2;
    assert a * q == a * (b * q2) + a * r2;
    assert a * (b * q2) == (a * b) * q2;
    MulMonotone(a, r2, b - 1);
    assert a * (b - 1) == a * b - a;
    DivUnique(n, a * b, q2, a * r2 + r);
  }

  /** A rounded mean lies between bounds of the terms it averages. */
  lemma RoundWithin(total: int, n: int, lo: int, hi: int)
    requires n > 0 && n * lo <= total <= n * hi
    ensures lo <= Round(total, n) <= hi
  {
    var a := Round(total, n);
    assert 2 * n * (hi + 1) == 2 * (n * hi) + 2 * n;
    assert 2 * n * lo == 2 * (n * lo);
    if a > hi {
      MulMonotone(2 * n, hi + 1, a);
    } else if a < lo {
      MulMonotone(2 * n, a + 1, lo);
    }
  }
}

=== FILE: profile_dropdown.dfy ===
/** The profile menu in the header: the avatar's initials, the QR code
    popup of a regular user, and how the menu and the popup close. */
module ProfileDropdown {
  import opened Wrappers
  import opened Text
  import opened Seqs
  import opened Tables
  import opened Store
  import opened Auth
  import opened ManageAccounts

  // ---------------------------------------------------------------------------
  // Initials
  // ---------------------------------------------------------------------------

  /** What the avatar shows, or the `TypeError` that stops rendering. */
  datatype Rendered = Shown(text: string) | Crashed

  /** `s[0]`: `undefined` for the empty string. */
  function FirstChar(s: string): Option<char> {
    if s == "" then None else Some(s[0])
  }

  /** `a + b` on two such values: `undefined` turns into the text
      "undefined" next to a string, and two of them add up to `NaN`, which
      has no `toUpperCase`. */
  function PlusAsWritten(a: Option<char>, b: Option<char>): Option<string> {
    match (a, b)
    case (Some(x), Some(y)) => Some([x, y])
    case (Some(x), None) => Some([x] + "undefined")
    case (None, Some(y)) => Some("undefined" + [y])
    case (None, None) => None
  }

  /** The first two characters of `s`, or all of it when shorter
      (`substring(0, 2)`). */
  function FirstTwo(s: string): (r: string)
    ensures |r| == if |s| < 2 then |s| else 2
    ensures r == s[..|r|]
  {
    if |s| < 2 then s else s[..2]
  }

  /** `getInitials` as written: it splits on single spaces and takes the
      first character of the first two parts, which are empty around a
      leading, trailing or doubled space. */
  function InitialsAsWritten(name: string): Rendered {
    if name == "" then Shown("U")
    else
      var parts := Split(name, ' ');
      if |parts| >= 2 then
        match PlusAsWritten(FirstChar(parts[0]), FirstChar(parts[1]))
        case Some(s) => Shown(Upper(s))
        case None => Crashed
      else Shown(Upper(FirstTwo(name)))
  }

  /** How the two sample names split on spaces. */
  lemma SampleSplits()
    ensures Split(" ", ' ') == ["", ""]
    ensures Split("Jo ", ' ') == ["Jo", ""]
  {
    assert " "[1..] == "";
    var blank := Split(" ", ' ');
    assert blank == ["", ""];
    assert "o "[1..] == " ";
    var one := Split("o ", ' ');
    assert blank[1..] == [""];
    assert ['o'] + blank[0] == "o";
    assert one == [['o'] + blank[0]] + blank[1..];
    assert one == ["o", ""];
    assert ['J'] + one[0] == "Jo" && one[1..] == [""];
    assert "Jo "[1..] == "o ";
    assert Split("Jo ", ' ') == [['J'] + one[0]] + one[1..];
  }

  /** A trailing space puts "UNDEFINED" on the avatar, a name of one space
      stops the header from rendering. */
  lemma InitialsAsWrittenCounterexamples()
    ensures InitialsAsWritten("Jo ") == Shown("JUNDEFINED")
    ensures InitialsAsWritten(" ") == Crashed
  {
    SampleSplits();
    assert Upper("JUndefined") == "JUNDEFINED";
  }

  /** The words of a name: the non-empty parts between spaces. */
  function Words(name: string): (ws: seq<string>)
    ensures forall w :: w in ws ==> w != "" && w in Split(name, ' ')
  {
    Filter(Split(name, ' '), (w: string) => w != "")
  }

  /** The initials as intended: "U" for a name without words, the first
      letters of the first two words, or the first two letters of the only
      word; upper-cased. */
  function Initials(name: string): (r: string)
    ensures 1 <= |r| <= 2
    ensures Words(name) == [] ==> r == "U"
    ensures |Words(name)| >= 2 ==> r == Upper([Words(name)[0][0], Words(name)[1][0]])
    ensures |Words(name)| == 1 ==> r == Upper(FirstTwo(Words(name)[0]))
  {
    var ws := Words(name);
    if ws == [] then "U"
    else if |ws| >= 2 then Upper([ws[0][0], ws[1][0]])
    else Upper(FirstTwo(ws[0]))
  }

  /** Every letter of the intended initials comes from the name, so no
      "UNDEFINED" can appear; only a name without words shows "U". */
  lemma InitialsFromName(name: string)
    ensures Words(name) != [] ==>
      forall i :: 0 <= i < |Initials(name)| ==> exists j :: 0 <= j < |name| && Initials(name)[i] == UpperChar(name[j])
  {
    var ws := Words(name);
    if ws != [] {
      SplitJoin(name, ' ');
      JoinKeepsChars(Split(name, ' '), ' ');
      var r := Initials(name);
      var src := if |ws| >= 2 then [ws[0][0], ws[1][0]] else FirstTwo(ws[0]);
      assert r == Upper(src);
      forall i | 0 <= i < |r|
        ensures exists j :: 0 <= j < |name| && r[i] == UpperChar(name[j])
      {
        var w := if |ws| >= 2 then ws[i] else ws[0];
        assert src[i] in w;
        assert w in Split(name, ' ');
        assert src[i] in name;
        var j :| 0 <= j < |name| && name[j] == src[i];
        assert r[i] == UpperChar(name[j]);
      }
    }
  }

  /** Every character of a part is a character of the joined text. */
  lemma {:induction false} JoinKeepsChars(parts: seq<string>, sep: char)
    ensures forall k, c :: 0 <= k < |parts| && c in parts[k] ==> c in Join(parts, sep)
    decreases |parts|
  {
    if |parts| > 1 {
      JoinKeepsChars(parts[1..], sep);
      var rest := Join(parts[1..], sep);
      assert Join(parts, sep) == parts[0] + [sep] + rest;
      forall k, c | 0 <= k < |parts| && c in parts[k]
        ensures c in Join(parts, sep)
      {
        if k > 0 {
          assert parts[1..][k - 1] == parts[k];
        }
      }
    }
  }

  /** For a name whose words are separated by single spaces, with none at
      either end, the code as written already gives the intended initials. */
  lemma AgreesOnWellSpacedNames(name: string)
    requires name != ""
    requires forall k :: 0 <= k < |Split(name, ' ')| ==> Split(name, ' ')[k] != ""
    ensures InitialsAsWritten(name) == Shown(Initials(name))
  {
    var parts := Split(name, ' ');
    FilterAll(parts, (w: string) => w != "");
    assert Words(name) == parts;
    if |parts| == 1 {
      SplitJoin(name, ' ');
      assert name == parts[0];
    }
  }

  // ---------------------------------------------------------------------------
  // The QR code popup
  // ---------------------------------------------------------------------------

  datatype Menu = Menu(isOpen: bool, settingsOpen: bool, showQr: bool, qrUrl: string, alert: Option<string>)

  const OnlyRegularUsers := "QR codes are only available for regular users."

  /** `isQRCodeEligible(user)`: a signed-in regular user. */
  predicate Eligible(s: Session) {
    s.Some? && QrEligible(s.value.usertype, s.value.category)
  }

  /** The menu's eligibility is the session's user role. */
  lemma EligibleIsUserRole(s: Session)
    ensures Eligible(s) <==> IsUser(s)
  {
  }

  /** The payload `generateQRCode` encodes from the session: `points || 0`,
      `usertype || 'user'`, `address || ''`; the session's password, which
      sessions do not carry, is written as "". */
  function SessionPayload(u: SessionUser): QrPayload {
    QrPayload(u.userID, u.username, u.email, u.password.GetOr(""), u.points,
              if u.usertype == "" then "user" else u.usertype, u.address, u.category)
  }

  /** `handleQRCodeClick`: the menu closes; an ineligible session gets an
      alert; otherwise the popup opens with the stored code or, when there is
      none, a freshly rendered one, saved for Users nodes. A failed rendering
      leaves the popup without a code. */
  function QrClick(db: Db, m: Menu, s: Session, render: Renderer, now: int): (r: (Db, Menu))
    ensures !r.1.isOpen
    ensures Eligible(s) ==> r.1.showQr
    ensures !Eligible(s) ==> r == (db, m.(isOpen := false, alert := Some(OnlyRegularUsers)))
    ensures Eligible(s) && s.value.category != UsersTable ==> r.0 == db
    ensures Eligible(s) && db.AccountAt(s.value.category, s.value.userID).qrCode != "" ==>
      && r.0 == db
      && r.1.qrUrl == db.AccountAt(s.value.category, s.value.userID).qrCode
    ensures Eligible(s) && db.AccountAt(s.value.category, s.value.userID).qrCode == "" ==>
      var url := render(SessionPayload(s.value));
      && (url != "" ==> r.1.qrUrl == url && r.0 == SaveQr(db, s.value.userID, url, s.value.category, now))
      && (url == "" ==> r == (db, m.(isOpen := false, showQr := true)))
  {
    if !Eligible(s) then (db, m.(isOpen := false, alert := Some(OnlyRegularUsers)))
    else
      var u := s.value;
      var stored := db.AccountAt(u.category, u.userID).qrCode;
      if stored != "" then (db, m.(isOpen := false, showQr := true, qrUrl := stored))
      else
        var url := render(SessionPayload(u));
        if url == "" then (db, m.(isOpen := false, showQr := true))
        else (SaveQr(db, u.userID, url, u.category, now), m.(isOpen := false, showQr := true, qrUrl := url))
  }

  /** `handleCloseQRPopup`: the popup closes and forgets its code. */
  function CloseQr(m: Menu): (r: Menu)
    ensures !r.showQr && r.qrUrl == ""
    ensures r.isOpen == m.isOpen && r.settingsOpen == m.settingsOpen
  {
    m.(showQr := false, qrUrl := "")
  }

  /** A code, once rendered for a regular user, is reused: opening the popup
      again shows the same code and writes nothing. */
  lemma QrReused(db: Db, m: Menu, s: Session, render: Renderer, now: int, later: int)
    requires Eligible(s) && s.value.category == UsersTable
    requires render(SessionPayload(s.value)) != ""
    ensures var (db1, m1) := QrClick(db, m, s, render, now);
      && m1.qrUrl != ""
      && QrClick(db1, CloseQr(m1), s, render, later) == (db1, CloseQr(m1).(isOpen := false, showQr := true, qrUrl := m1.qrUrl))
  {
    var u := s.value;
    var (db1, m1) := QrClick(db, m, s, render, now);
    var stored := db.AccountAt(u.category, u.userID).qrCode;
    if stored == "" {
      var url := render(SessionPayload(u));
      assert db1 == SaveQr(db, u.userID, url, u.category, now);
      assert db1.AccountAt(u.category, u.userID).qrCode == url;
    }
  }

  /** Escape closes the popup when it is open, the menu otherwise. */
  function Escape(m: Menu): (r: Menu)
    ensures m.showQr ==> r == CloseQr(m)
    ensures !m.showQr ==> r == m.(isOpen := false)
  {
    if m.showQr then CloseQr(m) else m.(isOpen := false)
  }

  /** Two presses of Escape close both the popup and the menu. */
  lemma EscapeTwiceClosesAll(m: Menu)
    ensures !Escape(Escape(m)).showQr && !Escape(Escape(m)).isOpen
    ensures Escape(Escape(m)).settingsOpen == m.settingsOpen
  {
  }
}

=== FILE: redeem.dfy ===
/** The rewards page: the listed catalogue, the affordability summary, the
    search/category/price filter, favourites, and the redemption step. */
module Redeem {
  import opened Wrappers
  import opened Text
  import opened Seqs
  import opened Tables
  import opened Store
  import opened Activities

  // ---------------------------------------------------------------------------
  // The listed products and the summary cards
  // ---------------------------------------------------------------------------

  /** Only products whose `isActive` flag is set are listed. */
  function ActiveProducts(t: Table<Product>): (r: Table<Product>)
    ensures forall e :: e in r <==> e in t && e.value.isActive == Some(true)
    ensures Subseq(r, t) && multiset(r) <= multiset(t)
    ensures forall e: Entry<Product> :: e.value.isActive == Some(true) ==> multiset(r)[e] == multiset(t)[e]
  {
    var p := (e: Entry<Product>) => e.value.isActive == Some(true);
    FilterKeepsOrder(t, p);
    FilterMultiset(t, p);
    Filter(t, p)
  }

  /** `canAfford(pointsRequired)` for a balance of `points`. */
  predicate CanAfford(points: int, required: int) {
    points >= required
  }

  datatype RewardSummary = RewardSummary(availableBalance: int, availableRewards: nat, affordableItems: nat, favoriteCount: nat)

  /** `rewardCalculations` for a cached balance, the listed products and the
      favourite set. */
  function Summary(points: int, listed: Table<Product>, favorites: set<string>): (r: RewardSummary)
    ensures r.availableBalance == points && r.availableRewards == |listed| && r.favoriteCount == |favorites|
    ensures r.affordableItems <= r.availableRewards
    ensures r.affordableItems == 0 <==> forall i :: 0 <= i < |listed| ==> !CanAfford(points, listed[i].value.pointsRequired)
    ensures r.affordableItems == r.availableRewards <==> forall i :: 0 <= i < |listed| ==> CanAfford(points, listed[i].value.pointsRequired)
  {
    RewardSummary(points, |listed|, Count(listed, (e: Entry<Product>) => CanAfford(points, e.value.pointsRequired)), |favorites|)
  }

  /** A larger balance affords at least as many items. */
  lemma AffordableMonotone(p1: int, p2: int, listed: Table<Product>, favorites: set<string>)
    requires p1 <= p2
    ensures Summary(p1, listed, favorites).affordableItems <= Summary(p2, listed, favorites).affordableItems
  {
    CountMonotone(listed, (e: Entry<Product>) => CanAfford(p1, e.value.pointsRequired),
                          (e: Entry<Product>) => CanAfford(p2, e.value.pointsRequired));
  }

  // ---------------------------------------------------------------------------
  // Filtering
  // ---------------------------------------------------------------------------

  /** A price range of `FILTER_OPTIONS`; `max == None` is no upper bound. */
  datatype PriceRange = PriceRange(min: int, max: Option<int>)

  function RangeOf(filter: string): Option<PriceRange> {
    match filter
    case "low" => Some(PriceRange(0, Some(50)))
    case "medium" => Some(PriceRange(50, Some(200)))
    case "high" => Some(PriceRange(200, None))
    case _ => None
  }

  /** Both bounds are inclusive. */
  predicate InRange(points: int, r: PriceRange) {
    points >= r.min && (r.max.None? || points <= r.max.value)
  }

  /** `all` and values naming no range let every price through. */
  predicate MatchesPrice(points: int, filter: string) {
    filter == "all" || RangeOf(filter).None? || InRange(points, RangeOf(filter).value)
  }

  /** The ranges cover every non-negative price, overlap exactly at 50 and
      200, and leave negative prices out. */
  lemma PriceRangesOverlapAtBounds(points: int)
    ensures points >= 0 <==> MatchesPrice(points, "low") || MatchesPrice(points, "medium") || MatchesPrice(points, "high")
    ensures MatchesPrice(points, "low") && MatchesPrice(points, "medium") <==> points == 50
    ensures MatchesPrice(points, "medium") && MatchesPrice(points, "high") <==> points == 200
    ensures !(MatchesPrice(points, "low") && MatchesPrice(points, "high"))
  {
  }

  /** A listed product matches when the term occurs in its name or its
      description, its category is the chosen one (or `all` is chosen), and
      its price is in the chosen range. */
  predicate RewardMatches(p: Product, term: string, category: string, priceFilter: string) {
    && (FieldMatches(p.name, term) || FieldMatches(p.description, term))
    && (category == "all" || p.category == category)
    && MatchesPrice(p.pointsRequired, priceFilter)
  }

  /** `filteredProducts` */
  function FilteredProducts(listed: Table<Product>, term: string, category: string, priceFilter: string): (r: Table<Product>)
    ensures forall e :: e in r <==> e in listed && RewardMatches(e.value, term, category, priceFilter)
    ensures Subseq(r, listed) && multiset(r) <= multiset(listed)
    ensures forall e: Entry<Product> :: RewardMatches(e.value, term, category, priceFilter) ==> multiset(r)[e] == multiset(listed)[e]
  {
    var p := (e: Entry<Product>) => RewardMatches(e.value, term, category, priceFilter);
    FilterKeepsOrder(listed, p);
    FilterMultiset(listed, p);
    Filter(listed, p)
  }

  /** With no search term and no category or price choice, exactly the
      products with a name or a description are shown: one with neither is
      never shown. */
  lemma NoCriteriaShowsDescribed(listed: Table<Product>)
    ensures forall e :: e in FilteredProducts(listed, "", "all", "all") <==>
      e in listed && (e.value.name != "" || e.value.description != "")
  {
    forall s: string
      ensures ContainsCI(s, "")
    {
      ContainsEmpty(Lower(s));
    }
  }

  /** `toggleFavorite(productId)` */
  function ToggleFavorite(favorites: set<string>, id: string): (r: set<string>)
    ensures id in r <==> id !in favorites
    ensures forall x :: x != id ==> (x in r <==> x in favorites)
  {
    if id in favorites then favorites - {id} else favorites + {id}
  }

  lemma ToggleFavoriteTwice(favorites: set<string>, id: string)
    ensures ToggleFavorite(ToggleFavorite(favorites, id), id) == favorites
  {
  }

  // ---------------------------------------------------------------------------
  // confirmRedeem
  // ---------------------------------------------------------------------------

  /** What `confirmRedeem` does. A successful redemption keeps the database
      after the balance write (`deducted`) and after the log append (`db`). */
  datatype RedeemOutcome =
    | NothingSelected
    | Insufficient(shortfall: int)
    | Redeemed(deducted: Db, db: Db, balance: int, key: string)

  /** The `update` of `Users/<id>` with the new balance and `updatedAt`. */
  function Deduct(db: Db, userID: string, balance: int, now: int): (d: Db)
    ensures d.AccountAt(UsersTable, userID) == db.AccountAt(UsersTable, userID).(points := balance, updatedAt := Some(now))
    ensures forall other :: other != userID ==> Find(d.users, other) == Find(db.users, other)
    ensures d.admins == db.admins && d.barangay == db.barangay && d.products == db.products
  {
    var d := db.WithAccount(UsersTable, userID, db.AccountAt(UsersTable, userID).(points := balance, updatedAt := Some(now)));
    assert d.TableOf(AdminsTable) == db.TableOf(AdminsTable);
    assert d.TableOf(BarangayTable) == db.TableOf(BarangayTable);
    d
  }

  /** The metadata of the redemption record. */
  function RedemptionMetadata(e: Entry<Product>, before: int, after: int): Metadata {
    map[
      "productID" := Str(e.key),
      "category" := Str(e.value.category),
      "description" := Str(e.value.description),
      "pointsBeforeRedemption" := Num(before),
      "pointsAfterRedemption" := Num(after)
    ]
  }

  /** `confirmRedeem` for the signed-in `userID` with the session's cached
      balance `cached` and the product chosen in the modal. */
  function ConfirmRedeem(db: Db, userID: string, cached: int, selected: Option<Entry<Product>>, now: int): (r: RedeemOutcome)
    ensures selected.None? || userID == "" <==> r.NothingSelected?
    ensures r.Insufficient? <==> selected.Some? && userID != "" && cached < selected.value.value.pointsRequired
    ensures r.Insufficient? ==> r.shortfall == selected.value.value.pointsRequired - cached > 0
    ensures r.Redeemed? ==> r.balance == cached - selected.value.value.pointsRequired >= 0
    ensures r.Redeemed? ==> r.deducted == Deduct(db, userID, r.balance, now)
    ensures r.Redeemed? ==>
      var log := LogRedemption(r.deducted, userID, selected.value.value.name, selected.value.value.pointsRequired,
                               RedemptionMetadata(selected.value, cached, r.balance), now);
      log == Ok(Logged(r.db, r.key))
    ensures r.Redeemed? ==>
      && r.db.AccountAt(UsersTable, userID).points == r.balance
      && r.db.products == db.products
      && LogOf(r.db, userID) == LogOf(db, userID) + [Entry(r.key, RedemptionRecord(selected.value, cached, r.balance, now))]
  {
    if selected.None? || userID == "" then NothingSelected
    else
      var e := selected.value;
      var price := e.value.pointsRequired;
      if cached < price then Insufficient(price - cached)
      else
        var balance := cached - price;
        var deducted := Deduct(db, userID, balance, now);
        var log := LogRedemption(deducted, userID, e.value.name, price, RedemptionMetadata(e, cached, balance), now);
        DeductThenLog(db, userID, e, cached, balance, now);
        Redeemed(deducted, log.value.db, balance, log.value.key)
  }

  /** The record `logRewardRedemption` stores for product `e`. */
  function RedemptionRecord(e: Entry<Product>, before: int, after: int, now: int): (a: Activity)
    ensures a == BuildRecord(Instantiate(RewardRedeemed(e.value.name, e.value.pointsRequired), RedemptionMetadata(e, before, after)), now)
    ensures a.kind == Redemption && a.pointsEarned == -Abs(e.value.pointsRequired)
    ensures a.metadata == RedemptionMetadata(e, before, after) && a.createdAt == now
  {
    BuildRecord(Instantiate(RewardRedeemed(e.value.name, e.value.pointsRequired), RedemptionMetadata(e, before, after)), now)
  }

  /** The log append of a redemption: one record at the end of the log, and
      the balance and the catalogue as they were. */
  lemma RedemptionLogged(d: Db, userID: string, e: Entry<Product>, before: int, after: int, now: int)
    requires userID != ""
    ensures var r := LogRedemption(d, userID, e.value.name, e.value.pointsRequired, RedemptionMetadata(e, before, after), now);
      && r.Ok?
      && LogOf(r.value.db, userID) == LogOf(d, userID) + [Entry(r.value.key, RedemptionRecord(e, before, after, now))]
      && r.value.db.AccountAt(UsersTable, userID).points == d.AccountAt(UsersTable, userID).points
      && r.value.db.products == d.products
  {
    var md := RedemptionMetadata(e, before, after);
    LogActivityFrame(d, userID, Instantiate(RewardRedeemed(e.value.name, e.value.pointsRequired), md), now);
  }

  /** The balance write followed by the log append: the account keeps the
      new balance, the log grows by one redemption record, and no product
      changes. */
  lemma DeductThenLog(db: Db, userID: string, e: Entry<Product>, before: int, after: int, now: int)
    requires userID != ""
    ensures var d := Deduct(db, userID, after, now);
      var r := LogRedemption(d, userID, e.value.name, e.value.pointsRequired, RedemptionMetadata(e, before, after), now);
      && r.Ok?
      && r.value.db.AccountAt(UsersTable, userID).points == after
      && r.value.db.products == db.products
      && LogOf(r.value.db, userID) == LogOf(db, userID) + [Entry(r.value.key, RedemptionRecord(e, before, after, now))]
  {
    var d := Deduct(db, userID, after, now);
    RedemptionLogged(d, userID, e, before, after, now);
    assert LogOf(d, userID) == LogOf(db, userID);
  }

  /** For a non-negative price the record's delta is exactly the amount
      taken from the balance. */
  lemma RedeemDeltaMatchesBalance(db: Db, userID: string, cached: int, e: Entry<Product>, now: int)
    requires ConfirmRedeem(db, userID, cached, Some(e), now).Redeemed?
    requires e.value.pointsRequired >= 0
    ensures var r := ConfirmRedeem(db, userID, cached, Some(e), now);
      LogOf(r.db, userID)[|LogOf(db, userID)|].value.pointsEarned == r.balance - cached
      && LogOf(r.db, userID)[|LogOf(db, userID)|].value.metadata["pointsAfterRedemption"] == Num(r.balance)
  {
  }

  /** A failed balance check or a missing selection writes nothing. */
  lemma RefusedRedeemWritesNothing(db: Db, userID: string, cached: int, selected: Option<Entry<Product>>, now: int)
    ensures !ConfirmRedeem(db, userID, cached, selected, now).Redeemed? <==>
      selected.None? || userID == "" || cached < selected.value.value.pointsRequired
  {
  }
}

=== FILE: routing.dfy ===
/** Which screen a path shows: the route table, the route guard that wraps
    the signed-in pages, and the redirect the root and unknown paths make. */
module Routing {
  import opened Wrappers
  import opened Store
  import opened Auth
  import opened Text

  /** The authentication context the routes read; signed in exactly when a
      session user is set. */
  datatype AuthState = AuthState(loading: bool, session: Session)

  predicate Authenticated(a: AuthState) { a.session.Some? }

  const AuthPath := "/auth"
  const LandingPath := "/landing"
  const HomePath := "/home"
  const AdminDashboardPath := "/admin/dashboard"
  const BarangayDashboardPath := "/barangay/dashboard"

  datatype Page =
    | AuthenticationPage | LandingPage | AboutPage
    | HomePage | WalletPage | RedeemPage
    | AdminDashboardPage | ManageAccountsPage | ManageProductsPage
    | BarangayDashboardPage | ViewUsersPage | ViewActivitiesPage

  datatype View = Spinner | RedirectTo(path: string) | Render(page: Page)

  /** `ProtectedRoute`'s flags. */
  datatype Guard = Guard(adminOnly: bool, userOnly: bool, barangayOnly: bool)

  const AnySignedIn := Guard(false, false, false)
  const AdminsOnly := Guard(true, false, false)
  const BarangayOnly := Guard(false, false, true)

  /** `ProtectedRoute`: the spinner while loading, then the first guard that
      applies, else the page. */
  function Protect(a: AuthState, g: Guard, page: Page): (v: View)
    ensures a.loading ==> v == Spinner
    ensures v.Render? <==>
      && !a.loading && Authenticated(a)
      && (g.adminOnly ==> IsAdmin(a.session))
      && (g.userOnly ==> IsUser(a.session))
      && (g.barangayOnly ==> IsBarangay(a.session))
    ensures v.Render? ==> v.page == page
    ensures !a.loading && !Authenticated(a) ==> v == RedirectTo(AuthPath)
  {
    if a.loading then Spinner
    else if !Authenticated(a) then RedirectTo(AuthPath)
    else if g.adminOnly && !IsAdmin(a.session) then RedirectTo(HomePath)
    else if g.userOnly && !IsUser(a.session) then RedirectTo(AdminDashboardPath)
    else if g.barangayOnly && !IsBarangay(a.session) then
      if IsAdmin(a.session) then RedirectTo(AdminDashboardPath) else RedirectTo(HomePath)
    else Render(page)
  }

  /** Where a signed-in session starts: admins first, then barangay
      officials, everyone else at home; the landing page without a session. */
  function StartPath(s: Session): (p: string)
    ensures s.None? ==> p == LandingPath
    ensures IsAdmin(s) ==> p == AdminDashboardPath
    ensures !IsAdmin(s) && IsBarangay(s) ==> p == BarangayDashboardPath
    ensures s.Some? && !IsAdmin(s) && !IsBarangay(s) ==> p == HomePath
  {
    if s.None? then LandingPath
    else if IsAdmin(s) then AdminDashboardPath
    else if IsBarangay(s) then BarangayDashboardPath
    else HomePath
  }

  /** A path without its trailing slashes: the router's patterns accept
      any number of them. */
  function DropTrailingSlashes(s: string): (r: string)
    ensures r <= s
    ensures r == [] || r[|r| - 1] != '/'
    ensures forall i :: |r| <= i < |s| ==> s[i] == '/'
    decreases |s|
  {
    if s != [] && s[|s| - 1] == '/' then DropTrailingSlashes(s[..|s| - 1]) else s
  }

  /** The form in which a path is looked up: the router matches route
      patterns case-insensitively and ignores trailing slashes. */
  function RouteKey(path: string): string {
    Lower(DropTrailingSlashes(path))
  }

  /** The route table on a looked-up path. */
  function Route(a: AuthState, key: string): View {
    if key == AuthPath then Render(AuthenticationPage)
    else if key == LandingPath then Render(LandingPage)
    else if key == "/home/about" then Protect(a, AnySignedIn, AboutPage)
    else if key == HomePath then Protect(a, AnySignedIn, HomePage)
    else if key == "/home/digital-wallet" then Protect(a, AnySignedIn, WalletPage)
    else if key == "/home/redeem-rewards" then Protect(a, AnySignedIn, RedeemPage)
    else if key == "/admin" then RedirectTo(AdminDashboardPath)
    else if key == AdminDashboardPath then Protect(a, AdminsOnly, AdminDashboardPage)
    else if key == "/admin/manage-accounts" then Protect(a, AdminsOnly, ManageAccountsPage)
    else if key == "/admin/manage-products" then Protect(a, AdminsOnly, ManageProductsPage)
    else if key == "/barangay" then RedirectTo(BarangayDashboardPath)
    else if key == BarangayDashboardPath then Protect(a, BarangayOnly, BarangayDashboardPage)
    else if key == "/barangay/view-users" then Protect(a, BarangayOnly, ViewUsersPage)
    else if key == "/barangay/view-activities" then Protect(a, BarangayOnly, ViewActivitiesPage)
    else RedirectTo(StartPath(a.session))
  }

  const KnownPaths: set<string> := {
    AuthPath, LandingPath, "/home/about", HomePath, "/home/digital-wallet",
    "/home/redeem-rewards", "/admin", AdminDashboardPath, "/admin/manage-accounts",
    "/admin/manage-products", "/barangay", BarangayDashboardPath,
    "/barangay/view-users", "/barangay/view-activities"
  }

  /** `AppRoutes`: the loading screen, or the route whose path matches;
      `/` and every unknown path redirect to the start path. The learning
      page's route is commented out, so its path is an unknown one. */
  function Resolve(a: AuthState, path: string): (v: View)
    ensures a.loading ==> v == Spinner
    ensures !a.loading && RouteKey(path) !in KnownPaths ==> v == RedirectTo(StartPath(a.session))
    ensures !a.loading && RouteKey(path) == AuthPath ==> v == Render(AuthenticationPage)
    ensures !a.loading && RouteKey(path) == LandingPath ==> v == Render(LandingPage)
  {
    if a.loading then Spinner else Route(a, RouteKey(path))
  }

  /** The catch-all route decides exactly as the root does. */
  lemma UnknownPathsActAsRoot(a: AuthState, path: string)
    requires RouteKey(path) !in KnownPaths
    ensures Resolve(a, path) == Resolve(a, "/")
  {
    assert DropTrailingSlashes("/") == [];
  }

  /** A lower-case path without a trailing slash is its own key. */
  lemma CanonicalKey(p: string)
    requires forall i :: 0 <= i < |p| ==> !('A' <= p[i] <= 'Z')
    requires p == [] || p[|p| - 1] != '/'
    ensures RouteKey(p) == p
  {
  }

  /** The redirect targets and the user pages are written in their looked-up
      form. */
  lemma TargetKeys()
    ensures RouteKey(AuthPath) == AuthPath && RouteKey(LandingPath) == LandingPath
    ensures RouteKey(HomePath) == HomePath
    ensures RouteKey(AdminDashboardPath) == AdminDashboardPath
    ensures RouteKey(BarangayDashboardPath) == BarangayDashboardPath
    ensures RouteKey("/home/digital-wallet") == "/home/digital-wallet"
    ensures RouteKey("/home/redeem-rewards") == "/home/redeem-rewards"
  {
    CanonicalKey(AuthPath);
    CanonicalKey(LandingPath);
    CanonicalKey(HomePath);
    CanonicalKey(AdminDashboardPath);
    CanonicalKey(BarangayDashboardPath);
    CanonicalKey("/home/digital-wallet");
    CanonicalKey("/home/redeem-rewards");
  }

  /** Trailing slashes are dropped the same way from a lower-cased path. */
  lemma {:induction false} DropTrailingSlashesLower(s: string)
    ensures DropTrailingSlashes(Lower(s)) == Lower(DropTrailingSlashes(s))
    decreases |s|
  {
    if s != [] {
      var init := s[..|s| - 1];
      assert Lower(s)[..|s| - 1] == Lower(init);
      if s[|s| - 1] == '/' {
        DropTrailingSlashesLower(init);
      }
    }
  }

  /** The letter case of a path and slashes at its end choose nothing:
      `/HOME/` shows what `/home` shows. */
  lemma PathsIgnoreCaseAndTrailingSlash(a: AuthState, path: string)
    ensures Resolve(a, path + "/") == Resolve(a, path)
    ensures Resolve(a, Lower(path)) == Resolve(a, path)
  {
    assert (path + "/")[..|path|] == path;
    DropTrailingSlashesLower(path);
    var d := DropTrailingSlashes(path);
    assert Lower(Lower(d)) == Lower(d);
  }

  /** The start path of every session shows a page without any further
      redirect. */
  lemma StartPathRenders(s: Session)
    ensures Resolve(AuthState(false, s), StartPath(s)).Render?
  {
    TargetKeys();
  }

  /** At most this many redirects are followed. */
  function Follow(a: AuthState, path: string, hops: nat): View
    decreases hops
  {
    var v := Resolve(a, path);
    if hops == 0 || !v.RedirectTo? then v else Follow(a, v.path, hops - 1)
  }

  /** The paths a redirect can name. */
  const Targets: set<string> := {AuthPath, LandingPath, HomePath, AdminDashboardPath, BarangayDashboardPath}

  /** Every redirect goes to one of the start pages or the sign-in page. */
  lemma RedirectTargets(a: AuthState, path: string)
    ensures Resolve(a, path).RedirectTo? ==> Resolve(a, path).path in Targets
  {
  }

  /** Home shows a page, after sending a visitor without a session to sign
      in. */
  lemma HomeSettles(a: AuthState)
    requires !a.loading
    ensures Follow(a, HomePath, 1).Render?
  {
    TargetKeys();
    assert Resolve(a, AuthPath).Render?;
  }

  /** The admin dashboard shows a page within two redirects. */
  lemma AdminDashboardSettles(a: AuthState)
    requires !a.loading
    ensures Follow(a, AdminDashboardPath, 2).Render?
  {
    TargetKeys();
    HomeSettles(a);
  }

  /** The barangay dashboard shows a page within two redirects. */
  lemma BarangayDashboardSettles(a: AuthState)
    requires !a.loading
    ensures Follow(a, BarangayDashboardPath, 2).Render?
  {
    TargetKeys();
    HomeSettles(a);
    AdminDashboardSettles(a);
    var v := Resolve(a, BarangayDashboardPath);
    if v.RedirectTo? && v.path == AdminDashboardPath {
      assert IsAdmin(a.session);
    }
  }

  /** From any of those, two redirects at most end on a page. */
  lemma TargetsSettle(a: AuthState, t: string)
    requires !a.loading && t in Targets
    ensures Follow(a, t, 2).Render?
  {
    TargetKeys();
    HomeSettles(a);
    AdminDashboardSettles(a);
    BarangayDashboardSettles(a);
  }

  /** No path sends the browser round in circles: once loading is over,
      three redirects at most end on a page. The staff pages send a
      signed-in user of another role to that role's own area or home. */
  lemma RedirectsSettle(a: AuthState, path: string)
    requires !a.loading
    ensures Follow(a, path, 3).Render?
  {
    var v := Resolve(a, path);
    RedirectTargets(a, path);
    if v.RedirectTo? {
      TargetsSettle(a, v.path);
    }
  }

  /** The wallet and rewards pages have `userOnly` off: any signed-in role
      reaches them, staff included. */
  lemma UserPagesOpenToStaff(a: AuthState)
    requires !a.loading && Authenticated(a)
    ensures Resolve(a, "/home/digital-wallet") == Render(WalletPage)
    ensures Resolve(a, "/home/redeem-rewards") == Render(RedeemPage)
  {
    TargetKeys();
  }
}

=== FILE: seqs.dfy ===
/** Sequence operations the pages perform on arrays: `filter`, counting,
    summing with `reduce`, `slice(0, n)`, distinct values, and `sort` with a
    comparator (JavaScript's `Array.prototype.sort` is stable). */
module Seqs {

  // ---------------------------------------------------------------------------
  // Filtering and counting
  // ---------------------------------------------------------------------------

  /** `s.filter(p)`: the elements satisfying `p`, in their original order. */
  function Filter<T(==,!new)>(s: seq<T>, p: T -> bool): (r: seq<T>)
    ensures |r| <= |s|
    ensures forall x :: x in r <==> x in s && p(x)
    ensures forall i :: 0 <= i < |r| ==> p(r[i])
    decreases |s|
  {
    if s == [] then []
    else
      var rest := Filter(s[1..], p);
      if p(s[0]) then [s[0]] + rest else rest
  }

  /** Filtering keeps the relative order of the elements it keeps. */
  lemma {:induction false} FilterKeepsOrder<T(!new)>(s: seq<T>, p: T -> bool)
    ensures Subseq(Filter(s, p), s)
    decreases |s|
  {
    if s != [] {
      FilterKeepsOrder(s[1..], p);
      SubseqCons(Filter(s[1..], p), s[1..], s[0]);
      assert s == [s[0]] + s[1..];
    }
  }

  /** Filtering keeps every copy of a kept element and adds nothing. */
  lemma {:induction false} FilterMultiset<T(!new)>(s: seq<T>, p: T -> bool)
    ensures multiset(Filter(s, p)) <= multiset(s)
    ensures forall x :: p(x) ==> multiset(Filter(s, p))[x] == multiset(s)[x]
    decreases |s|
  {
    if s != [] {
      FilterMultiset(s[1..], p);
      assert s == [s[0]] + s[1..];
    }
  }

  /** `r` can be obtained from `s` by deleting elements: the elements keep
      their relative order. */
  predicate Subseq<T(==)>(r: seq<T>, s: seq<T>)
    decreases |s|
  {
    if r == [] then true
    else if s == [] then false
    else if r[0] == s[0] then Subseq(r[1..], s[1..])
    else Subseq(r, s[1..])
  }

  /** The search boxes' `if (!searchTerm) return rows; return rows.filter(m)`:
      every row for the empty term, else the matching rows in their order. */
  function Search<T(==,!new)>(rows: seq<T>, term: string, m: T -> bool): (r: seq<T>)
    ensures term == "" ==> r == rows
    ensures term != "" ==> forall x :: x in r <==> x in rows && m(x)
    ensures Subseq(r, rows)
  {
    if term == "" then
      SubseqRefl(rows);
      rows
    else
      FilterKeepsOrder(rows, m);
      Filter(rows, m)
  }

  /** Every sequence is a subsequence of itself. */
  lemma {:induction false} SubseqRefl<T>(s: seq<T>)
    ensures Subseq(s, s)
    decreases |s|
  {
    if s != [] {
      SubseqRefl(s[1..]);
    }
  }

  lemma {:induction false} SubseqCons<T>(r: seq<T>, s: seq<T>, x: T)
    requires Subseq(r, s)
    ensures Subseq(r, [x] + s)
    ensures Subseq([x] + r, [x] + s)
  {
    assert ([x] + s)[1..] == s;
    assert ([x] + r)[1..] == r;
    SubseqTail(r, s, x);
  }

  lemma {:induction false} SubseqTail<T>(r: seq<T>, s: seq<T>, x: T)
    requires Subseq(r, s)
    ensures Subseq(r, [x] + s)
    decreases |s|, 1
  {
    assert ([x] + s)[1..] == s;
    if r != [] && r[0] == x {
      SubseqDropHead(r, s);
    }
  }

  lemma {:induction false} SubseqDropHead<T>(r: seq<T>, s: seq<T>)
    requires r != [] && Subseq(r, s)
    ensures Subseq(r[1..], s)
    decreases |s|, 0
  {
    assert s == [s[0]] + s[1..];
    if r[0] == s[0] {
      SubseqTail(r[1..], s[1..], s[0]);
    } else {
      SubseqDropHead(r, s[1..]);
      SubseqTail(r[1..], s[1..], s[0]);
    }
  }

  /** Filtering distributes over concatenation. */
  lemma {:induction false} FilterAppend<T(!new)>(a: seq<T>, b: seq<T>, p: T -> bool)
    ensures Filter(a + b, p) == Filter(a, p) + Filter(b, p)
    decreases |a|
  {
    if a == [] {
      assert a + b == b;
    } else {
      assert (a + b)[0] == a[0];
      assert (a + b)[1..] == a[1..] + b;
      FilterAppend(a[1..], b, p);
    }
  }

  /** A prefix one longer is the prefix extended by the next element. */
  lemma TakeSnoc<T>(s: seq<T>, n: nat)
    requires n < |s|
    ensures s[..n + 1] == s[..n] + [s[n]]
  {
  }

  /** Filtering a sequence extended by one element. */
  lemma FilterSnoc<T(!new)>(s: seq<T>, x: T, p: T -> bool)
    ensures Filter(s + [x], p) == Filter(s, p) + (if p(x) then [x] else [])
  {
    FilterAppend(s, [x], p);
    assert [x][1..] == [];
  }

  /** A filter every element passes keeps the whole sequence. */
  lemma {:induction false} FilterAll<T(!new)>(s: seq<T>, p: T -> bool)
    requires forall x :: x in s ==> p(x)
    ensures Filter(s, p) == s
    decreases |s|
  {
    if s != [] {
      FilterAll(s[1..], p);
    }
  }

  /** The number of elements satisfying `p` (`s.filter(p).length`). */
  function Count<T>(s: seq<T>, p: T -> bool): (n: nat)
    ensures n <= |s|
    ensures n == 0 <==> forall i :: 0 <= i < |s| ==> !p(s[i])
    ensures n == |s| <==> forall i :: 0 <= i < |s| ==> p(s[i])
    decreases |s|
  {
    if s == [] then 0
    else
      var c := Count(s[1..], p);
      assert forall i :: 1 <= i < |s| ==> s[i] == s[1..][i - 1];
      (if p(s[0]) then 1 else 0) + c
  }

  /** Counting is the length of the filtered sequence. */
  lemma {:induction false} CountIsFilterLength<T(!new)>(s: seq<T>, p: T -> bool)
    ensures Count(s, p) == |Filter(s, p)|
    decreases |s|
  {
    if s != [] {
      CountIsFilterLength(s[1..], p);
    }
  }

  /** A weaker predicate counts at least as many elements. */
  lemma {:induction false} CountMonotone<T>(s: seq<T>, p: T -> bool, q: T -> bool)
    requires forall x :: p(x) ==> q(x)
    ensures Count(s, p) <= Count(s, q)
    decreases |s|
  {
    if s != [] {
      CountMonotone(s[1..], p, q);
    }
  }

  /** Elements satisfying `p` and elements satisfying `q` but not `p` add up
      to the elements satisfying `p || q`. */
  lemma {:induction false} CountSplit<T>(s: seq<T>, p: T -> bool, q: T -> bool, both: T -> bool)
    requires forall x :: both(x) == (p(x) || q(x))
    requires forall x :: !(p(x) && q(x))
    ensures Count(s, both) == Count(s, p) + Count(s, q)
    decreases |s|
  {
    if s != [] {
      CountSplit(s[1..], p, q, both);
    }
  }

  /** `s.reduce((acc, x) => acc + f(x), 0)` */
  function Sum<T>(s: seq<T>, f: T -> int): int
    decreases |s|
  {
    if s == [] then 0 else f(s[0]) + Sum(s[1..], f)
  }

  lemma {:induction false} SumAppend<T>(a: seq<T>, b: seq<T>, f: T -> int)
    ensures Sum(a + b, f) == Sum(a, f) + Sum(b, f)
    decreases |a|
  {
    if a == [] {
      assert a + b == b;
    } else {
      assert (a + b)[0] == a[0];
      assert (a + b)[1..] == a[1..] + b;
      SumAppend(a[1..], b, f);
    }
  }

  /** A sum of one constant term per element. */
  lemma {:induction false} SumConst<T>(s: seq<T>, f: T -> int, c: int)
    requires forall i :: 0 <= i < |s| ==> f(s[i]) == c
    ensures Sum(s, f) == |s| * c
    decreases |s|
  {
    if s != [] {
      assert forall i :: 0 <= i < |s| - 1 ==> s[1..][i] == s[i + 1];
      SumConst(s[1..], f, c);
    }
  }

  /** A sum of non-negative terms is non-negative. */
  lemma {:induction false} SumNonNegative<T>(s: seq<T>, f: T -> int)
    requires forall i :: 0 <= i < |s| ==> f(s[i]) >= 0
    ensures Sum(s, f) >= 0
    decreases |s|
  {
    if s != [] {
      assert forall i :: 0 <= i < |s| - 1 ==> s[1..][i] == s[i + 1];
      SumNonNegative(s[1..], f);
    }
  }

  /** A sum is bounded by the sum of pointwise larger terms. */
  lemma {:induction false} SumMonotone<T>(s: seq<T>, f: T -> int, g: T -> int)
    requires forall i :: 0 <= i < |s| ==> f(s[i]) <= g(s[i])
    ensures Sum(s, f) <= Sum(s, g)
    decreases |s|
  {
    if s != [] {
      assert forall i :: 0 <= i < |s| - 1 ==> s[1..][i] == s[i + 1];
      SumMonotone(s[1..], f, g);
    }
  }

  /** A sum does not depend on the order of the summands. */
  lemma {:induction false} SumMultiset<T>(a: seq<T>, b: seq<T>, f: T -> int)
    requires multiset(a) == multiset(b)
    ensures Sum(a, f) == Sum(b, f)
    decreases |a|
  {
    if a == [] {
      assert |b| == |multiset(b)| == 0;
    } else {
      assert a[0] in multiset(b);
      var k :| 0 <= k < |b| && b[k] == a[0];
      RemoveMatching(a, b, k);
      SumMultiset(a[1..], b[..k] + b[k + 1..], f);
      SumWithout(b, k, f);
    }
  }

  /** Taking a's first element out of both sides keeps the multisets equal. */
  lemma RemoveMatching<T>(a: seq<T>, b: seq<T>, k: nat)
    requires multiset(a) == multiset(b)
    requires a != [] && k < |b| && b[k] == a[0]
    ensures multiset(b[..k] + b[k + 1..]) == multiset(a[1..])
  {
    var x := a[0];
    assert b == b[..k] + [x] + b[k + 1..];
    assert a == [x] + a[1..];
    var before, after := multiset(b[..k]), multiset(b[k + 1..]);
    assert multiset(b) == before + multiset{x} + after;
    assert multiset(b[..k] + b[k + 1..]) == before + after;
    assert multiset(a) == multiset{x} + multiset(a[1..]);
    assert before + multiset{x} + after == before + after + multiset{x};
    assert multiset(a[1..]) == multiset(a[1..]) + multiset{x} - multiset{x};
    assert before + after == before + after + multiset{x} - multiset{x};
  }

  /** The sum is one summand plus the sum of the others. */
  lemma SumWithout<T>(b: seq<T>, k: nat, f: T -> int)
    requires k < |b|
    ensures Sum(b, f) == f(b[k]) + Sum(b[..k] + b[k + 1..], f)
  {
    var pre, mid, post := b[..k], [b[k]], b[k + 1..];
    var head := pre + mid;
    assert b == head + post;
    SumAppend(head, post, f);
    SumAppend(pre, mid, f);
    SumAppend(pre, post, f);
    assert Sum(mid, f) == f(b[k]) by { assert mid[1..] == []; }
  }

  /** Summing over the elements that satisfy `p` is summing `f` where `p`
      holds and 0 elsewhere. */
  lemma {:induction false} SumFilter<T(!new)>(s: seq<T>, p: T -> bool, f: T -> int, g: T -> int)
    requires forall x :: g(x) == (if p(x) then f(x) else 0)
    ensures Sum(Filter(s, p), f) == Sum(s, g)
    decreases |s|
  {
    if s != [] {
      SumFilter(s[1..], p, f, g);
    }
  }

  /** The sum over the elements satisfying `p` plus the sum over the rest is
      the whole sum. */
  lemma {:induction false} SumPartition<T(!new)>(s: seq<T>, p: T -> bool, notP: T -> bool, f: T -> int)
    requires forall x :: notP(x) == !p(x)
    ensures Sum(Filter(s, p), f) + Sum(Filter(s, notP), f) == Sum(s, f)
    decreases |s|
  {
    if s != [] {
      SumPartition(s[1..], p, notP, f);
    }
  }

  /** A sum of non-positive terms is non-positive. */
  lemma {:induction false} SumNonPositive<T>(s: seq<T>, f: T -> int)
    requires forall i :: 0 <= i < |s| ==> f(s[i]) <= 0
    ensures Sum(s, f) <= 0
    decreases |s|
  {
    if s != [] {
      assert forall i :: 0 <= i < |s| - 1 ==> s[1..][i] == s[i + 1];
      SumNonPositive(s[1..], f);
    }
  }

  /** `s.slice(0, n)` */
  function Take<T>(s: seq<T>, n: nat): (r: seq<T>)
    ensures |r| == if n < |s| then n else |s|
    ensures r == s[..|r|]
    ensures multiset(r) <= multiset(s)
  {
    if n < |s| then
      assert s == s[..n] + s[n..];
      s[..n]
    else s
  }

  /** The position of the first occurrence of `x` (`s.indexOf(x)`). */
  function FirstIndex<T(==)>(s: seq<T>, x: T): (i: nat)
    requires x in s
    ensures i < |s| && s[i] == x
    ensures forall k :: 0 <= k < i ==> s[k] != x
  {
    if s[0] == x then 0 else 1 + FirstIndex(s[1..], x)
  }

  /** The elements of `r`, all drawn from `s`, appear in the order of their
      first occurrence in `s`. */
  predicate InFirstOrder<T(==)>(s: seq<T>, r: seq<T>)
    requires forall x :: x in r ==> x in s
  {
    forall i, j :: 0 <= i < j < |r| ==> FirstIndex(s, r[i]) < FirstIndex(s, r[j])
  }

  /** A value's first occurrence in a prefix is its first occurrence. */
  lemma FirstIndexPrefix<T>(s: seq<T>, n: nat, x: T)
    requires n <= |s| && x in s[..n]
    ensures FirstIndex(s, x) == FirstIndex(s[..n], x)
  {
    var i, j := FirstIndex(s, x), FirstIndex(s[..n], x);
    assert s[j] == s[..n][j];
    assert i <= j;
    assert s[..n][i] == s[i];
  }

  /** The distinct values of `s`, in order of first occurrence
      (`[...new Set(s)]`). */
  function Distinct<T(==,!new)>(s: seq<T>): (r: seq<T>)
    ensures forall x :: x in r <==> x in s
    ensures forall i, j :: 0 <= i < j < |r| ==> r[i] != r[j]
    ensures InFirstOrder(s, r)
    decreases |s|
  {
    if s == [] then []
    else
      var init := s[..|s| - 1];
      var last := s[|s| - 1];
      var rest := Distinct(init);
      assert forall x :: x in s <==> x in init || x == last;
      forall x | x in init
        ensures FirstIndex(s, x) == FirstIndex(init, x)
      {
        FirstIndexPrefix(s, |s| - 1, x);
      }
      if last in rest then rest
      else
        assert FirstIndex(s, last) == |s| - 1;
        rest + [last]
  }

  /** Filtering keeps the order of first occurrences. */
  lemma {:induction false} FilterKeepsFirstOrder<T(!new)>(s: seq<T>, p: T -> bool, x: T, y: T)
    requires x in Filter(s, p) && y in Filter(s, p)
    requires FirstIndex(Filter(s, p), x) < FirstIndex(Filter(s, p), y)
    ensures FirstIndex(s, x) < FirstIndex(s, y)
    decreases |s|
  {
    var rest := Filter(s[1..], p);
    if p(s[0]) {
      assert Filter(s, p) == [s[0]] + rest;
      if x != s[0] && y != s[0] {
        assert ([s[0]] + rest)[1..] == rest;
        FilterKeepsFirstOrder(s[1..], p, x, y);
      }
    } else {
      assert Filter(s, p) == rest;
      FilterKeepsFirstOrder(s[1..], p, x, y);
    }
  }

  /** The distinct kept elements keep the order of their first appearance
      in the unfiltered sequence. */
  lemma DistinctFilterFirstOrder<T(!new)>(s: seq<T>, p: T -> bool)
    ensures InFirstOrder(s, Distinct(Filter(s, p)))
  {
    var r := Distinct(Filter(s, p));
    forall i, j | 0 <= i < j < |r|
      ensures FirstIndex(s, r[i]) < FirstIndex(s, r[j])
    {
      FilterKeepsFirstOrder(s, p, r[i], r[j]);
    }
  }

  // ---------------------------------------------------------------------------
  // Sorting with a comparator
  // ---------------------------------------------------------------------------

  /** `le(a, b)` means "a may come before b": a total preorder, which is what a
      consistent JavaScript comparator describes. */
  ghost predicate TotalPreorder<T(!new)>(le: (T, T) -> bool) {
    && (forall a, b :: le(a, b) || le(b, a))
    && (forall a, b, c :: le(a, b) && le(b, c) ==> le(a, c))
  }

  predicate Sorted<T>(s: seq<T>, le: (T, T) -> bool) {
    forall i, j :: 0 <= i < j < |s| ==> le(s[i], s[j])
  }

  /** Inserts `x` after every element it may not precede. */
  function Insert<T(!new)>(x: T, s: seq<T>, le: (T, T) -> bool): (r: seq<T>)
    requires TotalPreorder(le)
    requires Sorted(s, le)
    ensures Sorted(r, le)
    ensures multiset(r) == multiset(s) + multiset{x}
    ensures |r| == |s| + 1
    decreases |s|
  {
    if s == [] then [x]
    else if le(s[0], x) then
      var rest := Insert(x, s[1..], le);
      InsertBehindHead(x, s, rest, le);
      [s[0]] + rest
    else
      InsertInFront(x, s, le);
      [x] + s
  }

  /** The step of `Insert` that keeps the head in front. */
  lemma InsertBehindHead<T(!new)>(x: T, s: seq<T>, rest: seq<T>, le: (T, T) -> bool)
    requires s != [] && Sorted(s, le) && le(s[0], x)
    requires Sorted(rest, le) && multiset(rest) == multiset(s[1..]) + multiset{x}
    ensures Sorted([s[0]] + rest, le)
    ensures multiset([s[0]] + rest) == multiset(s) + multiset{x}
  {
    assert s == [s[0]] + s[1..];
    HeadPrecedesInserted(x, s, rest, le);
    SortedCons(s[0], rest, le);
  }

  /** The step of `Insert` that puts `x` first. */
  lemma InsertInFront<T(!new)>(x: T, s: seq<T>, le: (T, T) -> bool)
    requires TotalPreorder(le) && s != [] && Sorted(s, le) && !le(s[0], x)
    ensures Sorted([x] + s, le)
  {
    assert le(x, s[0]);
    forall k | 0 <= k < |s|
      ensures le(x, s[k])
    {
      if k > 0 {
        assert le(s[0], s[k]);
      }
    }
    SortedCons(x, s, le);
  }

  lemma HeadPrecedesInserted<T(!new)>(x: T, s: seq<T>, rest: seq<T>, le: (T, T) -> bool)
    requires s != [] && Sorted(s, le) && le(s[0], x)
    requires multiset(rest) == multiset(s[1..]) + multiset{x}
    ensures forall k :: 0 <= k < |rest| ==> le(s[0], rest[k])
  {
    forall k | 0 <= k < |rest|
      ensures le(s[0], rest[k])
    {
      var y := rest[k];
      assert y in multiset(rest);
      if y != x {
        assert y in multiset(s[1..]);
        var m :| 0 <= m < |s| - 1 && s[1..][m] == y;
        assert s[m + 1] == y;
      }
    }
  }

  lemma SortedCons<T>(h: T, t: seq<T>, le: (T, T) -> bool)
    requires Sorted(t, le)
    requires forall k :: 0 <= k < |t| ==> le(h, t[k])
    ensures Sorted([h] + t, le)
  {
    var r := [h] + t;
    forall i, j | 0 <= i < j < |r|
      ensures le(r[i], r[j])
    {
      assert r[j] == t[j - 1];
      if i > 0 {
        assert r[i] == t[i - 1];
      }
    }
  }

  /** `s.sort(cmp)`: insertion sort, which keeps equal elements in their
      original order as the stable JavaScript sort does. */
  function Sort<T(!new)>(s: seq<T>, le: (T, T) -> bool): (r: seq<T>)
    requires TotalPreorder(le)
    ensures Sorted(r, le)
    ensures multiset(r) == multiset(s)
    ensures |r| == |s|
    decreases |s|
  {
    if s == [] then []
    else
      assert s == s[..|s| - 1] + [s[|s| - 1]];
      Insert(s[|s| - 1], Sort(s[..|s| - 1], le), le)
  }

  /** The comparator `(a, b) => key(b) - key(a)`: larger keys first. */
  function ByKeyDesc<T(!new)>(key: T -> int): (le: (T, T) -> bool)
    ensures forall a, b :: le(a, b) == (key(a) >= key(b))
  {
    (a, b) => key(a) >= key(b)
  }

  lemma ByKeyDescIsPreorder<T(!new)>(key: T -> int)
    ensures TotalPreorder(ByKeyDesc(key))
  {
  }

  /** Sorting by a numeric key, largest first. */
  function SortDesc<T(!new)>(s: seq<T>, key: T -> int): (r: seq<T>)
    ensures multiset(r) == multiset(s)
    ensures |r| == |s|
    ensures forall i, j :: 0 <= i < j < |r| ==> key(r[i]) >= key(r[j])
  {
    ByKeyDescIsPreorder(key);
    Sort(s, ByKeyDesc(key))
  }

  /** `SortDesc(s, key).slice(0, n)` is a top-`n` list: every element left
      out has a key no larger than any element kept. */
  lemma TopOfSortDesc<T(!new)>(s: seq<T>, key: T -> int, n: nat)
    ensures var r := Take(SortDesc(s, key), n);
      forall x, i :: x in s && x !in r && 0 <= i < |r| ==> key(r[i]) >= key(x)
  {
    var sorted := SortDesc(s, key);
    var r := Take(sorted, n);
    MultisetMembers(s, sorted);
    forall x, i | x in s && x !in r && 0 <= i < |r|
      ensures key(r[i]) >= key(x)
    {
      var j :| 0 <= j < |sorted| && sorted[j] == x;
      assert j >= |r|;
    }
  }

  /** The `n` elements with the largest keys, largest first: sort, then
      cut. */
  function TopK<T(!new)>(s: seq<T>, key: T -> int, n: nat): (r: seq<T>)
    ensures |r| == if |s| < n then |s| else n
    ensures multiset(r) <= multiset(s)
    ensures forall x :: x in r ==> x in s
    ensures forall i, j :: 0 <= i < j < |r| ==> key(r[i]) >= key(r[j])
    ensures |s| <= n ==> multiset(r) == multiset(s)
  {
    var sorted := SortDesc(s, key);
    MultisetMembers(sorted, s);
    Take(sorted, n)
  }

  /** No element left out of a top-`n` list has a larger key than one kept. */
  lemma TopKIsTop<T(!new)>(s: seq<T>, key: T -> int, n: nat)
    ensures var r := TopK(s, key, n);
      forall x, i :: x in s && x !in r && 0 <= i < |r| ==> key(r[i]) >= key(x)
  {
    TopOfSortDesc(s, key, n);
  }

  /** Membership carries over a multiset equality. */
  lemma MultisetMembers<T>(a: seq<T>, b: seq<T>)
    requires multiset(a) == multiset(b)
    ensures forall x :: x in a <==> x in b
  {
    forall x
      ensures x in a <==> x in b
    {
      assert x in a <==> x in multiset(a);
      assert x in b <==> x in multiset(b);
    }
  }
}

=== FILE: settings.dfy ===
/** The settings dialog: the profile tab (username and address) and the
    password tab, with its five checks in the order the dialog applies
    them. */
module Settings {
  import opened Wrappers
  import opened Text
  import opened Tables
  import opened Store
  import opened Auth

  datatype SettingsForm = SettingsForm(
    username: string,
    email: string,
    address: string,
    currentPassword: string,
    newPassword: string,
    confirmPassword: string
  )

  /** The form after the dialog closes: every field cleared. */
  const ClosedForm := SettingsForm("", "", "", "", "", "")

  /** Opening the dialog copies the profile fields from the session and
      keeps whatever the password fields held. */
  function OpenForm(prev: SettingsForm, u: SessionUser): (f: SettingsForm)
    ensures f.username == u.username && f.email == u.email && f.address == u.address
    ensures f.currentPassword == prev.currentPassword && f.newPassword == prev.newPassword
    ensures f.confirmPassword == prev.confirmPassword
  {
    prev.(username := u.username, email := u.email, address := u.address)
  }

  /** A notification: success or error, and its text. */
  datatype Notice = Notice(success: bool, message: string)

  // ---------------------------------------------------------------------------
  // The profile tab
  // ---------------------------------------------------------------------------

  const UsernameRequired := "Username is required"
  const ProfileSaved := "Profile updated successfully!"

  /** The change the profile tab sends: trimmed username and address, and
      never the email. */
  function ProfileRequest(f: SettingsForm): (r: Result<ProfileChange>)
    ensures r.Err? <==> forall i :: 0 <= i < |f.username| ==> IsSpace(f.username[i])
    ensures r.Err? ==> r.msg == UsernameRequired
    ensures r.Ok? ==> r.value == ProfileChange(Some(Trim(f.username)), Some(Trim(f.address)), None)
    ensures r.Ok? ==> r.value.username.value != ""
  {
    if Trim(f.username) == "" then Err(UsernameRequired)
    else Ok(ProfileChange(Some(Trim(f.username)), Some(Trim(f.address)), None))
  }

  /** A username of one no-break space is blank to `trim()`, so it is
      refused. */
  lemma NoBreakSpaceUsernameRefused(f: SettingsForm)
    requires f.username == "\U{00A0}"
    ensures ProfileRequest(f) == Err(UsernameRequired)
  {
    assert IsSpace(f.username[0]);
  }

  datatype Saved = Saved(db: Db, session: Session, notice: Notice)

  /** `handleProfileUpdate`: a blank username is refused before anything is
      written; otherwise the trimmed fields go to the account and the
      session. */
  function SaveProfile(db: Db, s: Session, f: SettingsForm): (r: Saved)
    ensures !r.notice.success ==> r.db == db && r.session == s
    ensures r.notice.success <==> ProfileRequest(f).Ok? && UpdateUserProfile(db, s, ProfileRequest(f).value).Ok?
    ensures r.notice.success ==>
      && r.notice.message == ProfileSaved
      && r.session.Some? && r.session.value.username == Trim(f.username)
      && r.session.value.address == Trim(f.address)
      && r.db.AccountAt(s.value.category, s.value.userID).username == Trim(f.username)
    ensures ProfileRequest(f).Err? ==> r.notice == Notice(false, UsernameRequired)
  {
    match ProfileRequest(f)
    case Err(m) => Saved(db, s, Notice(false, m))
    case Ok(ch) =>
      match UpdateUserProfile(db, s, ch)
      case Err(m) => Saved(db, s, Notice(false, m))
      case Ok(u) => Saved(u.db, Some(u.session), Notice(true, ProfileSaved))
  }

  // ---------------------------------------------------------------------------
  // The password tab
  // ---------------------------------------------------------------------------

  const FieldsRequired := "All password fields are required"
  const WrongPassword := "Current password is incorrect"
  const TooShort := "New password must be at least 6 characters long"
  const Mismatch := "New passwords do not match"
  const Unchanged := "New password must be different from current password"
  const PasswordSaved := "Password updated successfully!"

  const MinPasswordLength := 6

  /** The four checks after the comparison with the current password, in
      order. */
  function LaterChecks(f: SettingsForm): Option<string> {
    if |f.newPassword| < MinPasswordLength then Some(TooShort)
    else if f.newPassword != f.confirmPassword then Some(Mismatch)
    else if f.newPassword == f.currentPassword then Some(Unchanged)
    else None
  }

  predicate AllFilled(f: SettingsForm) {
    f.currentPassword != "" && f.newPassword != "" && f.confirmPassword != ""
  }

  /** The checks as the dialog writes them: the current password is
      compared with the session's `password` field, which holds a value
      only after a refresh or a password change in this session. */
  function CheckPasswordAsWritten(u: SessionUser, f: SettingsForm): (r: Option<string>)
    ensures !AllFilled(f) ==> r == Some(FieldsRequired)
    ensures AllFilled(f) && u.password != Some(f.currentPassword) ==> r == Some(WrongPassword)
  {
    if !AllFilled(f) then Some(FieldsRequired)
    else if u.password != Some(f.currentPassword) then Some(WrongPassword)
    else LaterChecks(f)
  }

  /** For every session that login or registration creates, the dialog
      refuses every filled-in form as having the wrong current password,
      whatever the stored password is. */
  lemma SessionPasswordAlwaysRefused(db: Db, email: string, password: string, f: SettingsForm)
    requires AllFilled(f)
    requires Login(db, email, password).LoggedIn?
    ensures CheckPasswordAsWritten(Login(db, email, password).user, f) == Some(WrongPassword)
  {
    FreshSessionsHaveNoPassword(db, email, password, "", "", "", 0);
  }

  /** A user with stored password `secret1`, signed in with it, asks to
      change it to `secret2`: the dialog as written says the current
      password is incorrect; checked against the stored account it is
      accepted. */
  lemma WrongPasswordCounterexample()
    ensures var acc := EmptyAccount.(email := "a@b.c", password := "secret1");
      var db := Db([Entry("u1", acc)], [], [], []);
      var f := SettingsForm("", "", "", "secret1", "secret2", "secret2");
      var l := Login(db, "a@b.c", "secret1");
      && l.LoggedIn?
      && CheckPasswordAsWritten(l.user, f) == Some(WrongPassword)
      && CheckPassword(db.AccountAt(l.user.category, l.user.userID).password, f) == None
  {
    var acc := EmptyAccount.(email := "a@b.c", password := "secret1");
    var db := Db([Entry("u1", acc)], [], [], []);
    assert FirstMatch(db.users, "a@b.c", "secret1") == Some(Entry("u1", acc));
    var l := Login(db, "a@b.c", "secret1");
    assert l.user.userID == "u1" && l.user.category == UsersTable && l.user.password == None;
    assert db.AccountAt(UsersTable, "u1") == acc;
  }

  /** The evident intent: the same checks, against the password stored in
      the account. */
  function CheckPassword(stored: string, f: SettingsForm): (r: Option<string>)
    ensures r == None <==>
      && AllFilled(f) && f.currentPassword == stored
      && |f.newPassword| >= MinPasswordLength && f.newPassword == f.confirmPassword
      && f.newPassword != f.currentPassword
    ensures !AllFilled(f) ==> r == Some(FieldsRequired)
    ensures AllFilled(f) && f.currentPassword != stored ==> r == Some(WrongPassword)
  {
    if !AllFilled(f) then Some(FieldsRequired)
    else if f.currentPassword != stored then Some(WrongPassword)
    else LaterChecks(f)
  }

  /** Once the session does carry the stored password, the dialog as
      written and the corrected check agree. */
  lemma AsWrittenAgreesAfterRefresh(u: SessionUser, stored: string, f: SettingsForm)
    requires u.password == Some(stored)
    ensures CheckPasswordAsWritten(u, f) == CheckPassword(stored, f)
  {
  }

  /** `handlePasswordUpdate`, checked against the stored account: on success
      the new password is written to the account and the session, and the
      three password fields are cleared. */
  function ChangePassword(db: Db, u: SessionUser, f: SettingsForm): (r: (Saved, SettingsForm))
    ensures var stored := db.AccountAt(u.category, u.userID).password;
      CheckPassword(stored, f).Some? ==>
        r.0 == Saved(db, Some(u), Notice(false, CheckPassword(stored, f).value)) && r.1 == f
    ensures r.0.notice.success ==>
      && r.0.notice.message == PasswordSaved
      && r.0.db.AccountAt(u.category, u.userID) ==
           db.AccountAt(u.category, u.userID).(password := f.newPassword)
      && r.0.session == Some(u.(password := Some(f.newPassword)))
      && r.1 == f.(currentPassword := "", newPassword := "", confirmPassword := "")
    ensures r.0.notice.success <==> CheckPassword(db.AccountAt(u.category, u.userID).password, f).None? && u.userID != ""
  {
    match CheckPassword(db.AccountAt(u.category, u.userID).password, f)
    case Some(m) => (Saved(db, Some(u), Notice(false, m)), f)
    case None =>
      match UpdateUserProfile(db, Some(u), ProfileChange(None, None, Some(f.newPassword)))
      case Err(m) => (Saved(db, Some(u), Notice(false, m)), f)
      case Ok(p) =>
        (Saved(p.db, Some(p.session), Notice(true, PasswordSaved)),
         f.(currentPassword := "", newPassword := "", confirmPassword := ""))
  }

  /** After a successful change, the account's email and the new password
      sign in, and a second change from the same filled form is refused:
      its current password is no longer the stored one. */
  lemma ChangedPasswordSignsIn(db: Db, u: SessionUser, f: SettingsForm)
    requires ChangePassword(db, u, f).0.notice.success
    ensures var db' := ChangePassword(db, u, f).0.db;
      && Login(db', db.AccountAt(u.category, u.userID).email, f.newPassword).LoggedIn?
      && CheckPassword(db'.AccountAt(u.category, u.userID).password, f) == Some(WrongPassword)
  {
    var db' := ChangePassword(db, u, f).0.db;
    assert db'.AccountAt(u.category, u.userID).email == db.AccountAt(u.category, u.userID).email;
    assert HasKey(db'.TableOf(u.category), u.userID);
    StoredAccountSignsIn(db', u.category, u.userID);
  }
}

=== FILE: store.dfy ===
/** The realtime database as one immutable snapshot: three account tables
    (`Users`, `Admins`, `Barangay`) and the `products` catalogue. A regular
    user's node also holds its `activities` log and its `achievements`.

    A field the JavaScript code reads with `|| ''` or `|| 0` is stored here
    already defaulted: the empty string or 0 stands for a missing value. */
module Store {
  import opened Wrappers
  import opened Tables

  // ---------------------------------------------------------------------------
  // Activities
  // ---------------------------------------------------------------------------

  datatype MetaValue = Num(n: int) | Str(s: string)

  /** Free-form `metadata` attached to an activity. */
  type Metadata = map<string, MetaValue>

  /** One entry of `Users/<id>/activities`. Times are milliseconds since the
      epoch (the code stores ISO strings of the same instants). */
  datatype Activity = Activity(
    kind: string,               // the `type` field
    title: string,
    description: string,
    pointsEarned: int,          // positive when earned, negative when spent
    category: Option<string>,   // `null` when none was given
    metadata: Metadata,
    timestamp: int,
    createdAt: int
  )

  // ---------------------------------------------------------------------------
  // Achievements
  // ---------------------------------------------------------------------------

  /** The eight keys of `ACHIEVEMENT_TYPES`. */
  datatype AchievementType =
    | EcoWarrior | SmartSpender | RecyclingMaster | LearningEnthusiast
    | StreakChampion | CommunityHelper | GreenPioneer | ConsistencyKing

  /** The metric an achievement watches and the value that unlocks it. */
  datatype Criteria = Criteria(metric: string, threshold: int)

  datatype Rewards = Rewards(points: int, badge: string)

  datatype Progress = Progress(current: int, target: int, percentage: real)

  /** One entry of `Users/<id>/achievements`; `unlockedAt` and `rewards` are
      present only in records written while unlocked. */
  datatype AchievementRecord = AchievementRecord(
    achievementID: string,
    title: string,
    description: string,
    icon: string,
    progress: Progress,
    criteria: Criteria,
    isUnlocked: bool,
    unlockedAt: Option<int>,
    rewards: Option<Rewards>
  )

  // ---------------------------------------------------------------------------
  // Accounts
  // ---------------------------------------------------------------------------

  /** A node of one of the three account tables. */
  datatype Account = Account(
    username: string,
    email: string,
    password: string,
    usertype: string,
    points: int,
    address: string,
    createdAt: Option<int>,
    updatedAt: Option<int>,
    qrCode: string,             // a QR image data URL, "" when none was saved
    qrCodeUpdatedAt: Option<int>,
    activities: Table<Activity>,
    achievements: map<AchievementType, AchievementRecord>
  )

  /** The node a write under a not-yet-existing account path creates. */
  const EmptyAccount := Account("", "", "", "", 0, "", None, None, "", None, [], map[])

  /** The three account tables, in the order the code searches them. */
  datatype Category = UsersTable | AdminsTable | BarangayTable {
    /** The table's name, which is also the session's `category`. */
    function Name(): string {
      match this
      case UsersTable => "Users"
      case AdminsTable => "Admins"
      case BarangayTable => "Barangay"
    }
  }

  // ---------------------------------------------------------------------------
  // Products
  // ---------------------------------------------------------------------------

  datatype Product = Product(
    name: string,
    description: string,
    pointsRequired: int,
    image: string,
    category: string,
    stock: int,
    isActive: Option<bool>,     // `undefined` for products written without the flag
    createdAt: Option<int>,
    updatedAt: Option<int>
  )

  // ---------------------------------------------------------------------------
  // The whole database
  // ---------------------------------------------------------------------------

  datatype Db = Db(
    users: Table<Account>,
    admins: Table<Account>,
    barangay: Table<Account>,
    products: Table<Product>
  ) {

    function TableOf(c: Category): Table<Account> {
      match c
      case UsersTable => users
      case AdminsTable => admins
      case BarangayTable => barangay
    }

    function WithTable(c: Category, t: Table<Account>): (d: Db)
      ensures d.TableOf(c) == t
      ensures forall c' :: c' != c ==> d.TableOf(c') == TableOf(c')
      ensures d.products == products
    {
      match c
      case UsersTable => this.(users := t)
      case AdminsTable => this.(admins := t)
      case BarangayTable => this.(barangay := t)
    }

    /** The account at `<c>/<id>`, or the empty node a write there would
        create. */
    function AccountAt(c: Category, id: string): Account {
      Find(TableOf(c), id).GetOr(EmptyAccount)
    }

    /** Writes `a` as the account at `<c>/<id>`: `set` on that path, or an
        `update` whose fields, merged into the existing node, give `a`. The
        node is created when absent. */
    function WithAccount(c: Category, id: string, a: Account): (d: Db)
      ensures Find(d.TableOf(c), id) == Some(a)
      ensures d.AccountAt(c, id) == a
      ensures forall other :: other != id ==> Find(d.TableOf(c), other) == Find(TableOf(c), other)
      ensures forall c' :: c' != c ==> d.TableOf(c') == TableOf(c')
      ensures d.products == products
    {
      WithTable(c, Set(TableOf(c), id, a))
    }
  }
}

=== FILE: tables.dfy ===
/** A realtime-database node with keyed children, as an ordered list of
    (key, value) entries. Children are listed in key order, and `push` keys
    are chronological, so a pushed child goes to the end. */
module Tables {
  import opened Wrappers

  datatype Entry<T> = Entry(key: string, value: T)

  type Table<T> = seq<Entry<T>>

  function Keys<T>(t: Table<T>): (ks: seq<string>)
    ensures |ks| == |t|
    ensures forall i :: 0 <= i < |t| ==> ks[i] == t[i].key
  {
    seq(|t|, i requires 0 <= i < |t| => t[i].key)
  }

  function Values<T>(t: Table<T>): (vs: seq<T>)
    ensures |vs| == |t|
    ensures forall i :: 0 <= i < |t| ==> vs[i] == t[i].value
  {
    seq(|t|, i requires 0 <= i < |t| => t[i].value)
  }

  predicate HasKey<T>(t: Table<T>, key: string) {
    exists i :: 0 <= i < |t| && t[i].key == key
  }

  /** Keys are unique, as children of one node are. */
  predicate UniqueKeys<T>(t: Table<T>) {
    forall i, j :: 0 <= i < j < |t| ==> t[i].key != t[j].key
  }

  /** The value stored under `key`, if any (`get(child(ref, key))`). */
  function Find<T>(t: Table<T>, key: string): (r: Option<T>)
    ensures r.Some? <==> HasKey(t, key)
    ensures r.Some? ==> exists i :: 0 <= i < |t| && t[i] == Entry(key, r.value)
    decreases |t|
  {
    if t == [] then None
    else if t[0].key == key then Some(t[0].value)
    else
      var r := Find(t[1..], key);
      assert forall i :: 1 <= i < |t| ==> t[i] == t[1..][i - 1];
      assert HasKey(t[1..], key) ==> HasKey(t, key) by {
        if HasKey(t[1..], key) {
          var i :| 0 <= i < |t| - 1 && t[1..][i].key == key;
          assert t[i + 1].key == key;
        }
      }
      r
  }

  function MaxKeyLen<T>(t: Table<T>): (n: nat)
    ensures forall i :: 0 <= i < |t| ==> |t[i].key| <= n
    decreases |t|
  {
    if t == [] then 0
    else
      var m := MaxKeyLen(t[1..]);
      assert forall i :: 1 <= i < |t| ==> t[i] == t[1..][i - 1];
      if |t[0].key| > m then |t[0].key| else m
  }

  /** A key no child uses yet: the role of a generated push id. */
  function FreshKey<T>(t: Table<T>): (k: string)
    ensures k != ""
    ensures !HasKey(t, k)
  {
    seq(MaxKeyLen(t) + 1, _ => '-')
  }

  /** `push(ref, v)`: appends `v` under a fresh key and returns that key. */
  function Push<T>(t: Table<T>, v: T): (r: (Table<T>, string))
    ensures r.0 == t + [Entry(r.1, v)]
    ensures r.1 != "" && !HasKey(t, r.1)
    ensures UniqueKeys(t) ==> UniqueKeys(r.0)
    ensures Find(r.0, r.1) == Some(v)
    ensures forall other :: other != r.1 ==> Find(r.0, other) == Find(t, other)
  {
    var k := FreshKey(t);
    var t' := t + [Entry(k, v)];
    FindAppendFresh(t, k, v);
    assert forall other :: other != k ==> Find(t', other) == Find(t, other) by {
      forall other | other != k
        ensures Find(t', other) == Find(t, other)
      {
        FindAppendOther(t, k, v, other);
      }
    }
    (t', k)
  }

  lemma {:induction false} FindAppendFresh<T>(t: Table<T>, k: string, v: T)
    requires !HasKey(t, k)
    ensures Find(t + [Entry(k, v)], k) == Some(v)
    decreases |t|
  {
    if t != [] {
      assert (t + [Entry(k, v)])[1..] == t[1..] + [Entry(k, v)];
      assert forall i :: 0 <= i < |t| - 1 ==> t[1..][i] == t[i + 1];
      FindAppendFresh(t[1..], k, v);
    }
  }

  /** Appending a child under one key leaves every other key's lookup as it was. */
  lemma {:induction false} FindAppendOther<T>(t: Table<T>, k: string, v: T, other: string)
    requires other != k
    ensures Find(t + [Entry(k, v)], other) == Find(t, other)
    decreases |t|
  {
    if t != [] {
      assert (t + [Entry(k, v)])[1..] == t[1..] + [Entry(k, v)];
      FindAppendOther(t[1..], k, v, other);
    }
  }

  /** `set(child(ref, key), v)`: replaces the child under `key`, or adds it at
      the end when absent. */
  function Set<T>(t: Table<T>, key: string, v: T): (r: Table<T>)
    ensures Find(r, key) == Some(v)
    ensures forall other :: other != key ==> Find(r, other) == Find(t, other)
    ensures HasKey(t, key) ==> |r| == |t|
    ensures !HasKey(t, key) ==> r == t + [Entry(key, v)]
  {
    if HasKey(t, key) then
      var r := Replace(t, key, v);
      FindReplace(t, key, v, key);
      forall other | other != key
        ensures Find(r, other) == Find(t, other)
      {
        FindReplace(t, key, v, other);
      }
      r
    else
      FindAppendFresh(t, key, v);
      forall other | other != key
        ensures Find(t + [Entry(key, v)], other) == Find(t, other)
      {
        FindAppendOther(t, key, v, other);
      }
      t + [Entry(key, v)]
  }

  /** Replaces the value of every child under `key`. */
  function Replace<T>(t: Table<T>, key: string, v: T): (r: Table<T>)
    ensures |r| == |t|
    ensures forall i :: 0 <= i < |t| ==> r[i].key == t[i].key
    ensures forall i :: 0 <= i < |t| ==> r[i].value == if t[i].key == key then v else t[i].value
    decreases |t|
  {
    if t == [] then []
    else
      var head := if t[0].key == key then Entry(key, v) else t[0];
      [head] + Replace(t[1..], key, v)
  }

  /** A key is present in a non-empty table exactly when it is the first
      child's or present in the rest. */
  lemma HasKeyCons<T>(t: Table<T>, key: string)
    requires t != []
    ensures HasKey(t, key) <==> t[0].key == key || HasKey(t[1..], key)
  {
    if HasKey(t, key) && t[0].key != key {
      var i :| 0 <= i < |t| && t[i].key == key;
      assert t[1..][i - 1].key == key;
    }
    if HasKey(t[1..], key) {
      var i :| 0 <= i < |t| - 1 && t[1..][i].key == key;
      assert t[i + 1].key == key;
    }
  }

  /** Lookups after a replacement: the new value under `key` when it was
      present, the old answer for every other key. */
  lemma {:induction false} FindReplace<T>(t: Table<T>, key: string, v: T, other: string)
    ensures Find(Replace(t, key, v), other) ==
            if other == key && HasKey(t, key) then Some(v) else Find(t, other)
    decreases |t|
  {
    if t != [] {
      var r := Replace(t, key, v);
      assert r[1..] == Replace(t[1..], key, v);
      FindReplace(t[1..], key, v, other);
      HasKeyCons(t, key);
    }
  }

  /** `remove(child(ref, key))`: drops the child under `key`. */
  function Remove<T(==,!new)>(t: Table<T>, key: string): (r: Table<T>)
    ensures |r| <= |t|
    ensures !HasKey(r, key)
    ensures forall other :: other != key ==> Find(r, other) == Find(t, other)
    ensures forall e :: e in r <==> e in t && e.key != key
    decreases |t|
  {
    if t == [] then []
    else
      var rest := Remove(t[1..], key);
      assert forall e :: e in t <==> e == t[0] || e in t[1..];
      if t[0].key == key then rest
      else
        var r := [t[0]] + rest;
        assert r[1..] == rest;
        assert forall i :: 1 <= i < |r| ==> r[i] == rest[i - 1];
        r
  }
}

=== FILE: text.dfy ===
/** The handful of JavaScript string operations the application relies on:
    `toLowerCase`/`toUpperCase` (on ASCII letters), `includes`, `trim`,
    `split(' ')`, number-to-string conversion and `parseInt`. */
module Text {
  import opened Wrappers

  // ---------------------------------------------------------------------------
  // Case mapping (ASCII letters only)
  // ---------------------------------------------------------------------------

  function LowerChar(c: char): char {
    if 'A' <= c <= 'Z' then (c as int + 32) as char else c
  }

  function UpperChar(c: char): char {
    if 'a' <= c <= 'z' then (c as int - 32) as char else c
  }

  /** `s.toLowerCase()` */
  function Lower(s: string): (r: string)
    ensures |r| == |s|
    ensures forall i :: 0 <= i < |s| ==> r[i] == LowerChar(s[i])
  {
    seq(|s|, i requires 0 <= i < |s| => LowerChar(s[i]))
  }

  /** `s.toUpperCase()` */
  function Upper(s: string): (r: string)
    ensures |r| == |s|
    ensures forall i :: 0 <= i < |s| ==> r[i] == UpperChar(s[i])
  {
    seq(|s|, i requires 0 <= i < |s| => UpperChar(s[i]))
  }

  // ---------------------------------------------------------------------------
  // Substring search
  // ---------------------------------------------------------------------------

  /** `t` occurs in `s` starting at index `i`. */
  predicate OccursAt(s: string, t: string, i: int) {
    0 <= i && i + |t| <= |s| && s[i..i + |t|] == t
  }

  /** `s.includes(t)` */
  predicate Contains(s: string, t: string)
    decreases |s|
  {
    (|t| <= |s| && s[..|t|] == t) || (|s| > 0 && Contains(s[1..], t))
  }

  lemma {:induction false} ContainsIff(s: string, t: string)
    ensures Contains(s, t) <==> exists i :: OccursAt(s, t, i)
    decreases |s|
  {
    if |t| <= |s| && s[..|t|] == t {
      assert OccursAt(s, t, 0);
    } else if |s| > 0 {
      ContainsIff(s[1..], t);
      if Contains(s[1..], t) {
        var i :| OccursAt(s[1..], t, i);
        assert s[1..][i..i + |t|] == s[i + 1..i + 1 + |t|];
        assert OccursAt(s, t, i + 1);
      }
      if exists i :: OccursAt(s, t, i) {
        var i :| OccursAt(s, t, i);
        if i != 0 {
          assert s[1..][i - 1..i - 1 + |t|] == s[i..i + |t|];
          assert OccursAt(s[1..], t, i - 1);
        }
      }
    }
  }

  /** Every string contains the empty string, as `"abc".includes("")` is true. */
  lemma ContainsEmpty(s: string)
    ensures Contains(s, "")
  {
    assert s[..0] == "";
  }

  /** Containment is transitive: a string containing `b` contains every
      string `b` contains. */
  lemma ContainsTrans(a: string, b: string, c: string)
    requires Contains(a, b) && Contains(b, c)
    ensures Contains(a, c)
  {
    ContainsIff(a, b);
    ContainsIff(b, c);
    var i :| OccursAt(a, b, i);
    var j :| OccursAt(b, c, j);
    forall k | 0 <= k < |c|
      ensures a[i + j + k] == c[k]
    {
      assert a[i..i + |b|][j + k] == b[j + k];
      assert b[j..j + |c|][k] == c[k];
    }
    assert a[i + j..i + j + |c|] == c;
    assert OccursAt(a, c, i + j);
    ContainsIff(a, c);
  }

  /** Case-insensitive search as the pages write it:
      `s.toLowerCase().includes(term.toLowerCase())`. */
  predicate ContainsCI(s: string, term: string) {
    Contains(Lower(s), Lower(term))
  }

  /** The guard `field && field.toLowerCase().includes(termLower)`: an empty or
      missing field never matches, not even the empty term. */
  predicate FieldMatches(field: string, term: string) {
    field != "" && ContainsCI(field, term)
  }

  // ---------------------------------------------------------------------------
  // Whitespace trimming
  // ---------------------------------------------------------------------------

  /** The characters `trim()` and `parseInt` skip: white space (tab,
      vertical tab, form feed, the byte order mark and every space separator)
      and the line terminators, as ECMAScript defines them. */
  predicate IsSpace(c: char) {
    || c == '\t' || c == '\n' || c == '\U{000B}' || c == '\U{000C}' || c == '\r'
    || c == ' ' || c == '\U{00A0}' || c == '\U{1680}'
    || ('\U{2000}' <= c <= '\U{200A}')
    || c == '\U{2028}' || c == '\U{2029}' || c == '\U{202F}' || c == '\U{205F}'
    || c == '\U{3000}' || c == '\U{FEFF}'
  }

  function TrimStart(s: string): (r: string)
    ensures |r| <= |s| && r == s[|s| - |r|..]
    ensures r == "" || !IsSpace(r[0])
    ensures forall i :: 0 <= i < |s| - |r| ==> IsSpace(s[i])
    decreases |s|
  {
    if |s| > 0 && IsSpace(s[0]) then TrimStart(s[1..]) else s
  }

  function TrimEnd(s: string): (r: string)
    ensures |r| <= |s| && r == s[..|r|]
    ensures r == "" || !IsSpace(r[|r| - 1])
    ensures forall i :: |r| <= i < |s| ==> IsSpace(s[i])
    decreases |s|
  {
    if |s| > 0 && IsSpace(s[|s| - 1]) then TrimEnd(s[..|s| - 1]) else s
  }

  /** `s.trim()`: the longest infix of `s` that neither starts nor ends with
      whitespace; empty exactly when `s` is all whitespace. */
  function Trim(s: string): (r: string)
    ensures r == "" || (!IsSpace(r[0]) && !IsSpace(r[|r| - 1]))
    ensures exists k :: OccursAt(s, r, k)
    ensures r == "" <==> forall i :: 0 <= i < |s| ==> IsSpace(s[i])
  {
    var a := TrimStart(s);
    var r := TrimEnd(a);
    TrimFacts(s, a, r);
    r
  }

  /** The facts `Trim` states, from what `TrimStart` and `TrimEnd` promise. */
  lemma TrimFacts(s: string, a: string, r: string)
    requires |a| <= |s| && a == s[|s| - |a|..]
    requires a == "" || !IsSpace(a[0])
    requires forall i :: 0 <= i < |s| - |a| ==> IsSpace(s[i])
    requires |r| <= |a| && r == a[..|r|]
    requires r == "" || !IsSpace(r[|r| - 1])
    requires forall i :: |r| <= i < |a| ==> IsSpace(a[i])
    ensures r == "" || (!IsSpace(r[0]) && !IsSpace(r[|r| - 1]))
    ensures OccursAt(s, r, |s| - |a|)
    ensures r == "" <==> forall i :: 0 <= i < |s| ==> IsSpace(s[i])
  {
    var k := |s| - |a|;
    assert forall i :: 0 <= i < |r| ==> r[i] == a[i] == s[k + i];
    assert s[k..k + |r|] == r;
    if r == "" {
      // `a` is all whitespace yet does not start with whitespace, so it is empty
      assert a == "";
    } else {
      assert !IsSpace(s[k]);
    }
  }

  // ---------------------------------------------------------------------------
  // Splitting on a separator
  // ---------------------------------------------------------------------------

  /** `s.split(sep)` for a one-character separator: always at least one part,
      and empty parts where separators are adjacent or at either end. */
  function Split(s: string, sep: char): (parts: seq<string>)
    ensures |parts| >= 1
    decreases |s|
  {
    if s == [] then [""]
    else if s[0] == sep then [""] + Split(s[1..], sep)
    else
      var rest := Split(s[1..], sep);
      [[s[0]] + rest[0]] + rest[1..]
  }

  /** `parts.join(sep)` */
  function Join(parts: seq<string>, sep: char): string
    decreases |parts|
  {
    if |parts| == 0 then ""
    else if |parts| == 1 then parts[0]
    else parts[0] + [sep] + Join(parts[1..], sep)
  }

  /** Splitting loses nothing: joining the parts back gives the original. */
  lemma {:induction false} SplitJoin(s: string, sep: char)
    ensures Join(Split(s, sep), sep) == s
    decreases |s|
  {
    if s == [] {
    } else if s[0] == sep {
      SplitJoin(s[1..], sep);
      var rest := Split(s[1..], sep);
      assert Split(s, sep) == [""] + rest;
      assert ([""] + rest)[1..] == rest;
    } else {
      SplitJoin(s[1..], sep);
      var rest := Split(s[1..], sep);
      var parts := [[s[0]] + rest[0]] + rest[1..];
      assert Split(s, sep) == parts;
      if |rest| == 1 {
        assert Join(parts, sep) == [s[0]] + rest[0] == [s[0]] + s[1..];
      } else {
        assert parts[1..] == rest[1..];
        assert Join(rest, sep) == rest[0] + [sep] + Join(rest[1..], sep);
        assert Join(parts, sep) == [s[0]] + rest[0] + [sep] + Join(rest[1..], sep);
      }
    }
  }

  /** No part of a split contains the separator. */
  lemma {:induction false} SplitPartsFree(s: string, sep: char)
    ensures forall k :: 0 <= k < |Split(s, sep)| ==> sep !in Split(s, sep)[k]
    decreases |s|
  {
    if s != [] {
      SplitPartsFree(s[1..], sep);
      var rest := Split(s[1..], sep);
      if s[0] != sep {
        assert sep !in rest[0];
        assert sep !in [s[0]] + rest[0];
      }
    }
  }

  // ---------------------------------------------------------------------------
  // Decimal numbers: `String(n)` and `parseInt(s)`
  // ---------------------------------------------------------------------------

  predicate IsDigit(c: char) {
    '0' <= c <= '9'
  }

  function DigitChar(d: nat): char
    requires d < 10
  {
    (48 + d) as char
  }

  function DigitValue(c: char): nat
    requires IsDigit(c)
  {
    c as int - 48
  }

  /** The decimal rendering of a natural number, as template literals do. */
  function NatToString(n: nat): (r: string)
    ensures |r| >= 1 && forall i :: 0 <= i < |r| ==> IsDigit(r[i])
    decreases n
  {
    if n < 10 then [DigitChar(n)] else NatToString(n / 10) + [DigitChar(n % 10)]
  }

  function IntToString(i: int): string {
    if i < 0 then "-" + NatToString(-i) else NatToString(i)
  }

  /** The value of a string of decimal digits. */
  function DigitsValue(ds: string): nat
    requires forall i :: 0 <= i < |ds| ==> IsDigit(ds[i])
    decreases |ds|
  {
    if ds == [] then 0 else DigitsValue(ds[..|ds| - 1]) * 10 + DigitValue(ds[|ds| - 1])
  }

  /** The longest prefix of `s` made of decimal digits. */
  function LeadingDigits(s: string): (r: string)
    ensures |r| <= |s| && r == s[..|r|]
    ensures forall i :: 0 <= i < |r| ==> IsDigit(r[i])
    ensures |r| < |s| ==> !IsDigit(s[|r|])
    decreases |s|
  {
    if |s| > 0 && IsDigit(s[0]) then [s[0]] + LeadingDigits(s[1..]) else ""
  }

  /** `parseInt(s)` on decimal text: leading whitespace, an optional sign,
      then as many digits as there are; `None` stands for `NaN` (no digits
      at all). The `0x` prefix and the loss of precision beyond 2^53 are not
      modelled: every caller reads the value of a number input, which holds
      plain decimal text. */
  function ParseInt(s: string): Option<int> {
    ParseTrimmed(TrimStart(s))
  }

  /** `parseInt` after the leading white space: an optional sign, then the
      digits. */
  function ParseTrimmed(t: string): Option<int> {
    var negative := |t| > 0 && t[0] == '-';
    var body := if |t| > 0 && (t[0] == '-' || t[0] == '+') then t[1..] else t;
    var ds := LeadingDigits(body);
    var v: int := if ds == "" then 0 else DigitsValue(ds);
    if ds == "" then None
    else if negative then Some(-v)
    else Some(v)
  }

  lemma {:induction false} DigitsOfNat(n: nat)
    ensures DigitsValue(NatToString(n)) == n
    decreases n
  {
    if n >= 10 {
      DigitsOfNat(n / 10);
      var s := NatToString(n);
      assert s[..|s| - 1] == NatToString(n / 10);
    }
  }

  lemma LeadingDigitsOfDigits(s: string)
    requires forall i :: 0 <= i < |s| ==> IsDigit(s[i])
    ensures LeadingDigits(s) == s
  {
  }

  /** `parseInt` reads back what `String` wrote, for every integer. */
  lemma ParseIntRoundTrip(i: int)
    ensures ParseInt(IntToString(i)) == Some(i)
  {
    var s := IntToString(i);
    var n: nat := if i < 0 then -i else i;
    var ds := NatToString(n);
    DigitsOfNat(n);
    LeadingDigitsOfDigits(ds);
    assert !IsSpace(s[0]);
    assert TrimStart(s) == s;
    if i < 0 {
      assert s[1..] == ds;
    }
  }

  /** Leading white space is skipped before anything is trimmed. */
  lemma {:induction false} TrimStartSkipsSpaces(ws: string, s: string)
    requires forall i :: 0 <= i < |ws| ==> IsSpace(ws[i])
    ensures TrimStart(ws + s) == TrimStart(s)
    decreases |ws|
  {
    if ws == [] {
      assert ws + s == s;
    } else {
      assert (ws + s)[0] == ws[0];
      assert (ws + s)[1..] == ws[1..] + s;
      TrimStartSkipsSpaces(ws[1..], s);
    }
  }

  /** `parseInt` reads past leading white space of every kind it knows. */
  lemma ParseIntSkipsSpaces(ws: string, s: string)
    requires forall i :: 0 <= i < |ws| ==> IsSpace(ws[i])
    ensures ParseInt(ws + s) == ParseInt(s)
  {
    TrimStartSkipsSpaces(ws, s);
  }
}

=== FILE: view_activities.dfy ===
/** The barangay activities page: the children of the top-level `Activities`
    node when there are any, otherwise one made-up recycling row per user with
    a positive balance; a search box; and three summary cards. */
module ViewActivities {
  import opened Wrappers
  import opened Text
  import opened Seqs
  import opened Tables
  import opened Store
  import opened Activities
  import Dashboard

  /** A row of the list. A child of `Activities` lacking a field reads as ""
      (or 0 points) here, which the search and the cards treat as the
      missing field. */
  datatype Row = Row(
    activityID: string,
    userID: string,
    username: string,
    kind: string,
    description: string,
    points: int,
    date: int,
    status: string
  )

  const Completed := "completed"

  /** `user.createdAt || now`: a stored creation time is a non-empty
      date string, so only a missing one is falsy. */
  function MockDate(e: Entry<Account>, now: int): int {
    if e.value.createdAt.Some? then e.value.createdAt.value else now
  }

  function MockRow(e: Entry<Account>, now: int): Row {
    Row("activity_" + e.key, e.key, e.value.username, Recycling,
        "Recycling activity - earned " + IntToString(e.value.points) + " points",
        e.value.points, MockDate(e, now), Completed)
  }

  /** The `map` step: one row per user, in the users' order. */
  function MockRows(us: seq<Entry<Account>>, now: int): (r: seq<Row>)
    ensures |r| == |us|
    ensures forall i :: 0 <= i < |us| ==> r[i] == MockRow(us[i], now)
    decreases |us|
  {
    if us == [] then [] else [MockRow(us[0], now)] + MockRows(us[1..], now)
  }

  function DateOf(r: Row): int { r.date }

  /** Every user gets its row, and every row belongs to a user. */
  lemma {:induction false} MockRowsMembers(us: seq<Entry<Account>>, now: int)
    ensures forall e :: e in us ==> MockRow(e, now) in MockRows(us, now)
    ensures forall x :: x in MockRows(us, now) ==> exists e :: e in us && x == MockRow(e, now)
    decreases |us|
  {
    if us != [] {
      var tail := us[1..];
      MockRowsMembers(tail, now);
      var rows := MockRows(us, now);
      assert rows == [MockRow(us[0], now)] + MockRows(tail, now);
      forall e | e in us
        ensures MockRow(e, now) in rows
      {
        if e != us[0] {
          assert e in tail;
        }
      }
      forall x | x in rows
        ensures exists e :: e in us && x == MockRow(e, now)
      {
        if x != rows[0] {
          assert x in MockRows(tail, now);
          var e :| e in tail && x == MockRow(e, now);
          assert e in us;
        } else {
          assert us[0] in us;
        }
      }
    }
  }

  /** `mockActivities`: a recycling row for exactly the users with a positive
      balance, newest creation time first. */
  function MockActivities(users: Table<Account>, now: int): (r: seq<Row>)
    ensures forall e :: e in users && Dashboard.Active(e) ==> MockRow(e, now) in r
    ensures forall x :: x in r ==> exists e :: e in users && Dashboard.Active(e) && x == MockRow(e, now)
    ensures forall i, j :: 0 <= i < j < |r| ==> DateOf(r[i]) >= DateOf(r[j])
  {
    var active := Filter(users, Dashboard.Active);
    var rows := MockRows(active, now);
    var sorted := SortDesc(rows, DateOf);
    MultisetMembers(sorted, rows);
    MockRowsMembers(active, now);
    sorted
  }

  /** `displayActivities`: the stored activities, or the mock list when the
      node has no children. */
  function DisplayActivities(feed: seq<Row>, users: Table<Account>, now: int): (r: seq<Row>)
    ensures feed != [] ==> r == feed
    ensures feed == [] ==> r == MockActivities(users, now)
  {
    if |feed| > 0 then feed else MockActivities(users, now)
  }

  // ---------------------------------------------------------------------------
  // Search
  // ---------------------------------------------------------------------------

  /** `username`, `description` or `type` contains the term, ignoring case;
      `?.` on a missing field gives `undefined`, which does not match. */
  predicate RowMatches(row: Row, term: string) {
    || FieldMatches(row.username, term)
    || FieldMatches(row.description, term)
    || FieldMatches(row.kind, term)
  }

  /** `filteredActivities` */
  function FilteredActivities(display: seq<Row>, term: string): (r: seq<Row>)
    ensures term == "" ==> r == display
    ensures term != "" ==> forall x :: x in r <==> x in display && RowMatches(x, term)
    ensures Subseq(r, display)
  {
    Search(display, term, (x: Row) => RowMatches(x, term))
  }

  /** Searching for a row's own user name always finds that row. */
  lemma SearchFindsUsername(display: seq<Row>, i: nat)
    requires i < |display| && display[i].username != ""
    ensures display[i] in FilteredActivities(display, display[i].username)
  {
    var u := Lower(display[i].username);
    assert u[..|u|] == u;
  }

  // ---------------------------------------------------------------------------
  // Summary cards
  // ---------------------------------------------------------------------------

  datatype Summary = Summary(total: nat, pointsDistributed: int, activeUsers: nat)

  function RowPoints(r: Row): int { r.points }

  /** `new Set(rows.map(a => a.userID))` */
  function UserIDs(rows: seq<Row>): set<string> {
    set x | x in rows :: x.userID
  }

  /** The three cards: the number of rows, their points (`|| 0`) summed, and
      the number of distinct user ids among them, which is never more than
      the rows and is 0 only for no rows. */
  function SummaryOf(rows: seq<Row>): (s: Summary)
    ensures s.total == |rows|
    ensures s.pointsDistributed == Sum(rows, RowPoints)
    ensures s.activeUsers <= s.total
    ensures s.activeUsers == 0 <==> rows == []
    ensures forall id :: id in UserIDs(rows) <==> exists i :: 0 <= i < |rows| && rows[i].userID == id
  {
    UserIDsAtMostRows(rows);
    assert rows != [] ==> rows[0].userID in UserIDs(rows);
    Summary(|rows|, Sum(rows, RowPoints), |UserIDs(rows)|)
  }

  /** Each row adds at most one user id. */
  lemma {:induction false} UserIDsAtMostRows(rows: seq<Row>)
    ensures |UserIDs(rows)| <= |rows|
    decreases |rows|
  {
    if rows != [] {
      UserIDsAtMostRows(rows[1..]);
      assert UserIDs(rows) == {rows[0].userID} + UserIDs(rows[1..]);
    }
  }

  function PositivePoints(e: Entry<Account>): int {
    if e.value.points > 0 then e.value.points else 0
  }

  /** The set of users with a positive balance, by key. */
  function ActiveKeys(users: Table<Account>): set<string> {
    set e | e in users && Dashboard.Active(e) :: e.key
  }

  /** With no stored activities the cards describe the users themselves: one
      activity per user with a positive balance, the positive balances
      summed, and those users as the active ones. */
  lemma MockSummary(users: Table<Account>, now: int)
    ensures var s := SummaryOf(MockActivities(users, now));
      && s.total == Count(users, Dashboard.Active)
      && s.pointsDistributed == Sum(users, PositivePoints)
    ensures UserIDs(MockActivities(users, now)) == ActiveKeys(users)
  {
    var active := Filter(users, Dashboard.Active);
    var rows := MockRows(active, now);
    var mock := MockActivities(users, now);
    assert mock == SortDesc(rows, DateOf);
    CountIsFilterLength(users, Dashboard.Active);
    SumMultiset(mock, rows, RowPoints);
    MockRowsPoints(active, now);
    SumFilter(users, Dashboard.Active, Dashboard.PointsOf, PositivePoints);
    forall id | id in UserIDs(mock)
      ensures id in ActiveKeys(users)
    {
      var x :| x in mock && x.userID == id;
      var e :| e in users && Dashboard.Active(e) && x == MockRow(e, now);
    }
    forall id | id in ActiveKeys(users)
      ensures id in UserIDs(mock)
    {
      var e :| e in users && Dashboard.Active(e) && e.key == id;
      assert MockRow(e, now) in mock;
    }
  }

  /** The mock rows carry their users' balances. */
  lemma {:induction false} MockRowsPoints(us: seq<Entry<Account>>, now: int)
    ensures Sum(MockRows(us, now), RowPoints) == Sum(us, Dashboard.PointsOf)
    decreases |us|
  {
    if us != [] {
      MockRowsPoints(us[1..], now);
    }
  }
}

=== FILE: view_users.dfy ===
/** The barangay users page: the Users table, narrowed by a search box, with
    an active or inactive status per user. */
module ViewUsers {
  import opened Text
  import opened Seqs
  import opened Tables
  import opened Store

  /** `username`, `email` or `address` contains the term, ignoring case; a
      missing field does not match. */
  predicate UserMatches(e: Entry<Account>, term: string) {
    || FieldMatches(e.value.username, term)
    || FieldMatches(e.value.email, term)
    || FieldMatches(e.value.address, term)
  }

  /** `filteredUsers` */
  function FilteredUsers(users: Table<Account>, term: string): (r: Table<Account>)
    ensures term == "" ==> r == users
    ensures term != "" ==> forall e :: e in r <==> e in users && UserMatches(e, term)
    ensures Subseq(r, users)
  {
    Search(users, term, (e: Entry<Account>) => UserMatches(e, term))
  }

  /** Typing more never brings a user back: every user a term finds is found
      by any non-empty part of it, ignoring case. */
  lemma NarrowingTerm(users: Table<Account>, longer: string, shorter: string)
    requires shorter != "" && longer != ""
    requires ContainsCI(longer, shorter)
    ensures forall e :: e in FilteredUsers(users, longer) ==> e in FilteredUsers(users, shorter)
  {
    forall e | e in FilteredUsers(users, longer)
      ensures e in FilteredUsers(users, shorter)
    {
      if FieldMatches(e.value.username, longer) {
        ContainsTrans(Lower(e.value.username), Lower(longer), Lower(shorter));
      } else if FieldMatches(e.value.email, longer) {
        ContainsTrans(Lower(e.value.email), Lower(longer), Lower(shorter));
      } else {
        ContainsTrans(Lower(e.value.address), Lower(longer), Lower(shorter));
      }
    }
  }

  datatype Status = Active | Inactive

  /** The status badge: active exactly when the balance is positive. */
  function StatusOf(e: Entry<Account>): (s: Status)
    ensures s == Active <==> e.value.points > 0
  {
    if e.value.points > 0 then Active else Inactive
  }
}

=== FILE: wallet.dfy ===
/** The digital wallet page: activities shown as transactions, the statistics
    it feeds to the achievement engine, the wallet totals and the time-window
    filter. */
module Wallet {
  import opened Wrappers
  import opened Seqs
  import opened Tables
  import opened Store
  import opened Activities
  import opened Achievements

  // ---------------------------------------------------------------------------
  // Transactions
  // ---------------------------------------------------------------------------

  datatype Direction = Earned | Redeemed

  /** One row of the transaction history. `date` is in milliseconds. */
  datatype Transaction = Transaction(
    id: string,
    direction: Direction,
    amount: int,
    description: string,
    date: int,
    category: string,
    metadata: Metadata
  )

  /** The mapping of one stored activity to a transaction at time `now`: the
      sign of `pointsEarned` decides the direction, a missing title, time or
      type falls back to "Unknown Activity", `now` and "other". */
  function ToTransaction(e: Entry<Activity>, now: int): (t: Transaction)
    ensures t.direction == Earned <==> e.value.pointsEarned >= 0
    ensures t.amount == e.value.pointsEarned
    ensures t.id == e.key
    ensures t.category == (if e.value.kind == "" then "other" else e.value.kind)
    ensures t.date == (if e.value.timestamp == 0 then now else e.value.timestamp)
  {
    var a := e.value;
    Transaction(
      e.key,
      if a.pointsEarned >= 0 then Earned else Redeemed,
      a.pointsEarned,
      if a.title == "" then "Unknown Activity" else a.title,
      if a.timestamp == 0 then now else a.timestamp,
      if a.kind == "" then "other" else a.kind,
      a.metadata)
  }

  function DateOf(t: Transaction): int {
    t.date
  }

  /** The transaction history of an activity log, newest first. */
  function Transactions(log: Table<Activity>, now: int): (ts: seq<Transaction>)
    ensures |ts| == |log|
    ensures multiset(ts) == multiset(seq(|log|, i requires 0 <= i < |log| => ToTransaction(log[i], now)))
    ensures forall i, j :: 0 <= i < j < |ts| ==> ts[i].date >= ts[j].date
  {
    SortDesc(seq(|log|, i requires 0 <= i < |log| => ToTransaction(log[i], now)), DateOf)
  }

  // ---------------------------------------------------------------------------
  // calculateUserStats
  // ---------------------------------------------------------------------------

  predicate IsEarned(t: Transaction) { t.direction == Earned }
  predicate IsRedeemed(t: Transaction) { t.direction == Redeemed }
  predicate IsRecycling(t: Transaction) { t.category == Recycling }
  predicate IsLearning(t: Transaction) { t.category == Learning }

  function Amount(t: Transaction): int {
    t.amount
  }

  /** Transactions read from the log carry the direction their sign gives. */
  predicate SignConsistent(ts: seq<Transaction>) {
    forall i :: 0 <= i < |ts| ==> (ts[i].direction == Earned <==> ts[i].amount >= 0)
  }

  /** Sum of the earned amounts. */
  function TotalEarned(ts: seq<Transaction>): int {
    Sum(Filter(ts, IsEarned), Amount)
  }

  /** `Math.abs` of the sum of the redeemed amounts. */
  function TotalRedeemed(ts: seq<Transaction>): (r: int)
    ensures r >= 0
  {
    Abs(Sum(Filter(ts, IsRedeemed), Amount))
  }

  /** Earned minus redeemed is the net change of the history. */
  lemma EarnedMinusRedeemed(ts: seq<Transaction>)
    requires SignConsistent(ts)
    ensures TotalEarned(ts) >= 0
    ensures TotalEarned(ts) - TotalRedeemed(ts) == Sum(ts, Amount)
  {
    var e := Filter(ts, IsEarned);
    var r := Filter(ts, IsRedeemed);
    assert forall i :: 0 <= i < |e| ==> e[i] in ts;
    SumNonNegative(e, Amount);
    assert forall i :: 0 <= i < |r| ==> r[i] in ts;
    SumNonPositive(r, Amount);
    SumPartition(ts, IsEarned, IsRedeemed, Amount);
  }

  /** Whether some recycling transaction falls on calendar day `d`. */
  predicate RecycledOn(rs: seq<Transaction>, dayOf: int -> int, d: int) {
    exists i :: 0 <= i < |rs| && dayOf(rs[i].date) == d
  }

  const MaxStreak: nat := 30

  /** The streak loop from its `k`-th day back: counts days `today - k`,
      `today - k - 1`, … that have a recycling record, stopping at the first
      gap or at 30. */
  function StreakFrom(rs: seq<Transaction>, dayOf: int -> int, today: int, k: nat): (n: nat)
    requires k <= MaxStreak
    ensures k <= n <= MaxStreak
    ensures forall d :: today - n < d <= today - k ==> RecycledOn(rs, dayOf, d)
    ensures n < MaxStreak ==> !RecycledOn(rs, dayOf, today - n)
    decreases MaxStreak - k
  {
    if k == MaxStreak then k
    else if RecycledOn(rs, dayOf, today - k) then StreakFrom(rs, dayOf, today, k + 1)
    else k
  }

  /** `calculateRecyclingStreak`: the number of consecutive days ending today
      with a recycling record, at most 30. `dayOf` maps a time to its
      calendar day. */
  function Streak(rs: seq<Transaction>, dayOf: int -> int, today: int): (n: nat)
    ensures n <= MaxStreak
    ensures forall d :: today - n < d <= today ==> RecycledOn(rs, dayOf, d)
    ensures n < MaxStreak ==> !RecycledOn(rs, dayOf, today - n)
  {
    StreakFrom(rs, dayOf, today, 0)
  }

  /** The streak is the only count with those two properties. */
  lemma StreakUnique(rs: seq<Transaction>, dayOf: int -> int, today: int, m: nat)
    requires m <= MaxStreak
    requires forall d :: today - m < d <= today ==> RecycledOn(rs, dayOf, d)
    requires m < MaxStreak ==> !RecycledOn(rs, dayOf, today - m)
    ensures Streak(rs, dayOf, today) == m
  {
    var n := Streak(rs, dayOf, today);
    assert n < m ==> RecycledOn(rs, dayOf, today - n);
    assert m < n ==> RecycledOn(rs, dayOf, today - m);
  }

  /** `calculateWasteReduced`: a tenth of the recycling points, rounded down. */
  function WasteReduced(rs: seq<Transaction>): (w: int)
    ensures w * 10 <= Sum(rs, Amount) < w * 10 + 10
  {
    Sum(rs, Amount) / 10
  }

  /** `calculateUserStats(transactions)`; `consecutiveDays` is the streak
      again and `isEarlyAdopter` is always false. */
  function StatsOf(ts: seq<Transaction>, dayOf: int -> int, today: int): (s: UserStats)
    ensures s.totalPointsEarned == TotalEarned(ts)
    ensures s.totalPointsRedeemed == TotalRedeemed(ts) >= 0
    ensures s.recyclingActivitiesCount == Count(ts, IsRecycling)
    ensures s.learningActivitiesCount == Count(ts, IsLearning)
    ensures s.recyclingStreak == s.consecutiveDays <= MaxStreak
    ensures !s.isEarlyAdopter
  {
    var recycling := Filter(ts, IsRecycling);
    var learning := Filter(ts, IsLearning);
    CountIsFilterLength(ts, IsRecycling);
    CountIsFilterLength(ts, IsLearning);
    UserStats(
      TotalEarned(ts),
      TotalRedeemed(ts),
      |recycling|,
      |learning|,
      Streak(recycling, dayOf, today),
      WasteReduced(recycling),
      Streak(recycling, dayOf, today),
      false)
  }

  /** Only records whose type is exactly `recycling` count as recycling, so
      adding a bonus or registration record changes neither the count, the
      streak nor the waste figure. */
  lemma OtherTypesDoNotCount(ts: seq<Transaction>, t: Transaction, dayOf: int -> int, today: int)
    requires t.category != Recycling
    ensures StatsOf(ts + [t], dayOf, today).recyclingActivitiesCount == StatsOf(ts, dayOf, today).recyclingActivitiesCount
    ensures StatsOf(ts + [t], dayOf, today).recyclingStreak == StatsOf(ts, dayOf, today).recyclingStreak
    ensures StatsOf(ts + [t], dayOf, today).totalWasteReduced == StatsOf(ts, dayOf, today).totalWasteReduced
  {
    FilterSnoc(ts, t, IsRecycling);
    assert Filter(ts + [t], IsRecycling) == Filter(ts, IsRecycling);
  }

  // ---------------------------------------------------------------------------
  // The achievement recomputation
  // ---------------------------------------------------------------------------

  /** The recomputation the wallet triggers: nothing without a user id or
      without transactions, otherwise `checkAndUpdateAchievements` with the
      statistics of the history. */
  method RecomputeAchievements(db: Db, userID: string, ts: seq<Transaction>, dayOf: int -> int, today: int, now: int)
    returns (db': Db)
    ensures userID == "" || ts == [] ==> db' == db
    ensures userID != "" && ts != [] ==>
      forall c :: c in CheckList(StatsOf(ts, dayOf, today)) ==>
        AchievementOf(db', userID, c.kind) == Some(ProgressRecord(c.kind, c.progress, now))
    ensures OnlyUserChanged(db, db', userID)
  {
    if userID == "" || ts == [] {
      return db;
    }
    var r := CheckAndUpdate(db, userID, StatsOf(ts, dayOf, today), now);
    return r.value.db;
  }

  // ---------------------------------------------------------------------------
  // walletCalculations and the time filter
  // ---------------------------------------------------------------------------

  const DayMs := 24 * 60 * 60 * 1000

  datatype WalletTotals = WalletTotals(currentBalance: int, totalEarned: int, totalRedeemed: int, pointsTrend: int)

  /** Transactions dated within the last 30 days. */
  function Recent(ts: seq<Transaction>, now: int): (r: seq<Transaction>)
    ensures forall t :: t in r <==> t in ts && t.date >= now - 30 * DayMs
    ensures Subseq(r, ts) && multiset(r) <= multiset(ts)
    ensures forall t: Transaction :: t.date >= now - 30 * DayMs ==> multiset(r)[t] == multiset(ts)[t]
  {
    var p := (t: Transaction) => t.date >= now - 30 * DayMs;
    FilterKeepsOrder(ts, p);
    FilterMultiset(ts, p);
    Filter(ts, p)
  }

  /** `walletCalculations`: the balance as read, the totals, and the net of
      the last 30 days. */
  function Totals(balance: int, ts: seq<Transaction>, now: int): (w: WalletTotals)
    ensures w.currentBalance == balance
    ensures w.totalEarned == TotalEarned(ts) && w.totalRedeemed == TotalRedeemed(ts)
  {
    var recent := Recent(ts, now);
    WalletTotals(balance, TotalEarned(ts), TotalRedeemed(ts), TotalEarned(recent) - TotalRedeemed(recent))
  }

  /** The trend is the net point change of the last 30 days. */
  lemma TrendIsNetChange(balance: int, ts: seq<Transaction>, now: int)
    requires SignConsistent(ts)
    ensures Totals(balance, ts, now).pointsTrend == Sum(Recent(ts, now), Amount)
  {
    var recent := Recent(ts, now);
    assert SignConsistent(recent) by {
      assert forall i :: 0 <= i < |recent| ==> recent[i] in ts;
    }
    EarnedMinusRedeemed(recent);
  }

  /** The window of a time filter value; `None` keeps everything. */
  function WindowOf(filter: string): Option<int> {
    match filter
    case "week" => Some(7 * DayMs)
    case "month" => Some(30 * DayMs)
    case "year" => Some(365 * DayMs)
    case _ => None
  }

  predicate InWindow(t: Transaction, filter: string, now: int) {
    filter == "all" || WindowOf(filter).None? || now - t.date <= WindowOf(filter).value
  }

  /** `filteredTransactions`: the transactions inside the chosen window,
      newest first. */
  function FilterByTime(ts: seq<Transaction>, filter: string, now: int): (r: seq<Transaction>)
    ensures forall t :: t in r <==> t in ts && InWindow(t, filter, now)
    ensures forall i, j :: 0 <= i < j < |r| ==> r[i].date >= r[j].date
    ensures filter == "all" || WindowOf(filter).None? ==> multiset(r) == multiset(ts)
    ensures multiset(r) <= multiset(ts)
    ensures forall t :: InWindow(t, filter, now) ==> multiset(r)[t] == multiset(ts)[t]
  {
    if ts == [] then []
    else
      var kept := Filter(ts, (t: Transaction) => InWindow(t, filter, now));
      var r := SortDesc(kept, DateOf);
      MultisetMembers(r, kept);
      FilterMultiset(ts, (t: Transaction) => InWindow(t, filter, now));
      assert filter == "all" || WindowOf(filter).None? ==> kept == ts by {
        if filter == "all" || WindowOf(filter).None? {
          FilterAll(ts, (t: Transaction) => InWindow(t, filter, now));
        }
      }
      r
  }
}

=== FILE: wrappers.dfy ===
/** Failure-carrying values used throughout the model: the JavaScript code
    signals errors by throwing or by returning `{ success: false, message }`,
    which the model turns into `Err(message)`. */
module Wrappers {

  /** A value that may be absent (JavaScript `undefined` / `null`). */
  datatype Option<+T> = None | Some(value: T) {

    /** The wrapped value, or `default` when absent (JavaScript `x ?? default`). */
    function GetOr(default: T): T {
      match this
      case Some(v) => v
      case None => default
    }
  }

  /** The outcome of an operation that may fail with a message. */
  datatype Result<+T> = Ok(value: T) | Err(msg: string) {

    predicate IsFailure() {
      Err?
    }

    function PropagateFailure<U>(): Result<U>
      requires Err?
    {
      Err(msg)
    }

    function Extract(): T
      requires Ok?
    {
      value
    }
  }
}
